=== FILE: README.md ===
# fsbff tools, modelled in Dafny

The fsbff tools ("FamilySearch big file format") turn FamilySearch GEDCOM X
bulk-export files into compact person records and compute statistics over
them. This project models the logic of six of those Go programs as pure
Dafny functions and short methods. The contracts and lemmas listed under
"Model" state what each program computes; what the model does not cover is
listed under "Left out".

- **fsxml2protobuf** converts the GEDCOM X records of one file into person
  records. It reads the gender, contributors, sources, facts and relatives of
  each person. Fact types are normalised, years are taken from free-text
  dates, and places go through a standard-place table. Records are walked
  latest first, and a person already seen is skipped. Modules:
  `GedcomX` (input records), `FsData` (output records), `Normalize` (the
  per-field conversions) and `Converter` (tables and the record loop).
- **migrations** sorts each person's dated places and counts the moves
  between consecutive places dated 1500 to 2015. Each move is counted at
  every level pair (county, state, country) and per decade, together with
  emigration and immigration totals. The counters of all files are then
  merged. Modules: `MigrationPlaces` (place standardisation, the
  `migrated` rule, the sort order), `Migrations` (`Migrations.add` and its
  counters) and `MigrationFiles` (`processFile` and the merge in `main`).
- **filterbyevent** (`FilterByEvent`) outputs the ids of persons with a
  fact that matches a type, a list of places and a year range.
- **extractsourceids** (`ExtractSourceIds`) outputs the source ids of all
  persons, or of the persons listed in an id file.
- **counteventtypes** (`CountEventTypes`) counts facts per type in each
  file and merges the counts.
- **countlines** (`CountLines`) counts equal lines of a text file, after
  cutting bad lines at `,"`.

Shared modules:

- `Wrappers`: options stand in for Go's nil pointers.
- `Strings`: Go's `strings` functions.
- `Counters`: a `map[K]int` in which a missing key reads as 0.
- `Decimal`: the `%0Nd` formatting.
- `Lines`: writing text files line by line, and `bufio.Scanner` reading them
  back.

File arrival order, map iteration order and worker goroutines are not
modelled as state. They appear instead as lemmas saying the result does not
depend on them.

## Model

| member | source | states |
|---|---|---|
| Counters.Inc | counteventtypes/counteventtypes.go:53 | `m[k] = m[k] + c` on a Go map makes `k` present, raises its count by `c` and leaves every other entry as it was |
| Counters.Merge | counteventtypes/counteventtypes.go:111-113 | after the per-key merge loop, every key of either counter is present and holds the sum of its two counts |
| Counters.SumPlus | counteventtypes/counteventtypes.go:111-113 | merging two counters adds their grand totals |
| Counters.PlusCommutes | counteventtypes/counteventtypes.go:109-113 | merging two counters into an accumulator gives the same result in either order |
| Counters.Tally | countlines/countlines.go:40 | counting `lines[line]++` over a sequence gives each key its number of occurrences, and only the keys that occur are present |
| Counters.TallySum | countlines/countlines.go:40 | the counts of a tally add up to the number of elements tallied |
| Decimal.ZeroPad | counteventtypes/counteventtypes.go:125 | `%09d` of a non-negative count is all digits, has that count as its value and is as wide as the width or the count's digits, whichever is wider |
| Decimal.PadInt | countlines/countlines.go:49 | `%06d` of a negative count is a minus sign followed by the digits of its magnitude |
| Decimal.FormatParseRoundTrip | counteventtypes/counteventtypes.go:125 | a padded count, a non-digit separator and a key read back as exactly that count and key, even when the key contains the separator |
| Decimal.NegativeNotParsed | countlines/countlines.go:49 | a negative count does not read back as a count |
| Lines.ScanLines | countlines/countlines.go:30-31 | the lines the scanner yields contain no newline |
| Lines.ScanWriteLines | extractsourceids/extractsourceids.go:133-142 | lines without a newline or a trailing carriage return, written one per line and scanned again, come back unchanged and in order |
| Normalize.GetGender | fsxml2protobuf/fsxml2protobuf.go:102-111 | male and female exactly for the two GEDCOM X gender URIs; unknown for every other type |
| Normalize.RelationshipContributors | fsxml2protobuf/fsxml2protobuf.go:122-126 | a contributor comes from relationships exactly when it is attributed to some fact of some relationship |
| Normalize.GetContributors | fsxml2protobuf/fsxml2protobuf.go:113-134 | the contributors are exactly the non-empty attributions of the person's gender, names, facts and relationship facts |
| Normalize.GetFactType | fsxml2protobuf/fsxml2protobuf.go:163-173 | a GEDCOM X type URI gives its last path segment; a custom type gives the canonical name its lower-cased key maps to, or `OTHER` when the key is unknown |
| Normalize.GedcomxFactTypeExample | fsxml2protobuf/fsxml2protobuf_test.go:64 | the Birth URI gives `Birth` |
| Normalize.UnknownCustomTypeExample | fsxml2protobuf/fsxml2protobuf_test.go:65 | an unknown custom type gives `OTHER` |
| Normalize.CustomTypeExample | fsxml2protobuf/fsxml2protobuf_test.go:66 | the custom type `will` gives `Will` |
| Normalize.UpperCaseCustomTypeExample | fsxml2protobuf/fsxml2protobuf_test.go:67 | the custom type key is matched ignoring case: `RESIDENCE` gives `Residence` |
| Normalize.GetYear | fsxml2protobuf/fsxml2protobuf.go:175-184 | the year is the value of the leftmost run of four digits in the date, and 0 when there is none; it never exceeds 9999 |
| Normalize.YearFromWindow | fsxml2protobuf/fsxml2protobuf.go:175-184 | whatever four digits stand at the leftmost digit window are the year |
| Normalize.GetYearExamples | fsxml2protobuf/fsxml2protobuf_test.go:16-19 | a bare year, with tabs or spaces around it, gives that year |
| Normalize.GetYearTextExamples | fsxml2protobuf/fsxml2protobuf_test.go:20-21 | a year after words, as in `Abt 1980` and `25 April 1888`, is found |
| Normalize.GetYearBrokenRunExamples | fsxml2protobuf/fsxml2protobuf_test.go:22-23 | a year after a slash or run together with letters is found |
| Normalize.GetYearZeroExamples | fsxml2protobuf/fsxml2protobuf_test.go:15-25 | an empty date, a two-digit year and a month name give 0 |
| Normalize.PlaceKey | fsxml2protobuf/fsxml2protobuf.go:187 | the lookup key has the place's length, no tab, and every other character of the place where it stood |
| Normalize.GetStdPlace | fsxml2protobuf/fsxml2protobuf.go:186-193 | a place whose key has a non-empty standard form becomes that form, and any other place becomes its key; a tab-free place stays itself or becomes its table entry; the result is empty only for an empty place without a standard form |
| Normalize.GetStdPlaceOfKey | fsxml2protobuf/fsxml2protobuf.go:186-193 | a place and its key standardise alike |
| Normalize.GetStdPlaceTabFree | fsxml2protobuf/fsxml2protobuf.go:186-193 | with a table whose standard forms have no tab, no standardised place has one |
| Normalize.GetFact | fsxml2protobuf/fsxml2protobuf.go:195-220 | a fact is dropped exactly when its type is `OTHER`, it has no year and no place; a kept fact carries the normalised type, year, place and value, and says something |
| Normalize.ConvertFacts | fsxml2protobuf/fsxml2protobuf.go:222-238 | every kept fact is the conversion of one of the input facts, and there are no more kept facts than input facts |
| Normalize.ConvertFactsMembers | fsxml2protobuf/fsxml2protobuf.go:222-238 | a record is among the converted facts exactly when some input fact converts to it |
| Normalize.GetFactsSound | fsxml2protobuf/fsxml2protobuf.go:222-238 | every output fact is the conversion of some fact of the person or of its relationships |
| Normalize.GetFactsComplete | fsxml2protobuf/fsxml2protobuf.go:222-238 | every fact of the person or of its relationships that converts to a record has that record in the output |
| Normalize.GetFactsInformative | fsxml2protobuf/fsxml2protobuf.go:222-238 | every output fact has a known type, a year or a place |
| Normalize.GetFactsInTwoLoops | fsxml2protobuf/fsxml2protobuf.go:222-238 | the output is the person's own facts, converted, followed by the relationship facts, converted |
| Normalize.GetArkPid | fsxml2protobuf/fsxml2protobuf.go:240-242 | the id is the part of the ARK after its last colon, or the whole ARK when it has none |
| Normalize.IdsWithRole | fsxml2protobuf/fsxml2protobuf.go:244-272 | an id is listed for a role exactly when some relationship of the right kind names it in that role; empty ids are never listed |
| Normalize.IdsWithRoleSnoc | fsxml2protobuf/fsxml2protobuf.go:244-272 | each relationship appends at most its own id, in relationship order |
| Normalize.GetRelationships | fsxml2protobuf/fsxml2protobuf.go:244-272 | parents, children and spouses come from the parent-child and couple links, and together number at most the relationships |
| Converter.PlaceFieldsAreSplitFields | fsxml2protobuf/fsxml2protobuf.go:279-280 | the place and standard form of a table line are the first two tab-separated fields |
| Converter.LastLineAbout | fsxml2protobuf/fsxml2protobuf.go:274-283 | the index found is a line about the place, or -1, and no later line is about the place |
| Converter.ReadStdPlaces | fsxml2protobuf/fsxml2protobuf.go:274-283 | the table holds exactly the places named in the file, each with the standard form of the last line about it |
| Converter.ReadSourceRefs | fsxml2protobuf/fsxml2protobuf.go:285-294 | the table has an entry for exactly the persons some line names |
| Converter.RefsForMembers | fsxml2protobuf/fsxml2protobuf.go:285-294 | a source is listed for a person exactly when some line pairs the two |
| Converter.GetSourcesFromLines | fsxml2protobuf/fsxml2protobuf.go:285-294 | the sources of a person read from the table are that person's sources from the file, in file order |
| Converter.GetSourcesAsWritten | fsxml2protobuf/fsxml2protobuf.go:136-141 | taking the address of the loop variable keeps the number of sources |
| Converter.SourcesAliasing | fsxml2protobuf/fsxml2protobuf.go:136-141 | the sources as written are right exactly when all of the person's sources equal its last one |
| Converter.SourcesAliasingExample | fsxml2protobuf/fsxml2protobuf.go:136-141 | sources s1, s2 come out as s2, s2 |
| Converter.ConvertRecord | fsxml2protobuf/fsxml2protobuf.go:347-358 | the converted person keeps the record's id |
| Converter.ConvertRecordShape | fsxml2protobuf/fsxml2protobuf.go:347-358 | a converted person has the record's gender; its contributors are exactly the non-empty ids attributed somewhere in the record; its facts are the record's converted facts, each informative; its parents, children and spouses are the non-empty ids the relationships name in those roles, no more of them than there are relationships |
| Converter.ConvertRecordSources | fsxml2protobuf/fsxml2protobuf.go:136-141 | a converted person has as many sources as its table entry, each the entry's last source, so they are the entry itself exactly when all its sources are the same |
| Converter.LatestFirst | fsxml2protobuf/fsxml2protobuf.go:336-346 | the reverse walk with the seen-set picks, latest first, the last record of each id not seen before, and only those, and afterwards every id of the file is seen |
| Converter.ConvertFile | fsxml2protobuf/fsxml2protobuf.go:336-361 | one person for each id of the file not seen before and for no other id, each converted, sources as written included, from that id's last record, no id twice, in reverse record order; afterwards every id of the file is seen. Only the records picked must have fact types long enough to cut, since the records skipped are never read |
| Converter.ShadowedRecordsUnread | fsxml2protobuf/fsxml2protobuf.go:336-346 | a file may hold an earlier record of an id that comes again, or a record of an id already seen, with a fact type too short to cut: neither is read, so the file still meets the conversion's precondition |
| FilterByEvent.IsInPlace | filterbyevent/filterbyevent.go:25-32 | a place is in the list exactly when it ends with one of the listed places |
| FilterByEvent.AnyFactMatches | filterbyevent/filterbyevent.go:58-65 | the loop that stops at the first match finds one exactly when some fact meets the type, place and year conditions |
| FilterByEvent.SelectIdsAreMatching | filterbyevent/filterbyevent.go:56-69 | the output is the id of each matching person, in input order |
| FilterByEvent.MatchingMeans | filterbyevent/filterbyevent.go:56-69 | a person is selected exactly when one of its facts meets all three conditions |
| FilterByEvent.SelectIdsAppend | filterbyevent/filterbyevent.go:56-69 | selecting from two stretches of persons is selecting from each in turn |
| FilterByEvent.NoFactsNoMatch | filterbyevent/filterbyevent.go:56-69 | a person without facts is never selected |
| FilterByEvent.PlacesAsWritten | filterbyevent/filterbyevent.go:121-124 | the place flag is always split, so there is always at least one place |
| FilterByEvent.Places | filterbyevent/filterbyevent.go:121-124 | no places exactly when the flag is empty; otherwise the split flag |
| FilterByEvent.PlacelessFactRejected | filterbyevent/filterbyevent.go:60 | with no place flag, a fact without a place fails the place condition as written and passes it as intended |
| FilterByEvent.EmptyPlaceMatchesAnyPlace | filterbyevent/filterbyevent.go:60 | the empty place as written matches every fact that has a place, so only placeless facts are affected |
| ExtractSourceIds.ReadPersonIds | extractsourceids/extractsourceids.go:90-104 | an id is in the set exactly when it is a line of the file |
| ExtractSourceIds.ReadWrittenIds | extractsourceids/extractsourceids.go:90-104 | an id file written one id per line reads back as the set of those ids |
| ExtractSourceIds.SourceIdsMeans | extractsourceids/extractsourceids.go:47-53 | a source id is output exactly when it is a source of a selected person |
| ExtractSourceIds.SourceIdsLength | extractsourceids/extractsourceids.go:47-53 | every source of every selected person is output, duplicates included |
| ExtractSourceIds.SourceIdsAppend | extractsourceids/extractsourceids.go:47-53 | extracting from two stretches of persons is extracting from each in turn |
| ExtractSourceIds.AllListedIsAll | extractsourceids/extractsourceids.go:48 | an id set that lists every person extracts the same as no id set |
| ExtractSourceIds.PersonIdsAsWritten | extractsourceids/extractsourceids.go:113-116 | the id file is opened whenever the flag exists, so the tool aborts exactly when the flag is empty |
| ExtractSourceIds.PersonIds | extractsourceids/extractsourceids.go:113-116 | no id set exactly when the flag is empty; otherwise the same set as written |
| ExtractSourceIds.NoIdFileExtractsAll | extractsourceids/extractsourceids.go:113-116 | without an id file the tool as written aborts, while the intended one outputs every source of every person |
| CountEventTypes.CountFactsAdds | counteventtypes/counteventtypes.go:48-54 | counting one person's facts adds each key's number of facts |
| CountEventTypes.CountFileMeans | counteventtypes/counteventtypes.go:47-55 | each count of a file is the number of its facts with that key |
| CountEventTypes.CountFileSum | counteventtypes/counteventtypes.go:47-55 | the counts of a file add up to its number of facts |
| CountEventTypes.NoFactsNoCount | counteventtypes/counteventtypes.go:47-55 | a person without facts changes no count |
| CountEventTypes.MergeFiles | counteventtypes/counteventtypes.go:107-113 | the merge loop over the arriving files computes the running sum of their counters |
| CountEventTypes.PlusAllAt | counteventtypes/counteventtypes.go:107-113 | each total is the sum of that key's counts over the files, and a key is present exactly when some file has it |
| CountEventTypes.PlusAllOrder | counteventtypes/counteventtypes.go:109-113 | the totals do not depend on the order in which the files arrive |
| CountEventTypes.PlusAllSum | counteventtypes/counteventtypes.go:107-113 | the totals add up to the sum of every file's counts |
| CountEventTypes.OutputLines | counteventtypes/counteventtypes.go:124-126 | every total is written as a nine-digit count, a comma and the type |
| CountEventTypes.OutputLinesRead | counteventtypes/counteventtypes.go:124-126 | every output line reads back as a type and its total |
| CountLines.FixUp | countlines/countlines.go:34-38 | a line is cut just before its first `,"` when that does not start the line; a line without one, or starting with one, stays |
| CountLines.FixUpIdempotent | countlines/countlines.go:34-38 | fixing a fixed line again changes nothing |
| CountLines.FixedLinesStable | countlines/countlines.go:34-38 | fixing all fixed lines again changes none of them |
| CountLines.CountText | countlines/countlines.go:28-41 | each count is the number of scanned lines that fix up to that key, and only such keys are present |
| CountLines.CountTextSum | countlines/countlines.go:28-41 | the counts add up to the number of lines read |
| CountLines.CountWrittenLines | countlines/countlines.go:28-41 | a file written from clean lines counts each of them, fixed up, and nothing else |
| CountLines.OutputLines | countlines/countlines.go:48-50 | every count is written as a six-digit count, a space and the line |
| CountLines.OutputLinesRead | countlines/countlines.go:48-50 | every output line reads back as a line and its count, even when the line holds spaces |
| MigrationPlaces.CompareIgnoresCase | migrations/migrate.go:208-217 | place components are compared ignoring letter case |
| MigrationPlaces.CompareIgnoresSurroundingSpace | migrations/migrate.go:208-217 | place components are compared ignoring the white space around them: trimming both components first gives the same answer, and so does a space in front of one |
| MigrationPlaces.BlankMatchesAll | migrations/migrate.go:208-217 | a blank component matches every component |
| MigrationPlaces.CompareNotTransitive | migrations/migrate.go:208-217 | since a blank matches anything, matching is not transitive |
| MigrationPlaces.Migrated | migrations/migrate.go:176-206 | a migration needs two different places that both have a comma |
| MigrationPlaces.MigratedMeans | migrations/migrate.go:176-206 | a migration is two different places of at least two components whose countries or states do not match, or, in the United States, whose counties do not match |
| MigrationPlaces.MigratedSymmetric | migrations/migrate.go:176-206 | outside the United States, a move from a to b is a migration exactly when the move from b to a is |
| MigrationPlaces.CountryChange | migrations/migrate.go:185-188 | a change of country is a migration |
| MigrationPlaces.StateChange | migrations/migrate.go:192-195 | a change of state within a country is a migration |
| MigrationPlaces.CountyChangeInUS | migrations/migrate.go:196-204 | a change of county within a United States state is a migration |
| MigrationPlaces.CountyChangeElsewhere | migrations/migrate.go:196-204 | a change of county outside the United States is not |
| MigrationPlaces.FoldedPadded | migrations/migrate.go:208-217 | a component of one visible character with blanks around it folds to that character, lower-cased |
| MigrationPlaces.MigratedSingleComponentExamples | migrations/migrate_test.go:14-16 | places of one component never migrate |
| MigrationPlaces.MigratedIdenticalExamples | migrations/migrate_test.go:13-26 | the rows whose two places are the same string (lines 13, 17, 18 and 26) are not moves |
| MigrationPlaces.MigratedSpacingExample | migrations/migrate_test.go:19 | components that fold alike match whatever blanks surround them |
| MigrationPlaces.MigratedCaseExample | migrations/migrate_test.go:20 | components that fold alike match whatever their letter case |
| MigrationPlaces.MigratedBlankStateExample | migrations/migrate_test.go:21 | a blank state matches any state, so the move is not counted |
| MigrationPlaces.MigratedAddedTownExample | migrations/migrate_test.go:22 | outside the United States an added town is not a move |
| MigrationPlaces.MigratedAddedTownDeepExample | migrations/migrate_test.go:23 | outside the United States added finer levels are not a move |
| MigrationPlaces.MigratedIntoUSExample | migrations/migrate_test.go:24 | moving into the United States is a move |
| MigrationPlaces.MigratedOutOfUSExample | migrations/migrate_test.go:25 | moving out of the United States is a move |
| MigrationPlaces.MigratedAddedTownUSExample | migrations/migrate_test.go:27 | in the United States an added town over the same county is not a move |
| MigrationPlaces.MigratedAddedTownUSDeepExample | migrations/migrate_test.go:28 | in the United States an added town over the same county and state is not a move |
| MigrationPlaces.MigratedSameCountyUSExample | migrations/migrate_test.go:29 | in the United States another town in the same county is not a move |
| MigrationPlaces.MigratedOtherStateExample | migrations/migrate_test.go:30 | another state is a move |
| MigrationPlaces.MigratedOtherCountryExample | migrations/migrate_test.go:31 | another country is a move |
| MigrationPlaces.MigratedOtherStateWithTownExample | migrations/migrate_test.go:32 | another state is a move when the new place has an extra level |
| MigrationPlaces.MigratedOtherCountryWithTownExample | migrations/migrate_test.go:33 | another country is a move when the new place has an extra level |
| MigrationPlaces.MigratedOtherStateDeepExample | migrations/migrate_test.go:34 | another state is a move, however many levels the places have |
| MigrationPlaces.MigratedOtherCountryDeepExample | migrations/migrate_test.go:35 | another country is a move, however many levels the places have |
| MigrationPlaces.MigratedOtherCountyUSExample | migrations/migrate_test.go:36 | in the United States another county is a move |
| MigrationPlaces.MigratedOtherStateUSExample | migrations/migrate_test.go:37 | in the United States another state is a move |
| MigrationPlaces.MigratedOtherCountyUSWithTownExample | migrations/migrate_test.go:38 | in the United States another county is a move when the new place has an extra level |
| MigrationPlaces.MigratedOtherStateUSWithTownExample | migrations/migrate_test.go:39 | in the United States another state is a move when the new place has an extra level |
| MigrationPlaces.MigratedOtherCountyUSDeepExample | migrations/migrate_test.go:40 | in the United States another county is a move, however many levels the places have |
| MigrationPlaces.MigratedOtherStateUSDeepExample | migrations/migrate_test.go:41 | in the United States another state is a move, however many levels the places have |
| MigrationPlaces.StdPlace | migrations/migrate.go:108-127 | an empty place has no levels, and no place has more than three |
| MigrationPlaces.StdPlaceLevel | migrations/migrate.go:108-127 | the levels are the trailing comma-separated components, trimmed: three in the United States, two elsewhere, fewer when the place has fewer |
| MigrationPlaces.StdPlaceThreeInUS | migrations/migrate.go:108-127 | a three-component United States place keeps county, state and country |
| MigrationPlaces.StdPlaceThreeElsewhere | migrations/migrate.go:108-127 | a three-component place elsewhere keeps state and country |
| MigrationPlaces.StdPlaceStandard | migrations/migrate.go:108-127 | standardised levels are trimmed, comma-free and no more than their country allows |
| MigrationPlaces.StdPlaceOfJoin | migrations/migrate.go:108-127 | standard levels joined with `, ` standardise back to themselves |
| MigrationPlaces.StdPlaceIdempotent | migrations/migrate.go:108-127 | standardising the joined standard form of a place gives the same levels |
| MigrationPlaces.LessTransitive | migrations/migrate.go:36-41 | the location order (place, then year) is transitive |
| MigrationPlaces.LessTotal | migrations/migrate.go:36-41 | any two different locations are ordered one way or the other |
| MigrationPlaces.SortLocations | migrations/migrate.go:153 | sorting gives a sorted permutation of the locations |
| MigrationPlaces.SortedUnique | migrations/migrate.go:153 | two sorted permutations of the same locations are equal, so an unstable sort still has one result |
| Migrations.YearRem | migrations/migrate.go:68-69 | Go's `%` by the decade truncates toward zero: the remainder has the year's sign |
| Migrations.YearRemOdd | migrations/migrate.go:68-69 | the remainder of a negated year is the negated remainder |
| Migrations.RoundYear | migrations/migrate.go:68-69 | a year is rounded toward zero to a multiple of ten, never by ten or more |
| Migrations.RoundYearIdempotent | migrations/migrate.go:68-69 | rounding a rounded year changes nothing |
| Migrations.MapAdd | migrations/migrate.go:48-55 | `MigrationMap.add` creates a missing row, raises one count and changes nothing else |
| Migrations.ApplyCount | migrations/migrate.go:64-106 | after a run of single adds, each cell has grown by the number of adds aimed at it, and the singletons stay |
| Migrations.ApplyAppend | migrations/migrate.go:64-106 | two runs of adds are one run after the other |
| Migrations.SkippedAsWritten | migrations/migrate.go:86-89 | a level pair is skipped when the places are equal or the finer one's text ends with the coarser one's |
| Migrations.Skipped | migrations/migrate.go:86 | a level pair is skipped when the places are equal or the finer one's levels end with all of the coarser one's |
| Migrations.SkippedAsWrittenWider | migrations/migrate.go:86-89 | every pair the intended test skips is also skipped as written |
| Migrations.SuffixSkipExample | migrations/migrate.go:86-89 | a place whose last word only ends with the other place, as West Virginia with Virginia, is skipped as written but not as intended |
| Migrations.AddSound | migrations/migrate.go:64-106 | every count `add` makes is at the rounded year of its side and never pairs a place with itself |
| Migrations.LevelPlaceInjective | migrations/migrate.go:74-84 | the joined places of two different levels of one place differ, because each coarser level's text is strictly shorter |
| Migrations.AddCountsMove | migrations/migrate.go:64-95 | `add` raises the emigration count from `fp` to `tp` by exactly one when `fp` is a level of the place left and `tp` a level of the place reached that the suffix test as written does not skip, and leaves it unchanged otherwise; no move is counted twice |
| Migrations.AddIntendedCountsMove | migrations/migrate.go:86 | the `add` the comment describes raises the count from `fp` to `tp` by exactly one when the two are levels of the places left and reached that are neither equal nor one a trailing run of the other's levels, and leaves it unchanged otherwise |
| Migrations.AddIntendedCountsMore | migrations/migrate.go:86-89 | every move `add` counts as written is counted by the `add` the comment describes too |
| Migrations.SuffixSkipMoves | migrations/migrate.go:86-89 | a move from `x, yz` to `z` with `y` non-empty, as "Kanawha, West Virginia" to "Virginia", is not counted as written and is counted as intended |
| Migrations.AddMirror | migrations/migrate.go:90-94 | `add` counts each move from one level to another as many times as an emigration as it does as an immigration |
| Migrations.AddSamePlace | migrations/migrate.go:64-106 | a person who stays at the same standard place counts no move, only totals |
| Migrations.AddTotals | migrations/migrate.go:97-104 | `add` raises the emigration totals by the levels of the place left, and the immigration totals by the levels of the place reached when the place left is not empty |
| Migrations.AddTotalsAt | migrations/migrate.go:97-104 | `add` raises the `TOTAL` emigration count of every level of the place left by one, at the decade left, and the `TOTAL` immigration count of every level of the place reached by one, at the decade reached, when the place left is not empty; every other `TOTAL` count stays |
| Migrations.CountTotals | migrations/migrate.go:301-307 | the total of a table is the sum of the `TOTAL` counts of all its rows |
| Migrations.TotalsRemove | migrations/migrate.go:301-307 | the sum of totals does not depend on the row visited first |
| MigrationFiles.PersonLocations | migrations/migrate.go:144-148 | the locations are the place and year of every fact that has both, and nothing else |
| MigrationFiles.PersonLocationsIndices | migrations/migrate.go:144-149 | the `k`-th location is the place and year of the `k`-th fact that has both, and every such fact gives one, so there are exactly as many locations as dated facts; that number decides whether the person is a singleton |
| MigrationFiles.PersonLocationsPermuted | migrations/migrate.go:144-148 | reordering a person's facts reorders its locations: the same locations, each as often |
| MigrationFiles.ScanFromStart | migrations/migrate.go:158-168 | starting from the zero location, the scan yields exactly the consecutive pairs of trusted years |
| MigrationFiles.TrustedPairsMeans | migrations/migrate.go:158-168 | a pair is counted exactly when the two locations are consecutive and both years are in 1500 to 2015 |
| MigrationFiles.AddAllSingletons | migrations/migrate.go:158-168 | counting moves never changes the singletons |
| MigrationFiles.ProcessPersonsSingletons | migrations/migrate.go:149-152 | the singletons count the persons with at most one dated place |
| MigrationFiles.ProcessPersonOrder | migrations/migrate.go:142-169 | two persons with the same dated places, each as often but in any order, are counted exactly alike, because sorting leaves one order only |
| MigrationFiles.ProcessPersonFactOrder | migrations/migrate.go:142-169 | a person whose facts are a reordering of another's is counted exactly alike |
| MigrationFiles.AddAllTotals | migrations/migrate.go:134-171 | counting a person's moves raises the emigration totals by the levels of every place left |
| MigrationFiles.AddRow | migrations/migrate.go:340-342 | merging one row adds each of its counts into the accumulator's row |
| MigrationFiles.MergeTable | migrations/migrate.go:339-348 | merging a table adds every cell's count and creates rows only for non-empty rows |
| MigrationFiles.MergedTotals | migrations/migrate.go:354-355 | the totals of a merged table are the pointwise sum of both tables' totals |
| MigrationFiles.MergeMigrations | migrations/migrate.go:338-348 | merging one file's counters adds its singletons and both its tables |
| MigrationFiles.MergeAll | migrations/migrate.go:330-356 | after the merge loop, the singletons, every cell and both grand totals are the sums over the files |

## Left out

- Reading and writing files, gzip, XML and protocol-buffer decoding, and progress printing: the model starts from decoded records and the text of files, and ends at output lines or values.
- Worker goroutines and channels: the file results arrive in some order, and the order lemmas show that the merged counts do not depend on it.
- Map iteration order: contributors are a set, and output lines form a set.
- The Bloom filter of seen person ids is modelled as an exact set. A false positive, which would drop a person never seen, is not modelled.
- Case folding is ASCII only: Go's `strings.ToLower` also lower-cases letters outside ASCII, and the model leaves them as they are. `TrimSpace` trims what Go's `unicode.IsSpace` calls white space, including U+0085, U+00A0 and U+2000 to U+200A.
- Go's string `<` compares bytes; the model compares characters. For valid UTF-8 the two orders agree.
- Normalize.GetFactType: Go's `typ[6:]` cuts six bytes of the UTF-8 text and panics on a custom type shorter than six bytes. The model has no byte encoding: it cuts six characters and requires at least six characters (`ValidFactType`). The two agree whenever the first six characters are ASCII, as in every `data:,` type. They differ otherwise: Go gives `OTHER` for "ééé" (three characters, six bytes), which the model rejects. For "éééWill", Go looks up "will" and the model looks up "l".
- Converter.ReadStdPlaces: a place-table line without a tab makes Go panic on `fields[1]`. The model requires the tab (`PlaceLine`).
- Converter.ReadSourceRefs: a source-reference line without a comma makes Go panic on `fields[1]`. The model requires the comma (`RefLine`).
- Lines.ScanLines: `bufio.Scanner` stops at a line longer than its 64 KiB token limit, and the model has no such limit. countlines.go:31 and `readStdPlaces` and `readSourceRefs` (fsxml2protobuf.go:274-294) never check `scanner.Err()`, so they silently drop that line and all later ones; `readPersonIds` (extractsourceids.go:101) checks it and aborts.
- Migrations.AddMirror: requires that no level of either place reads `TOTAL`. A place named `TOTAL` would collide with the totals key.
- Migrations.AddTotals, Migrations.AddTotalsAt: require that no level of either place reads `TOTAL`, for the same reason.
- MigrationFiles.AddAllTotals: requires that no level of any place reads `TOTAL`, for the same reason.
- Years are unbounded integers. Go's `int32` fields, and the `int32(...)` conversion of the `-s` and `-e` flags in filterbyevent, would only wrap for years beyond two billion.
- The `migrated` function is modelled and characterised, although `processFile` no longer calls it.
- `writeMigrations` (the formatted migration report) is not part of this model.
- The ARK-to-id mapping files, finddescendants, fetchsources and proto_dump are not part of this model.
- The `fs_data` message wrappers (pointers to strings and integers) are options; the `Gender` enum is a datatype.

## Findings

| source | as written | input that shows it | evidently intended | confidence | as-written member | corrected member |
|---|---|---|---|---|---|---|
| fsxml2protobuf/fsxml2protobuf.go:136-141 | each source record takes the address of the loop variable `ref`, which (before Go 1.22) is one variable reused by every iteration | a person with source references s1 and s2 | the sources s1, s2; as written the records read s2, s2 | not executed; high under Go before 1.22 | Converter.GetSourcesAsWritten (Converter.ConvertRecord, Converter.ConvertRecordSources, Converter.SourcesAliasing, Converter.SourcesAliasingExample) | Converter.GetSources (Converter.GetSourcesFromLines, Converter.ReadSourceRefs) |
| filterbyevent/filterbyevent.go:121-124 | `place` is the flag's pointer and is never nil, so the flag is always split; without `-p` the list is one empty place | no `-p` flag, a person whose only matching fact has no place | no place restriction, so the person is selected; as written it is not | not executed; high | FilterByEvent.PlacesAsWritten (FilterByEvent.PlacelessFactRejected) | FilterByEvent.Places (FilterByEvent.PlacelessFactRejected, FilterByEvent.EmptyPlaceMatchesAnyPlace) |
| extractsourceids/extractsourceids.go:113-116 | `personIdsFilename` is the flag's pointer and is never nil, so the id file is always opened | no `-p` flag: the empty file name cannot be opened and `check` aborts | no id set, so every source id is extracted | not executed; high | ExtractSourceIds.PersonIdsAsWritten (ExtractSourceIds.NoIdFileExtractsAll) | ExtractSourceIds.PersonIds (ExtractSourceIds.NoIdFileExtractsAll) |
| migrations/migrate.go:86-89 | the skip test compares the joined place texts with `HasSuffix` | from "Kanawha, West Virginia" to "Virginia": the county-level text "Kanawha, West Virginia" ends with "Virginia" | skip only when one place's levels end with all of the other's levels (the comment's "Y,Z <=> Z"); as written the move from "Kanawha, West Virginia" to "Virginia" is not counted, while the state-level move from "West Virginia" to "Virginia" still is | not executed; medium | Migrations.SkippedAsWritten (Migrations.Add, Migrations.SuffixSkipExample, Migrations.SuffixSkipMoves, Migrations.AddCountsMove) | Migrations.Skipped (Migrations.AddIntended, Migrations.AddIntendedCountsMove, Migrations.AddIntendedCountsMore, Migrations.SkippedAsWrittenWider) |

=== FILE: converter.dfy ===
/**
 The converter's file-level steps: loading the standardized-place and
 source-reference tables from their text files, attaching source ids to a
 person, converting one record, and converting a file of records while
 keeping only the latest record of each person id.
 */
module Converter {
  import opened Wrappers
  import opened Strings
  import opened GedcomX
  import opened FsData
  import opened Normalize

  // --------------------------------------------------------- place table

  /** A place-table line: a place, a tab, its standard form. */
  predicate PlaceLine(line: string) {
    '\t' in line
  }

  /** The place a place-table line standardizes: the text before its first tab. */
  function PlaceOf(line: string): (place: string)
    requires PlaceLine(line)
    ensures '\t' !in place
  {
    line[..IndexOfChar(line, '\t')]
  }

  /** The standard form a place-table line gives: the text after its first tab, up to any second one. */
  function StdFormOf(line: string): (std: string)
    requires PlaceLine(line)
    ensures '\t' !in std
  {
    var rest := line[IndexOfChar(line, '\t') + 1..];
    var j := IndexOfChar(rest, '\t');
    if j < 0 then rest else rest[..j]
  }

  /** The two fields are the first two pieces `strings.Split` cuts the line into at its tabs. */
  lemma PlaceFieldsAreSplitFields(line: string)
    requires PlaceLine(line)
    ensures |Split(line, '\t')| >= 2
    ensures PlaceOf(line) == Split(line, '\t')[0] && StdFormOf(line) == Split(line, '\t')[1]
  {
    var i := IndexOfChar(line, '\t');
    var rest := line[i + 1..];
    var parts := Split(line, '\t');
    assert parts == [line[..i]] + Split(rest, '\t');
    var j := IndexOfChar(rest, '\t');
    if j < 0 {
      assert Split(rest, '\t') == [rest];
    } else {
      assert Split(rest, '\t')[0] == rest[..j];
    }
  }

  /** The index of the last line about `place`, or -1 when there is none. */
  function LastLineAbout(lines: seq<string>, place: string): (k: int)
    requires forall k :: 0 <= k < |lines| ==> PlaceLine(lines[k])
    ensures -1 <= k < |lines|
    ensures k >= 0 ==> PlaceOf(lines[k]) == place
    ensures forall j :: k < j < |lines| ==> PlaceOf(lines[j]) != place
  {
    if |lines| == 0 then -1
    else if PlaceOf(lines[|lines| - 1]) == place then |lines| - 1
    else LastLineAbout(lines[..|lines| - 1], place)
  }

  /** The places the lines name. */
  function PlacesNamed(lines: seq<string>): (places: set<string>)
    requires forall k :: 0 <= k < |lines| ==> PlaceLine(lines[k])
    ensures forall x :: x in places <==> exists k :: 0 <= k < |lines| && PlaceOf(lines[k]) == x
  {
    if |lines| == 0 then {}
    else
      var init := lines[..|lines| - 1];
      var places := PlacesNamed(init) + {PlaceOf(lines[|lines| - 1])};
      assert forall x :: x in places <==> exists k :: 0 <= k < |lines| && PlaceOf(lines[k]) == x by {
        forall x
          ensures x in places <==> exists k :: 0 <= k < |lines| && PlaceOf(lines[k]) == x
        {
          if exists k :: 0 <= k < |lines| && PlaceOf(lines[k]) == x {
            var k :| 0 <= k < |lines| && PlaceOf(lines[k]) == x;
            if k < |init| {
              assert init[k] == lines[k];
            }
          }
          if x in PlacesNamed(init) {
            var k :| 0 <= k < |init| && PlaceOf(init[k]) == x;
            assert init[k] == lines[k];
          }
        }
      }
      places
  }

  /**
   `readStdPlaces`: the table maps every place named on some line to the
   standard form on the last line naming it.
   */
  function ReadStdPlaces(lines: seq<string>): (table: map<string, string>)
    requires forall k :: 0 <= k < |lines| ==> PlaceLine(lines[k])
    ensures table.Keys == PlacesNamed(lines)
    ensures forall place :: place in table ==>
      0 <= LastLineAbout(lines, place) && table[place] == StdFormOf(lines[LastLineAbout(lines, place)])
  {
    if |lines| == 0 then map[]
    else
      var last := lines[|lines| - 1];
      var init := lines[..|lines| - 1];
      var table := ReadStdPlaces(init)[PlaceOf(last) := StdFormOf(last)];
      assert PlacesNamed(lines) == PlacesNamed(init) + {PlaceOf(last)};
      forall place | place in table && place != PlaceOf(last)
        ensures 0 <= LastLineAbout(lines, place) && table[place] == StdFormOf(lines[LastLineAbout(lines, place)])
      {
        var k := LastLineAbout(init, place);
        assert LastLineAbout(lines, place) == k;
        assert lines[k] == init[k];
      }
      table
  }

  // ------------------------------------------------------- source table

  /** A source-reference line: a person id, a comma, a source id. */
  predicate RefLine(line: string) {
    ',' in line
  }

  /** The person a source-reference line is about: the text before its first comma. */
  function RefPerson(line: string): (id: string)
    requires RefLine(line)
    ensures ',' !in id
  {
    line[..IndexOfChar(line, ',')]
  }

  /** The source id a source-reference line gives: everything after its first comma. */
  function RefSource(line: string): string
    requires RefLine(line)
  {
    line[IndexOfChar(line, ',') + 1..]
  }

  /** A source-reference line is its person, a comma and its source id. */
  lemma RefLineFields(line: string)
    requires RefLine(line)
    ensures line == RefPerson(line) + [','] + RefSource(line)
    ensures ',' !in RefPerson(line)
  {
    var i := IndexOfChar(line, ',');
    assert line == line[..i] + [','] + line[i + 1..];
  }

  /** The source ids the lines give for person `id`, in line order. */
  function RefsFor(lines: seq<string>, id: string): (refs: seq<string>)
    requires forall k :: 0 <= k < |lines| ==> RefLine(lines[k])
    ensures |refs| <= |lines|
  {
    if |lines| == 0 then []
    else
      var last := lines[|lines| - 1];
      RefsFor(lines[..|lines| - 1], id) + (if RefPerson(last) == id then [RefSource(last)] else [])
  }

  /** The source ids listed for `id` are exactly the ones on lines about `id`. */
  lemma {:induction false} RefsForMembers(lines: seq<string>, id: string, x: string)
    requires forall k :: 0 <= k < |lines| ==> RefLine(lines[k])
    ensures x in RefsFor(lines, id) <==> exists k :: 0 <= k < |lines| && RefPerson(lines[k]) == id && RefSource(lines[k]) == x
  {
    if |lines| > 0 {
      var n := |lines| - 1;
      var init := lines[..n];
      RefsForMembers(init, id, x);
      assert forall k :: 0 <= k < n ==> init[k] == lines[k];
      assert x in RefsFor(lines, id) <==> x in RefsFor(init, id) || (RefPerson(lines[n]) == id && RefSource(lines[n]) == x);
    }
  }

  /** The persons the lines are about. */
  function PersonsNamed(lines: seq<string>): (ids: set<string>)
    requires forall k :: 0 <= k < |lines| ==> RefLine(lines[k])
    ensures forall x :: x in ids <==> exists k :: 0 <= k < |lines| && RefPerson(lines[k]) == x
  {
    if |lines| == 0 then {}
    else
      var init := lines[..|lines| - 1];
      var ids := PersonsNamed(init) + {RefPerson(lines[|lines| - 1])};
      assert forall x :: x in ids <==> exists k :: 0 <= k < |lines| && RefPerson(lines[k]) == x by {
        forall x
          ensures x in ids <==> exists k :: 0 <= k < |lines| && RefPerson(lines[k]) == x
        {
          if exists k :: 0 <= k < |lines| && RefPerson(lines[k]) == x {
            var k :| 0 <= k < |lines| && RefPerson(lines[k]) == x;
            if k < |init| {
              assert init[k] == lines[k];
            }
          }
          if x in PersonsNamed(init) {
            var k :| 0 <= k < |init| && RefPerson(init[k]) == x;
            assert init[k] == lines[k];
          }
        }
      }
      ids
  }

  /**
   `readSourceRefs`: the table maps every person named on some line to the
   source ids of all lines about that person, in line order.
   */
  function ReadSourceRefs(lines: seq<string>): (table: map<string, seq<string>>)
    requires forall k :: 0 <= k < |lines| ==> RefLine(lines[k])
    ensures table.Keys == PersonsNamed(lines)
  {
    if |lines| == 0 then map[]
    else
      var init := lines[..|lines| - 1];
      var last := lines[|lines| - 1];
      var prev := ReadSourceRefs(init);
      var id := RefPerson(last);
      var table := prev[id := (if id in prev then prev[id] else []) + [RefSource(last)]];
      assert PersonsNamed(lines) == PersonsNamed(init) + {id};
      table
  }

  // ------------------------------------------------------------- sources

  /**
   `getSources` as intended: the person's source ids in table order, none
   when the table has no entry for the person.
   */
  function GetSources(sourceRefs: map<string, seq<string>>, id: string): (sources: seq<string>)
    ensures id !in sourceRefs ==> sources == []
    ensures id in sourceRefs ==> sources == sourceRefs[id]
  {
    if id in sourceRefs then sourceRefs[id] else []
  }

  /**
   The sources attached to a person are those of every line about it, in
   line order; a person no line is about gets none.
   */
  lemma {:induction false} GetSourcesFromLines(lines: seq<string>, id: string)
    requires forall k :: 0 <= k < |lines| ==> RefLine(lines[k])
    ensures GetSources(ReadSourceRefs(lines), id) == RefsFor(lines, id)
  {
    if |lines| > 0 {
      var init := lines[..|lines| - 1];
      GetSourcesFromLines(init, id);
    }
  }

  /**
   `getSources` as the source writes it: every entry points at the loop
   variable `ref`, which after the loop holds the last source id, so every
   source id of the person reads as the last one.
   */
  function GetSourcesAsWritten(sourceRefs: map<string, seq<string>>, id: string): (sources: seq<string>)
    ensures |sources| == |GetSources(sourceRefs, id)|
  {
    var refs := GetSources(sourceRefs, id);
    seq(|refs|, k requires 0 <= k < |refs| => refs[|refs| - 1])
  }

  /**
   The two readings agree exactly when all of the person's source ids are
   the same, so a person with two different sources loses one of them.
   */
  lemma SourcesAliasing(sourceRefs: map<string, seq<string>>, id: string)
    ensures var refs := GetSources(sourceRefs, id);
      GetSourcesAsWritten(sourceRefs, id) == refs <==> forall k :: 0 <= k < |refs| ==> refs[k] == refs[|refs| - 1]
  {
    var refs := GetSources(sourceRefs, id);
    var written := GetSourcesAsWritten(sourceRefs, id);
    if written == refs {
      forall k | 0 <= k < |refs|
        ensures refs[k] == refs[|refs| - 1]
      {
        assert written[k] == refs[|refs| - 1];
      }
    }
  }

  /** Two different source ids come out as two copies of the second. */
  lemma SourcesAliasingExample()
    ensures GetSourcesAsWritten(map["p1" := ["s1", "s2"]], "p1") == ["s2", "s2"]
    ensures GetSources(map["p1" := ["s1", "s2"]], "p1") == ["s1", "s2"]
  {
    var written := GetSourcesAsWritten(map["p1" := ["s1", "s2"]], "p1");
    assert written[0] == "s2" && written[1] == "s2";
  }

  // ------------------------------------------------------------- records

  /** A record the converter can process: every fact type is long enough to cut. */
  predicate ValidRecord(rec: Record) {
    ValidFacts(rec.person.facts) && ValidRelationships(rec.relationships)
  }

  /**
   The person `processFile` builds from one record: its id, gender,
   contributors, sources as `getSources` writes them, converted facts and
   relatives.
   */
  function ConvertRecord(rec: Record, stdPlaces: map<string, string>, sourceRefs: map<string, seq<string>>): (fp: FsPerson)
    requires ValidRecord(rec)
    ensures fp.id == rec.person.id
  {
    var fam := GetRelationships(rec.relationships);
    FsPerson(
      rec.person.id,
      GetGender(rec.person),
      GetContributors(rec.person, rec.relationships),
      GetSourcesAsWritten(sourceRefs, rec.person.id),
      GetFacts(rec.person, rec.relationships, stdPlaces),
      fam.parents,
      fam.children,
      fam.spouses)
  }

  /**
   A converted person has the record's gender, and only real contributors
   and relatives: no empty contributor or relative id, every contributor
   attributed somewhere in the record, the relatives the relationships name
   for each role, and every fact informative. It has as many sources as the
   table lists for it, each the last one listed.
   */
  lemma ConvertRecordShape(rec: Record, stdPlaces: map<string, string>, sourceRefs: map<string, seq<string>>)
    requires ValidRecord(rec)
    ensures var fp := ConvertRecord(rec, stdPlaces, sourceRefs);
      && fp.gender == GetGender(rec.person)
      && "" !in fp.contributors
      && (forall c :: c in fp.contributors <==> c != "" && Mentions(rec.person, rec.relationships, c))
      && fp.facts == GetFacts(rec.person, rec.relationships, stdPlaces)
      && (forall k :: 0 <= k < |fp.facts| ==> Informative(fp.facts[k]))
      && fp.parents == IdsWithRole(rec.relationships, Parent)
      && fp.children == IdsWithRole(rec.relationships, Child)
      && fp.spouses == IdsWithRole(rec.relationships, Spouse)
      && "" !in fp.parents && "" !in fp.children && "" !in fp.spouses
      && |fp.parents| + |fp.children| + |fp.spouses| <= |rec.relationships|
  {
    var fp := ConvertRecord(rec, stdPlaces, sourceRefs);
    forall k | 0 <= k < |fp.facts|
      ensures Informative(fp.facts[k])
    {
      GetFactsInformative(rec.person, rec.relationships, stdPlaces, k);
    }
  }

  /**
   The sources of a converted person: as many as the table lists for it,
   every one of them the last listed, which is the table's list itself
   exactly when all the listed sources are the same.
   */
  lemma ConvertRecordSources(rec: Record, stdPlaces: map<string, string>, sourceRefs: map<string, seq<string>>)
    requires ValidRecord(rec)
    ensures var fp := ConvertRecord(rec, stdPlaces, sourceRefs);
      var refs := GetSources(sourceRefs, rec.person.id);
      && |fp.sources| == |refs|
      && (forall k :: 0 <= k < |fp.sources| ==> fp.sources[k] == refs[|refs| - 1])
      && (fp.sources == refs <==> forall k :: 0 <= k < |refs| ==> refs[k] == refs[|refs| - 1])
  {
    SourcesAliasing(sourceRefs, rec.person.id);
  }

  // --------------------------------------------------------------- files

  /** The person id of each record. */
  function RecordIds(records: seq<Record>): (ids: seq<string>)
    ensures |ids| == |records|
    ensures forall k :: 0 <= k < |records| ==> ids[k] == records[k].person.id
  {
    seq(|records|, k requires 0 <= k < |records| => records[k].person.id)
  }

  /** The ids from index `from` on. */
  function IdsFrom(ids: seq<string>, from: int): set<string> {
    set k | from <= k < |ids| && 0 <= k :: ids[k]
  }

  /** The index of the last occurrence of `id`, or -1 when there is none. */
  function LastOccurrence(ids: seq<string>, id: string): (k: int)
    ensures -1 <= k < |ids|
    ensures k >= 0 ==> ids[k] == id
    ensures forall j :: k < j < |ids| ==> ids[j] != id
  {
    if |ids| == 0 then -1
    else if ids[|ids| - 1] == id then |ids| - 1
    else LastOccurrence(ids[..|ids| - 1], id)
  }

  /** An index whose id does not occur later is the last occurrence of that id. */
  lemma LastOccurrenceAt(ids: seq<string>, i: int)
    requires 0 <= i < |ids|
    requires ids[i] !in IdsFrom(ids, i + 1)
    ensures LastOccurrence(ids, ids[i]) == i
  {
  }

  lemma IdsFromStep(ids: seq<string>, i: int)
    requires 0 <= i < |ids|
    ensures IdsFrom(ids, i) == IdsFrom(ids, i + 1) + {ids[i]}
  {
    forall x | x in IdsFrom(ids, i)
      ensures x in IdsFrom(ids, i + 1) + {ids[i]}
    {
      var k :| i <= k < |ids| && ids[k] == x;
    }
  }

  /**
   What the walk has picked once it has gone down to index `i`: last
   occurrences of ids not seen before, in decreasing order, and every such
   id of `ids[i..]`.
   */
  predicate Walked(ids: seq<string>, seen0: set<string>, picked: seq<int>, i: int) {
    && 0 <= i <= |ids|
    && (forall a :: 0 <= a < |picked| ==> i <= picked[a] < |ids| && ids[picked[a]] !in seen0)
    && (forall a :: 0 <= a < |picked| ==> picked[a] == LastOccurrence(ids, ids[picked[a]]))
    && (forall a, b :: 0 <= a < b < |picked| ==> picked[b] < picked[a])
    && (forall x :: x in IdsFrom(ids, i) - seen0 ==> LastOccurrence(ids, x) in picked)
  }

  /** Picking index `i - 1`, whose id is new. */
  lemma PickStep(ids: seq<string>, seen0: set<string>, picked: seq<int>, i: int)
    requires 0 < i && Walked(ids, seen0, picked, i)
    requires ids[i - 1] !in seen0 + IdsFrom(ids, i)
    ensures Walked(ids, seen0, picked + [i - 1], i - 1)
  {
    IdsFromStep(ids, i - 1);
    LastOccurrenceAt(ids, i - 1);
    var next := picked + [i - 1];
    assert forall a :: 0 <= a < |picked| ==> next[a] == picked[a];
    assert next[|picked|] == i - 1;
  }

  /** Skipping index `i - 1`, whose id was seen. */
  lemma SkipStep(ids: seq<string>, seen0: set<string>, picked: seq<int>, i: int)
    requires 0 < i && Walked(ids, seen0, picked, i)
    requires ids[i - 1] in seen0 + IdsFrom(ids, i)
    ensures Walked(ids, seen0, picked, i - 1)
  {
    IdsFromStep(ids, i - 1);
  }

  /**
   The test-and-add walk of `processFile` over a file's person ids, from last
   to first: an index is picked exactly when its id was seen neither in an
   earlier file (`seen0`) nor later in this one. So the picked indices are
   the last occurrences of the ids not seen before, all of them, in
   decreasing order, and afterwards every id of the file is seen.
   */
  method LatestFirst(ids: seq<string>, seen0: set<string>) returns (picked: seq<int>, seen: set<string>)
    ensures seen == seen0 + IdsFrom(ids, 0)
    ensures forall a :: 0 <= a < |picked| ==> 0 <= picked[a] < |ids| && ids[picked[a]] !in seen0
    ensures forall a :: 0 <= a < |picked| ==> picked[a] == LastOccurrence(ids, ids[picked[a]])
    ensures forall a, b :: 0 <= a < b < |picked| ==> picked[b] < picked[a]
    ensures forall x :: x in IdsFrom(ids, 0) - seen0 ==> LastOccurrence(ids, x) in picked
  {
    picked := [];
    seen := seen0;
    var i := |ids|;
    while i > 0
      invariant 0 <= i <= |ids|
      invariant seen == seen0 + IdsFrom(ids, i)
      invariant Walked(ids, seen0, picked, i)
    {
      IdsFromStep(ids, i - 1);
      if ids[i - 1] !in seen {
        PickStep(ids, seen0, picked, i);
        picked := picked + [i - 1];
        seen := seen + {ids[i - 1]};
      } else {
        SkipStep(ids, seen0, picked, i);
      }
      i := i - 1;
    }
  }

  /**
   `processFile` on decoded records: the walk picks, from last to first, the
   records whose person id has not been seen, and each picked record is
   converted. Only the picked records are read, so only they need fact types
   long enough to cut. So the persons written have distinct ids not seen in an
   earlier file, each converted from the last record of its id, in
   decreasing order of that record; every unseen id of the file is written;
   and afterwards every id of the file is seen.
   */
  method ConvertFile(records: seq<Record>, seen0: set<string>, stdPlaces: map<string, string>, sourceRefs: map<string, seq<string>>)
    returns (persons: seq<FsPerson>, seen: set<string>)
    requires PickedValid(records, seen0)
    ensures seen == seen0 + IdsFrom(RecordIds(records), 0)
    ensures forall a :: 0 <= a < |persons| ==> persons[a].id !in seen0
    ensures forall a, b :: 0 <= a < b < |persons| ==> persons[a].id != persons[b].id
    ensures forall a :: 0 <= a < |persons| ==> 0 <= LastOccurrence(RecordIds(records), persons[a].id)
    ensures forall a :: 0 <= a < |persons| ==>
      persons[a] == ConvertRecord(records[LastOccurrence(RecordIds(records), persons[a].id)], stdPlaces, sourceRefs)
    ensures forall a, b :: 0 <= a < b < |persons| ==>
      LastOccurrence(RecordIds(records), persons[b].id) < LastOccurrence(RecordIds(records), persons[a].id)
    ensures forall x :: x in IdsFrom(RecordIds(records), 0) - seen0 ==> exists a :: 0 <= a < |persons| && persons[a].id == x
  {
    var ids := RecordIds(records);
    var picked;
    picked, seen := LatestFirst(ids, seen0);
    persons := ConvertPicked(records, picked, stdPlaces, sourceRefs);
    forall x | x in IdsFrom(ids, 0) - seen0
      ensures exists a :: 0 <= a < |persons| && persons[a].id == x
    {
      var a :| 0 <= a < |picked| && picked[a] == LastOccurrence(ids, x);
      assert persons[a].id == x;
    }
  }

  /**
   The records `processFile` reads are valid: the last record of each id
   not seen before. Any other record is skipped unread.
   */
  predicate PickedValid(records: seq<Record>, seen0: set<string>) {
    forall k ::
      (0 <= k < |records| && RecordIds(records)[k] !in seen0 && k == LastOccurrence(RecordIds(records), RecordIds(records)[k]))
      ==> ValidRecord(records[k])
  }

  /**
   An earlier record of an id that comes again is never read, so it may hold
   a fact type too short to cut; so may a record of an id already seen.
   */
  lemma {:induction false} ShadowedRecordsUnread(r0: Record, r1: Record, r2: Record, seen0: set<string>)
    requires r0.person.id == r1.person.id && r1.person.id !in seen0 && ValidRecord(r1)
    requires r2.person.id in seen0
    ensures PickedValid([r0, r1, r2], seen0)
  {
  }

  /** The records at the picked indices, converted, in the order picked. */
  function ConvertPicked(records: seq<Record>, picked: seq<int>, stdPlaces: map<string, string>, sourceRefs: map<string, seq<string>>)
    : (persons: seq<FsPerson>)
    requires forall a :: 0 <= a < |picked| ==> 0 <= picked[a] < |records| && ValidRecord(records[picked[a]])
    ensures |persons| == |picked|
    ensures forall a :: 0 <= a < |picked| ==> persons[a] == ConvertRecord(records[picked[a]], stdPlaces, sourceRefs)
    ensures forall a :: 0 <= a < |picked| ==> persons[a].id == RecordIds(records)[picked[a]]
  {
    seq(|picked|, a requires 0 <= a < |picked| => ConvertRecord(records[picked[a]], stdPlaces, sourceRefs))
  }
}

=== FILE: count_event_types.dfy ===
/**
 The event-type counter: how many facts of each type the files hold, counted
 per file and merged.
 */
module CountEventTypes {
  import opened Wrappers
  import opened Counters
  import opened FsData
  import opened Decimal

  /** The key a fact is counted under: its type, or `"nil"` when it has none. */
  function TypeKey(f: FsFact): (k: string)
    ensures f.factType.Some? ==> k == f.factType.value
    ensures f.factType.None? ==> k == "nil"
  {
    f.factType.GetOr("nil")
  }

  /** The inner loop: each fact of one person adds 1 under its key. */
  function CountFacts(counts: map<string, int>, facts: seq<FsFact>): map<string, int>
    decreases |facts|
  {
    if |facts| == 0 then counts
    else Inc(CountFacts(counts, facts[..|facts| - 1]), TypeKey(facts[|facts| - 1]), 1)
  }

  /** `processFile`: the fact counts of the persons of one file, person by person. */
  function CountFile(persons: seq<FsPerson>): map<string, int>
    decreases |persons|
  {
    if |persons| == 0 then map[]
    else CountFacts(CountFile(persons[..|persons| - 1]), persons[|persons| - 1].facts)
  }

  /** The keys of a sequence of facts, in order. */
  function TypeKeys(facts: seq<FsFact>): (keys: seq<string>)
    ensures |keys| == |facts|
    ensures forall i :: 0 <= i < |facts| ==> keys[i] == TypeKey(facts[i])
  {
    seq(|facts|, i requires 0 <= i < |facts| => TypeKey(facts[i]))
  }

  lemma TypeKeysSnoc(facts: seq<FsFact>)
    requires |facts| > 0
    ensures TypeKeys(facts) == TypeKeys(facts[..|facts| - 1]) + [TypeKey(facts[|facts| - 1])]
  {
  }

  lemma TypeKeysAppend(a: seq<FsFact>, b: seq<FsFact>)
    ensures TypeKeys(a + b) == TypeKeys(a) + TypeKeys(b)
  {
  }

  /** Counting one person's facts adds each key's number of facts to the counts. */
  lemma {:induction false} CountFactsAdds(counts: map<string, int>, facts: seq<FsFact>, k: string)
    ensures Get(CountFacts(counts, facts), k) == Get(counts, k) + multiset(TypeKeys(facts))[k]
    decreases |facts|
  {
    if |facts| > 0 {
      var init := facts[..|facts| - 1];
      CountFactsAdds(counts, init, k);
      TypeKeysSnoc(facts);
    }
  }

  /** Each count of a file is the number of its facts with that key. */
  lemma {:induction false} CountFileMeans(persons: seq<FsPerson>, k: string)
    ensures Get(CountFile(persons), k) == multiset(TypeKeys(AllFacts(persons)))[k]
    decreases |persons|
  {
    if |persons| > 0 {
      var init := persons[..|persons| - 1];
      var last := persons[|persons| - 1];
      CountFileMeans(init, k);
      CountFactsAdds(CountFile(init), last.facts, k);
      TypeKeysAppend(AllFacts(init), last.facts);
    }
  }

  /** Counting one person's facts grows the sum of the counts by its number of facts. */
  lemma {:induction false} CountFactsSum(counts: map<string, int>, facts: seq<FsFact>)
    ensures Sum(CountFacts(counts, facts)) == Sum(counts) + |facts|
    decreases |facts|
  {
    if |facts| > 0 {
      CountFactsSum(counts, facts[..|facts| - 1]);
      SumInc(CountFacts(counts, facts[..|facts| - 1]), TypeKey(facts[|facts| - 1]), 1);
    }
  }

  /** The counts of a file add up to its number of facts. */
  lemma {:induction false} CountFileSum(persons: seq<FsPerson>)
    ensures Sum(CountFile(persons)) == |AllFacts(persons)|
    decreases |persons|
  {
    if |persons| > 0 {
      var init := persons[..|persons| - 1];
      CountFileSum(init);
      CountFactsSum(CountFile(init), persons[|persons| - 1].facts);
    }
  }

  /** A person without facts changes no count. */
  lemma NoFactsNoCount(persons: seq<FsPerson>, p: FsPerson)
    requires |p.facts| == 0
    ensures CountFile(persons + [p]) == CountFile(persons)
  {
    assert (persons + [p])[..|persons|] == persons;
  }

  // ---------------------------------------------------------------- merging files

  /** The totals of `main` after the results of `files` arrived, in that order. */
  function PlusAll(files: seq<map<string, int>>): map<string, int>
    decreases |files|
  {
    if |files| == 0 then map[] else Plus(PlusAll(files[..|files| - 1]), files[|files| - 1])
  }

  /**
   The merge loop of `main`: each file's counts are added into the totals with
   the per-key loop `totalCounts[k] = totalCounts[k] + v`.
   */
  method MergeFiles(files: seq<map<string, int>>) returns (totals: map<string, int>)
    ensures totals == PlusAll(files)
  {
    totals := map[];
    var i := 0;
    while i < |files|
      invariant 0 <= i <= |files|
      invariant totals == PlusAll(files[..i])
    {
      var next := Merge(totals, files[i]);
      assert next == Plus(totals, files[i]);
      assert files[..i + 1][..i] == files[..i];
      totals := next;
      i := i + 1;
    }
    assert files[..i] == files;
  }

  /** The count of one key summed over the files. */
  function CountAt(files: seq<map<string, int>>, k: string): int
    decreases |files|
  {
    if |files| == 0 then 0 else CountAt(files[..|files| - 1], k) + Get(files[|files| - 1], k)
  }

  /** Each total is the sum of that key's counts over the files, and a key is present when some file has it. */
  lemma {:induction false} PlusAllAt(files: seq<map<string, int>>, k: string)
    ensures Get(PlusAll(files), k) == CountAt(files, k)
    ensures k in PlusAll(files) <==> exists i :: 0 <= i < |files| && k in files[i]
    decreases |files|
  {
    if |files| > 0 {
      var n := |files| - 1;
      PlusAllAt(files[..n], k);
      assert forall i :: 0 <= i < n ==> files[..n][i] == files[i];
    }
  }

  /** Taking out one file and adding its count last gives the same sum. */
  lemma {:induction false} CountAtRemove(files: seq<map<string, int>>, j: nat, k: string)
    requires j < |files|
    ensures CountAt(files, k) == CountAt(files[..j] + files[j + 1..], k) + Get(files[j], k)
    decreases |files|
  {
    var n := |files| - 1;
    if j < n {
      var rest := files[..n][..j] + files[..n][j + 1..];
      CountAtRemove(files[..n], j, k);
      RemoveBeforeLast(files, j);
      assert (rest + [files[n]])[..|rest|] == rest;
    } else {
      assert files[..j] + files[j + 1..] == files[..n];
    }
  }

  lemma RemoveBeforeLast<T>(s: seq<T>, j: nat)
    requires j < |s| - 1
    ensures s[..j] + s[j + 1..] == (s[..|s| - 1][..j] + s[..|s| - 1][j + 1..]) + [s[|s| - 1]]
  {
  }

  /** The sum of a key's counts does not depend on the order of the files. */
  lemma {:induction false} CountAtOrder(a: seq<map<string, int>>, b: seq<map<string, int>>, k: string)
    requires multiset(a) == multiset(b)
    ensures CountAt(a, k) == CountAt(b, k)
    decreases |a|
  {
    if |a| > 0 {
      var n := |a| - 1;
      assert a[n] in multiset(a);
      var j :| 0 <= j < |b| && b[j] == a[n];
      MultisetRemove(a, b, j);
      CountAtOrder(a[..n], b[..j] + b[j + 1..], k);
      CountAtRemove(b, j, k);
    } else {
      assert |multiset(b)| == 0;
    }
  }

  /** The totals do not depend on the order in which the files arrive. */
  lemma PlusAllOrder(a: seq<map<string, int>>, b: seq<map<string, int>>)
    requires multiset(a) == multiset(b)
    ensures PlusAll(a) == PlusAll(b)
  {
    forall k
      ensures k in PlusAll(a) <==> k in PlusAll(b)
      ensures Get(PlusAll(a), k) == Get(PlusAll(b), k)
    {
      PlusAllAt(a, k);
      PlusAllAt(b, k);
      CountAtOrder(a, b, k);
      SameFiles(a, b, k);
    }
    SameCounters(PlusAll(a), PlusAll(b));
  }

  lemma SameFiles(a: seq<map<string, int>>, b: seq<map<string, int>>, k: string)
    requires multiset(a) == multiset(b)
    ensures (exists i :: 0 <= i < |a| && k in a[i]) <==> (exists i :: 0 <= i < |b| && k in b[i])
  {
    if exists i :: 0 <= i < |a| && k in a[i] {
      var i :| 0 <= i < |a| && k in a[i];
      assert a[i] in multiset(b);
    }
    if exists i :: 0 <= i < |b| && k in b[i] {
      var i :| 0 <= i < |b| && k in b[i];
      assert b[i] in multiset(a);
    }
  }

  /** Two counters with the same keys and the same counts are the same. */
  lemma SameCounters(x: map<string, int>, y: map<string, int>)
    requires forall k :: k in x <==> k in y
    requires forall k :: Get(x, k) == Get(y, k)
    ensures x == y
  {
    forall k | k in x
      ensures x[k] == y[k]
    {
      assert Get(x, k) == Get(y, k);
    }
  }

  lemma MultisetRemove<T>(a: seq<T>, b: seq<T>, j: nat)
    requires |a| > 0 && j < |b| && b[j] == a[|a| - 1] && multiset(a) == multiset(b)
    ensures multiset(a[..|a| - 1]) == multiset(b[..j] + b[j + 1..])
  {
    var x := b[j];
    var A := multiset(a[..|a| - 1]);
    var B := multiset(b[..j] + b[j + 1..]);
    assert a == a[..|a| - 1] + [x];
    assert b == b[..j] + [x] + b[j + 1..];
    assert multiset(a) == A + multiset{x};
    assert multiset(b) == B + multiset{x};
    forall y
      ensures A[y] == B[y]
    {
      assert (A + multiset{x})[y] == (B + multiset{x})[y];
    }
  }

  /** The sum of every file's counts. */
  ghost function SumOfFiles(files: seq<map<string, int>>): int
    decreases |files|
  {
    if |files| == 0 then 0 else SumOfFiles(files[..|files| - 1]) + Sum(files[|files| - 1])
  }

  /** The merged totals add up to the counts of all files; with `CountFileSum`, to all their facts. */
  lemma {:induction false} PlusAllSum(files: seq<map<string, int>>)
    ensures Sum(PlusAll(files)) == SumOfFiles(files)
    decreases |files|
  {
    if |files| > 0 {
      var n := |files| - 1;
      PlusAllSum(files[..n]);
      SumPlus(PlusAll(files[..n]), files[n]);
    }
  }

  /** The output lines: the count padded to nine digits, a comma, the type; in no particular order. */
  function OutputLines(totals: map<string, int>): (lines: set<string>)
    ensures forall k :: k in totals ==> FormatCount(totals[k], 9, ',', k) in lines
  {
    set k | k in totals :: FormatCount(totals[k], 9, ',', k)
  }

  /** Every output line reads back as a count and the type counted under it. */
  lemma OutputLinesRead(totals: map<string, int>, line: string)
    requires line in OutputLines(totals)
    requires forall k :: k in totals ==> totals[k] >= 0
    ensures ParseCount(line, ',').Some?
    ensures var (n, k) := ParseCount(line, ',').value; k in totals && totals[k] == n
  {
    var k :| k in totals && line == FormatCount(totals[k], 9, ',', k);
    FormatParseRoundTrip(totals[k], 9, ',', k);
  }
}

=== FILE: count_lines.dfy ===
/**
 The line counter: how often each line of a text file occurs, after a line
 holding `,"` past its first character is cut just before it.
 */
module CountLines {
  import opened Strings
  import opened Counters
  import opened Decimal
  import opened Lines

  const Quote := ",\""

  /**
   The fix-up for bad lines: cut just before the first `,"` when it does not
   start the line; a line without one, or starting with one, stays as it is.
   */
  function FixUp(line: string): (r: string)
    ensures HasPrefix(line, r)
    ensures r != line ==> |r| > 0 && OccursAt(line, Quote, |r|) && forall k :: 0 <= k < |r| ==> !OccursAt(line, Quote, k)
    ensures r == line ==> (forall k :: !OccursAt(line, Quote, k)) || OccursAt(line, Quote, 0)
  {
    var pos := Index(line, Quote);
    if pos > 0 then line[..pos] else line
  }

  /** A cut line holds no `,"` any more, so fixing it again changes nothing. */
  lemma FixUpIdempotent(line: string)
    ensures FixUp(FixUp(line)) == FixUp(line)
  {
    var r := FixUp(line);
    if r != line {
      forall k
        ensures !OccursAt(r, Quote, k)
      {
        if 0 <= k && k + |Quote| <= |r| {
          assert !OccursAt(line, Quote, k);
          assert r[k..k + |Quote|] == line[k..k + |Quote|];
        }
      }
    }
  }

  /** The fixed-up lines, in order. */
  function FixedLines(lines: seq<string>): (fixed: seq<string>)
    ensures |fixed| == |lines|
    ensures forall i :: 0 <= i < |lines| ==> fixed[i] == FixUp(lines[i])
  {
    seq(|lines|, i requires 0 <= i < |lines| => FixUp(lines[i]))
  }

  /** The counting loop of `main` over the lines the scanner reads from `text`. */
  function CountText(text: string): (counts: map<string, int>)
    ensures forall k :: Get(counts, k) == multiset(FixedLines(ScanLines(text)))[k]
    ensures forall k :: k in counts <==> k in FixedLines(ScanLines(text))
  {
    Tally(FixedLines(ScanLines(text)))
  }

  /** Each line adds exactly one, so the counts add up to the number of lines. */
  lemma CountTextSum(text: string)
    ensures Sum(CountText(text)) == |ScanLines(text)|
  {
    TallySum(FixedLines(ScanLines(text)));
  }

  /** A file written from clean lines counts each of its lines, fixed up, and nothing else. */
  lemma CountWrittenLines(lines: seq<string>, k: string)
    requires forall i :: 0 <= i < |lines| ==> Clean(lines[i])
    ensures Get(CountText(WriteLines(lines)), k) == multiset(FixedLines(lines))[k]
    ensures Sum(CountText(WriteLines(lines))) == |lines|
  {
    ScanWriteLines(lines);
    CountTextSum(WriteLines(lines));
  }

  /** Fixing the fixed-up lines again changes none of them. */
  lemma FixedLinesStable(lines: seq<string>)
    ensures FixedLines(FixedLines(lines)) == FixedLines(lines)
  {
    forall i | 0 <= i < |lines|
      ensures FixedLines(FixedLines(lines))[i] == FixedLines(lines)[i]
    {
      FixUpIdempotent(lines[i]);
    }
  }

  /** The output lines: the count padded to six digits, a space, the line; in no particular order. */
  function OutputLines(counts: map<string, int>): (out: set<string>)
    ensures forall k :: k in counts ==> FormatCount(counts[k], 6, ' ', k) in out
  {
    set k | k in counts :: FormatCount(counts[k], 6, ' ', k)
  }

  /** Every output line reads back as its count and line, even when the line holds spaces. */
  lemma OutputLinesRead(counts: map<string, int>, line: string)
    requires line in OutputLines(counts)
    requires forall k :: k in counts ==> counts[k] >= 0
    ensures ParseCount(line, ' ').Some?
    ensures var (n, k) := ParseCount(line, ' ').value; k in counts && counts[k] == n
  {
    var k :| k in counts && line == FormatCount(counts[k], 6, ' ', k);
    FormatParseRoundTrip(counts[k], 6, ' ', k);
  }
}

=== FILE: counters.dfy ===
/**
 Counters as the Go tools keep them: a `map[K]int` in which a missing key reads
 as 0 and `m[k] = m[k] + c` both creates and bumps an entry.
 */
module Counters {

  /** Go's `m[k]` on a `map[K]int`: 0 for a missing key. */
  function Get<K>(m: map<K, int>, k: K): int {
    if k in m then m[k] else 0
  }

  /**
   `m[k] = m[k] + c`: the key is present afterwards, its count grows by `c`,
   and no other entry changes.
   */
  function Inc<K(!new)>(m: map<K, int>, k: K, c: int): (r: map<K, int>)
    ensures r.Keys == m.Keys + {k}
    ensures Get(r, k) == Get(m, k) + c
    ensures forall j :: j != k ==> Get(r, j) == Get(m, j)
    ensures forall j :: j in m && j != k ==> r[j] == m[j]
  {
    m[k := Get(m, k) + c]
  }

  /** The sum of all counts of a counter. */
  ghost function Sum<K>(m: map<K, int>): int
    decreases |m|
  {
    if m == map[] then 0
    else
      var k :| k in m;
      m[k] + Sum(m - {k})
  }

  /** The sum does not depend on which key is taken out first. */
  lemma {:induction false} SumRemove<K>(m: map<K, int>, k: K)
    requires k in m
    ensures Sum(m) == m[k] + Sum(m - {k})
    decreases |m|
  {
    var j :| j in m && Sum(m) == m[j] + Sum(m - {j});
    if j != k {
      var mj := m - {j};
      var mk := m - {k};
      assert |mj| < |m|;
      SumRemove(mj, k);
      assert mj - {k} == mk - {j};
      assert |mk| < |m|;
      SumRemove(mk, j);
    }
  }

  /** Bumping one key by `c` adds exactly `c` to the sum. */
  lemma SumInc<K(!new)>(m: map<K, int>, k: K, c: int)
    ensures Sum(Inc(m, k, c)) == Sum(m) + c
  {
    var r := Inc(m, k, c);
    SumRemove(r, k);
    if k in m {
      SumRemove(m, k);
      assert r - {k} == m - {k};
    } else {
      assert r - {k} == m;
    }
  }

  /** The pointwise sum of two counters over the union of their keys. */
  function Plus<K(!new)>(a: map<K, int>, b: map<K, int>): (r: map<K, int>)
    ensures r.Keys == a.Keys + b.Keys
    ensures forall k :: Get(r, k) == Get(a, k) + Get(b, k)
  {
    map k | k in a.Keys + b.Keys :: Get(a, k) + Get(b, k)
  }

  /** Merging two counters adds their sums. */
  lemma {:induction false} SumPlus<K(!new)>(a: map<K, int>, b: map<K, int>)
    ensures Sum(Plus(a, b)) == Sum(a) + Sum(b)
    decreases |b|
  {
    if b == map[] {
      assert Plus(a, b) == a;
    } else {
      var k :| k in b;
      var b' := b - {k};
      SumRemove(b, k);
      SumPlus(a, b');
      PlusStep(a, b, k);
      SumInc(Plus(a, b'), k, b[k]);
    }
  }

  /** Adding `b` is adding `b` without `k`, then bumping `k`. */
  lemma PlusStep<K(!new)>(a: map<K, int>, b: map<K, int>, k: K)
    requires k in b
    ensures Plus(a, b) == Inc(Plus(a, b - {k}), k, b[k])
  {
    var p := Plus(a, b);
    var q := Inc(Plus(a, b - {k}), k, b[k]);
    assert p.Keys == q.Keys;
    forall j | j in p
      ensures p[j] == q[j]
    {
      assert p[j] == Get(p, j) && q[j] == Get(q, j);
    }
  }

  /** Merging is insensitive to the order in which counters arrive. */
  lemma PlusCommutes<K(!new)>(acc: map<K, int>, a: map<K, int>, b: map<K, int>)
    ensures Plus(Plus(acc, a), b) == Plus(Plus(acc, b), a)
  {
  }

  /**
   The merge loop `for k, v := range m { acc[k] = acc[k] + v }`: afterwards
   every key of either counter is present with the sum of both counts.
   */
  method Merge<K(!new)>(acc: map<K, int>, m: map<K, int>) returns (r: map<K, int>)
    ensures r.Keys == acc.Keys + m.Keys
    ensures forall k :: Get(r, k) == Get(acc, k) + Get(m, k)
  {
    r := acc;
    var todo := m.Keys;
    while todo != {}
      invariant todo <= m.Keys
      invariant r.Keys == acc.Keys + (m.Keys - todo)
      invariant forall k :: Get(r, k) == Get(acc, k) + (if k in todo then 0 else Get(m, k))
      decreases todo
    {
      var k :| k in todo;
      r := Inc(r, k, m[k]);
      todo := todo - {k};
    }
  }

  /** The counter obtained by adding 1 to the entry of each element in turn. */
  function Tally<K(!new)>(xs: seq<K>): (r: map<K, int>)
    ensures r.Keys == set i | 0 <= i < |xs| :: xs[i]
    ensures forall k :: Get(r, k) == multiset(xs)[k]
  {
    if |xs| == 0 then map[]
    else
      var init := xs[..|xs| - 1];
      assert xs == init + [xs[|xs| - 1]];
      Inc(Tally(init), xs[|xs| - 1], 1)
  }

  /** A tally's counts add up to the number of elements tallied. */
  lemma {:induction false} TallySum<K(!new)>(xs: seq<K>)
    ensures Sum(Tally(xs)) == |xs|
  {
    if |xs| > 0 {
      TallySum(xs[..|xs| - 1]);
      SumInc(Tally(xs[..|xs| - 1]), xs[|xs| - 1], 1);
    }
  }
}

=== FILE: decimal.dfy ===
/**
 Go's `%0<w>d` formatting of counts, used by the counting tools for their
 `<count><separator><key>` output lines, and the parser that reads such a
 line back.
 */
module Decimal {
  import opened Wrappers
  import Strings

  predicate IsDigit(c: char) {
    '0' <= c <= '9'
  }

  predicate AllDigits(s: string) {
    forall i :: 0 <= i < |s| ==> IsDigit(s[i])
  }

  function DigitChar(d: nat): (c: char)
    requires d < 10
    ensures IsDigit(c) && c as int - '0' as int == d
  {
    ('0' as int + d) as char
  }

  /** The value of a string of decimal digits, most significant first. */
  function Value(s: string): nat
    requires AllDigits(s)
  {
    if |s| == 0 then 0 else 10 * Value(s[..|s| - 1]) + (s[|s| - 1] as int - '0' as int)
  }

  function Pow10(n: nat): (p: nat)
    ensures p >= 1
  {
    if n == 0 then 1 else 10 * Pow10(n - 1)
  }

  /** `k` digits denote a number below 10^k. */
  lemma {:induction false} ValueBound(s: string)
    requires AllDigits(s)
    ensures Value(s) < Pow10(|s|)
  {
    if |s| > 0 {
      ValueBound(s[..|s| - 1]);
    }
  }

  /** The value of four digits, digit by digit. */
  lemma ValueOfFour(s: string)
    requires |s| == 4 && AllDigits(s)
    ensures Value(s) == 1000 * (s[0] as int - '0' as int) + 100 * (s[1] as int - '0' as int)
      + 10 * (s[2] as int - '0' as int) + (s[3] as int - '0' as int)
  {
    assert s[..1][..0] == [];
    assert Value(s[..1]) == s[0] as int - '0' as int;
    assert s[..2][..1] == s[..1];
    assert Value(s[..2]) == 10 * Value(s[..1]) + (s[1] as int - '0' as int);
    assert s[..3][..2] == s[..2];
    assert Value(s[..3]) == 10 * Value(s[..2]) + (s[2] as int - '0' as int);
    assert Value(s) == 10 * Value(s[..3]) + (s[3] as int - '0' as int);
  }

  /** Go's `%d` of a non-negative integer: the shortest digit string denoting `n`. */
  function Digits(n: nat): (s: string)
    ensures |s| >= 1 && AllDigits(s)
    ensures Value(s) == n
    ensures |s| > 1 ==> s[0] != '0'
  {
    if n < 10 then [DigitChar(n)]
    else
      var s := Digits(n / 10) + [DigitChar(n % 10)];
      assert s[..|s| - 1] == Digits(n / 10);
      s
  }

  function Zeros(k: nat): (s: string)
    ensures |s| == k && forall i :: 0 <= i < k ==> s[i] == '0'
  {
    if k == 0 then "" else Zeros(k - 1) + "0"
  }

  /** A string of zeros denotes zero. */
  lemma {:induction false} ZerosValue(k: nat)
    ensures AllDigits(Zeros(k)) && Value(Zeros(k)) == 0
  {
    if k > 0 {
      ZerosValue(k - 1);
      assert Zeros(k)[..k - 1] == Zeros(k - 1);
    }
  }

  /** Leading zeros do not change the value of a digit string. */
  lemma {:induction false} LeadingZeros(k: nat, d: string)
    requires AllDigits(d)
    ensures AllDigits(Zeros(k) + d) && Value(Zeros(k) + d) == Value(d)
    decreases |d|
  {
    var z := Zeros(k);
    if |d| == 0 {
      assert z + d == z;
      ZerosValue(k);
    } else {
      var init := d[..|d| - 1];
      LeadingZeros(k, init);
      assert (z + d)[..|z + d| - 1] == z + init;
      assert (z + d)[|z + d| - 1] == d[|d| - 1];
    }
  }

  /**
   Go's `%0<width>d`: the digits of `n`, padded on the left with zeros to
   `width` characters; a wider number is never cut.
   */
  function ZeroPad(n: nat, width: nat): (s: string)
    ensures AllDigits(s) && Value(s) == n
    ensures |s| == if |Digits(n)| < width then width else |Digits(n)|
  {
    var d := Digits(n);
    var pad := if |d| < width then width - |d| else 0;
    LeadingZeros(pad, d);
    Zeros(pad) + d
  }

  /**
   Go's `%0<width>d` of any integer: a negative number keeps its minus sign in
   front, and the sign counts towards the width.
   */
  function PadInt(n: int, width: nat): (s: string)
    ensures n >= 0 ==> s == ZeroPad(n, width)
    ensures n < 0 ==> |s| >= 2 && s[0] == '-' && AllDigits(s[1..]) && Value(s[1..]) == -n
  {
    if n >= 0 then ZeroPad(n, width)
    else
      var d := ZeroPad(-n, if width > 0 then width - 1 else 0);
      assert ("-" + d)[1..] == d;
      "-" + d
  }

  /** One output line of a counting tool: the padded count, `sep`, then the key. */
  function FormatCount(n: int, width: nat, sep: char, key: string): string {
    PadInt(n, width) + [sep] + key
  }

  /**
   The reading side of `FormatCount`: the digits before the first `sep` and
   the text after it.
   */
  function ParseCount(line: string, sep: char): (r: Option<(nat, string)>)
    ensures r.Some? ==> line == Strings.Split(line, sep)[0] + [sep] + r.value.1
  {
    var i := Strings.IndexOfChar(line, sep);
    if i <= 0 || !AllDigits(line[..i]) then None
    else
      assert line == line[..i] + [sep] + line[i + 1..];
      assert Strings.Split(line, sep)[0] == line[..i];
      Some((Value(line[..i]), line[i + 1..]))
  }

  /**
   Every formatted count line reads back as the count and key it was made
   from, whatever the key holds, provided the separator is not a digit.
   */
  lemma FormatParseRoundTrip(n: nat, width: nat, sep: char, key: string)
    requires !IsDigit(sep)
    ensures ParseCount(FormatCount(n, width, sep, key), sep) == Some((n, key))
  {
    var d := ZeroPad(n, width);
    var line := FormatCount(n, width, sep, key);
    assert line[..|d|] == d;
    assert line[|d|] == sep;
    assert sep !in d;
    assert Strings.IndexOfChar(line, sep) == |d|;
    assert line[|d| + 1..] == key;
  }

  /** A negative count does not read back: its minus sign is not a digit. */
  lemma NegativeNotParsed(n: int, width: nat, sep: char, key: string)
    requires n < 0 && sep != '-'
    ensures ParseCount(FormatCount(n, width, sep, key), sep).None?
  {
    var line := FormatCount(n, width, sep, key);
    var i := Strings.IndexOfChar(line, sep);
    assert line[0] == '-';
    if i > 0 {
      assert line[..i][0] == '-';
    }
  }
}

=== FILE: extract_source_ids.dfy ===
/**
 The source-id extractor: the source ids of every person, or only of the
 persons whose ids are listed in a file, in the order they are read.
 */
module ExtractSourceIds {
  import opened Wrappers
  import opened FsData
  import opened Lines

  /** `readPersonIds`: the lines of the id file, as a set. */
  function ReadPersonIds(text: string): (ids: set<string>)
    ensures forall id :: id in ids <==> id in ScanLines(text)
  {
    set i | 0 <= i < |ScanLines(text)| :: ScanLines(text)[i]
  }

  /** An id file written one id per line reads back as the set of those ids, duplicates collapsed. */
  lemma ReadWrittenIds(ids: seq<string>)
    requires forall i :: 0 <= i < |ids| ==> Clean(ids[i])
    ensures ReadPersonIds(WriteLines(ids)) == set i | 0 <= i < |ids| :: ids[i]
  {
    ScanWriteLines(ids);
  }

  /** Whether a person's sources are taken: always without an id set, else when its id is listed. */
  predicate Selected(personIds: Option<set<string>>, p: FsPerson) {
    personIds.None? || p.id in personIds.value
  }

  /** The person loop of `processFile`. */
  function SourceIds(personIds: Option<set<string>>, persons: seq<FsPerson>): seq<string>
    decreases |persons|
  {
    if |persons| == 0 then []
    else
      var last := persons[|persons| - 1];
      SourceIds(personIds, persons[..|persons| - 1]) + if Selected(personIds, last) then last.sources else []
  }

  /** Extracting from two stretches of persons is extracting from each, one after the other. */
  lemma {:induction false} SourceIdsAppend(personIds: Option<set<string>>, a: seq<FsPerson>, b: seq<FsPerson>)
    ensures SourceIds(personIds, a + b) == SourceIds(personIds, a) + SourceIds(personIds, b)
    decreases |b|
  {
    if |b| == 0 {
      assert a + b == a;
    } else {
      var init := b[..|b| - 1];
      assert (a + b)[..|a + b| - 1] == a + init;
      assert (a + b)[|a + b| - 1] == b[|b| - 1];
      SourceIdsAppend(personIds, a, init);
    }
  }

  /** The number of sources of the selected persons. */
  function SelectedSources(personIds: Option<set<string>>, persons: seq<FsPerson>): nat
    decreases |persons|
  {
    if |persons| == 0 then 0
    else
      SelectedSources(personIds, persons[1..])
      + if Selected(personIds, persons[0]) then |persons[0].sources| else 0
  }

  /** Every source of every selected person is output, duplicates included. */
  lemma {:induction false} SourceIdsLength(personIds: Option<set<string>>, persons: seq<FsPerson>)
    ensures |SourceIds(personIds, persons)| == SelectedSources(personIds, persons)
    decreases |persons|
  {
    if |persons| > 0 {
      var rest := persons[1..];
      SourceIdsLength(personIds, rest);
      assert persons == [persons[0]] + rest;
      SourceIdsAppend(personIds, [persons[0]], rest);
      assert [persons[0]][..0] == [];
    }
  }

  /** A source id is output exactly when it is a source of a selected person. */
  lemma {:induction false} SourceIdsMeans(personIds: Option<set<string>>, persons: seq<FsPerson>, s: string)
    ensures s in SourceIds(personIds, persons) <==>
      exists i :: 0 <= i < |persons| && Selected(personIds, persons[i]) && s in persons[i].sources
    decreases |persons|
  {
    if |persons| > 0 {
      var init := persons[..|persons| - 1];
      SourceIdsMeans(personIds, init, s);
      assert forall i :: 0 <= i < |init| ==> init[i] == persons[i];
    }
  }

  /** An id set listing every person extracts the same as no id set at all. */
  lemma {:induction false} AllListedIsAll(ids: set<string>, persons: seq<FsPerson>)
    requires forall i :: 0 <= i < |persons| ==> persons[i].id in ids
    ensures SourceIds(Some(ids), persons) == SourceIds(None, persons)
    decreases |persons|
  {
    if |persons| > 0 {
      AllListedIsAll(ids, persons[..|persons| - 1]);
    }
  }

  // ---------------------------------------------------------------- the id-file flag

  /** What `main` hands on to the workers: nothing, when it aborts, or the id set. */
  datatype IdsOutcome = Aborted | Ids(personIds: Option<set<string>>)

  /**
   The id set as `main` builds it: the `-p` file is read whenever the flag
   exists, and it always does, so without `-p` it opens the empty file name,
   which fails, and `check` aborts. `text` stands for the file's contents.
   */
  function PersonIdsAsWritten(flag: string, text: string): (r: IdsOutcome)
    ensures flag == "" <==> r.Aborted?
    ensures r.Ids? ==> r.personIds == Some(ReadPersonIds(text))
  {
    if flag == "" then Aborted else Ids(Some(ReadPersonIds(text)))
  }

  /** The id set as the nil test in `processFile` evidently intends: none when `-p` is not given. */
  function PersonIds(flag: string, text: string): (r: Option<set<string>>)
    ensures flag == "" <==> r.None?
    ensures r.Some? ==> PersonIdsAsWritten(flag, text) == Ids(r)
  {
    if flag == "" then None else Some(ReadPersonIds(text))
  }

  /**
   Without `-p` the tool as written extracts nothing at all, while the
   intended one outputs every source of every person.
   */
  lemma {:induction false} NoIdFileExtractsAll(text: string, persons: seq<FsPerson>, s: string)
    ensures PersonIdsAsWritten("", text).Aborted?
    ensures s in SourceIds(PersonIds("", text), persons) <==>
      exists i :: 0 <= i < |persons| && s in persons[i].sources
  {
    SourceIdsMeans(None, persons, s);
  }
}

=== FILE: filter_by_event.dfy ===
/**
 The event filter: the ids of the persons that have at least one fact of a
 given type, in one of a list of places and inside a range of years, in the
 order the persons are read.
 */
module FilterByEvent {
  import opened Wrappers
  import opened Strings
  import opened FsData

  /** `isInPlace`: some entry of `places` ends `place`. */
  function IsInPlace(place: string, places: seq<string>): (r: bool)
    ensures r <==> exists i :: 0 <= i < |places| && HasSuffix(place, places[i])
    decreases |places|
  {
    if |places| == 0 then false
    else if HasSuffix(place, places[0]) then true
    else
      var rest := IsInPlace(place, places[1..]);
      assert forall i :: 1 <= i < |places| ==> places[i] == places[1..][i - 1];
      rest
  }

  /** The command-line criteria: `-t`, the split `-p`, `-s` and `-e`. */
  datatype Query = Query(eventType: string, places: seq<string>, startYear: int, endYear: int)

  /** The type condition: any type when none is asked for, else a present type ending with it. */
  predicate TypeMatches(q: Query, f: FsFact) {
    q.eventType == "" || (f.factType.Some? && HasSuffix(f.factType.value, q.eventType))
  }

  /** The place condition: any place when no places are given, else a present place ending with one of them. */
  predicate PlaceMatches(q: Query, f: FsFact) {
    |q.places| == 0 || (f.place.Some? && IsInPlace(f.place.value, q.places))
  }

  /** The default years 0 to 9999 match every fact, even one without a year. */
  predicate AnyYear(q: Query) {
    q.startYear == 0 && q.endYear == 9999
  }

  /** The year condition: the default range, or a present year inside the range, both ends included. */
  predicate YearMatches(q: Query, f: FsFact) {
    AnyYear(q) || (f.year.Some? && q.startYear <= f.year.value <= q.endYear)
  }

  predicate FactMatches(q: Query, f: FsFact) {
    TypeMatches(q, f) && PlaceMatches(q, f) && YearMatches(q, f)
  }

  /** The fact loop of `processFile`, which stops at the first matching fact. */
  function AnyFactMatches(q: Query, facts: seq<FsFact>): (r: bool)
    ensures r <==> exists i :: 0 <= i < |facts| && FactMatches(q, facts[i])
    decreases |facts|
  {
    if |facts| == 0 then false
    else if FactMatches(q, facts[0]) then true
    else
      var rest := AnyFactMatches(q, facts[1..]);
      assert forall i :: 1 <= i < |facts| ==> facts[i] == facts[1..][i - 1];
      rest
  }

  /** The person loop of `processFile`: the ids of the matching persons, in order. */
  function SelectIds(q: Query, persons: seq<FsPerson>): (ids: seq<string>)
    ensures |ids| <= |persons|
    decreases |persons|
  {
    if |persons| == 0 then []
    else
      var last := persons[|persons| - 1];
      SelectIds(q, persons[..|persons| - 1]) + if AnyFactMatches(q, last.facts) then [last.id] else []
  }

  /** The persons that match, in order. */
  function Matching(q: Query, persons: seq<FsPerson>): (r: seq<FsPerson>)
    ensures |r| <= |persons|
    decreases |persons|
  {
    if |persons| == 0 then []
    else
      var last := persons[|persons| - 1];
      Matching(q, persons[..|persons| - 1]) + if AnyFactMatches(q, last.facts) then [last] else []
  }

  /** The output is the id of each matching person, one per person, in input order. */
  lemma {:induction false} SelectIdsAreMatching(q: Query, persons: seq<FsPerson>)
    ensures |SelectIds(q, persons)| == |Matching(q, persons)|
    ensures forall k :: 0 <= k < |SelectIds(q, persons)| ==> SelectIds(q, persons)[k] == Matching(q, persons)[k].id
    decreases |persons|
  {
    if |persons| > 0 {
      SelectIdsAreMatching(q, persons[..|persons| - 1]);
    }
  }

  /** A person is selected exactly when one of its facts meets all three conditions. */
  lemma {:induction false} MatchingMeans(q: Query, persons: seq<FsPerson>, p: FsPerson)
    ensures p in Matching(q, persons) <==>
      p in persons && exists i :: 0 <= i < |p.facts| && FactMatches(q, p.facts[i])
    decreases |persons|
  {
    if |persons| > 0 {
      var init := persons[..|persons| - 1];
      MatchingMeans(q, init, p);
      assert persons == init + [persons[|persons| - 1]];
    }
  }

  /** The persons of two stretches are selected one stretch after the other. */
  lemma {:induction false} SelectIdsAppend(q: Query, a: seq<FsPerson>, b: seq<FsPerson>)
    ensures SelectIds(q, a + b) == SelectIds(q, a) + SelectIds(q, b)
    decreases |b|
  {
    if |b| == 0 {
      assert a + b == a;
    } else {
      var init := b[..|b| - 1];
      assert (a + b)[..|a + b| - 1] == a + init;
      assert (a + b)[|a + b| - 1] == b[|b| - 1];
      SelectIdsAppend(q, a, init);
    }
  }

  /** A person without facts is never selected. */
  lemma NoFactsNoMatch(q: Query, p: FsPerson)
    requires |p.facts| == 0
    ensures SelectIds(q, [p]) == []
  {
    assert [p][..0] == [];
  }

  // ---------------------------------------------------------------- the place flag

  /**
   The places `main` hands on as written: `-p` is split at `|` whenever the
   flag exists, and it always does, so an absent flag gives one empty place.
   */
  function PlacesAsWritten(flag: string): (places: seq<string>)
    ensures |places| >= 1
  {
    Split(flag, '|')
  }

  /** The places as the check on the flag evidently intends: none when `-p` is not given. */
  function Places(flag: string): (places: seq<string>)
    ensures flag == "" <==> places == []
    ensures flag != "" ==> places == PlacesAsWritten(flag)
  {
    if flag == "" then [] else Split(flag, '|')
  }

  /**
   Without `-p`, the split flag still holds the empty place: a fact without a
   place then fails the place condition, although no place was asked for.
   */
  lemma PlacelessFactRejected(eventType: string, startYear: int, endYear: int, f: FsFact)
    requires f.place.None?
    ensures !PlaceMatches(Query(eventType, PlacesAsWritten(""), startYear, endYear), f)
    ensures PlaceMatches(Query(eventType, Places(""), startYear, endYear), f)
  {
    assert IndexOfChar("", '|') == -1;
  }

  /** Every present place ends with the empty place, so only placeless facts are affected. */
  lemma EmptyPlaceMatchesAnyPlace(q: Query, f: FsFact)
    requires q.places == PlacesAsWritten("")
    ensures PlaceMatches(q, f) <==> f.place.Some?
  {
    assert IndexOfChar("", '|') == -1;
    if f.place.Some? {
      assert HasSuffix(f.place.value, q.places[0]);
    }
  }
}

=== FILE: fs_data.dfy ===
/**
 The compact person records the converter writes and the other tools read
 (the `fs_data` protocol-buffer messages), as immutable values. A field that
 the message leaves unset is `None`.
 */
module FsData {
  import opened Wrappers

  datatype Gender = Male | Female | Unknown

  /** One fact: a canonical type name, a four-digit year, a place and a free value. */
  datatype FsFact = FsFact(
    factType: Option<string>,
    year: Option<int>,
    place: Option<string>,
    value: Option<string>)

  /**
   One person. Contributors are kept as a set: the converter emits them in
   hash-map order, which carries no meaning.
   */
  datatype FsPerson = FsPerson(
    id: string,
    gender: Gender,
    contributors: set<string>,
    sources: seq<string>,
    facts: seq<FsFact>,
    parents: seq<string>,
    children: seq<string>,
    spouses: seq<string>)

  /** All facts of a sequence of persons, person by person. */
  function AllFacts(persons: seq<FsPerson>): seq<FsFact> {
    if |persons| == 0 then [] else AllFacts(persons[..|persons| - 1]) + persons[|persons| - 1].facts
  }
}

=== FILE: gedcomx.dfy ===
/**
 The person records of a GEDCOM X bulk-export file as the XML decoder hands
 them over. Only the fields the converter reads are kept; an attribute or
 element missing from the XML decodes as the empty string, as in Go.
 */
module GedcomX {

  /** A fact with its attributed contributor and the user-entered date and place. */
  datatype Fact = Fact(
    factType: string,
    contributor: string,
    date: string,
    place: string,
    value: string)

  /** A person; of each name only the contributor is kept. */
  datatype Person = Person(
    id: string,
    genderType: string,
    genderContributor: string,
    nameContributors: seq<string>,
    facts: seq<Fact>)

  /** A parent-child or couple relationship; the persons are resource references. */
  datatype Relationship = Relationship(
    relType: string,
    person1: string,
    person2: string,
    facts: seq<Fact>)

  /** One `<record>`: a person and the relationships listed with it. */
  datatype Record = Record(person: Person, relationships: seq<Relationship>)
}

=== FILE: lines.dfy ===
/**
 Text files of lines, as the tools write and read them: writing puts a
 newline after every line, and `bufio.Scanner` with its default line
 splitting reads the lines back.
 */
module Lines {
  import opened Strings

  /** The scanner's `dropCR`: one carriage return at the end of a line is not part of it. */
  function DropCR(s: string): (r: string)
    ensures r == s || s == r + "\r"
    ensures |s| == 0 || s[|s| - 1] != '\r' ==> r == s
  {
    if |s| > 0 && s[|s| - 1] == '\r' then s[..|s| - 1] else s
  }

  /**
   The lines `bufio.Scanner` yields for `text`: the pieces between newlines,
   without a final empty piece, each without a trailing carriage return.
   */
  function ScanLines(text: string): (lines: seq<string>)
    ensures forall i :: 0 <= i < |lines| ==> '\n' !in lines[i]
  {
    ScanPieces(Split(text, '\n'))
  }

  function ScanPieces(pieces: seq<string>): (lines: seq<string>)
    requires |pieces| >= 1 && forall i :: 0 <= i < |pieces| ==> '\n' !in pieces[i]
    ensures forall i :: 0 <= i < |lines| ==> '\n' !in lines[i]
  {
    var kept := if pieces[|pieces| - 1] == "" then pieces[..|pieces| - 1] else pieces;
    seq(|kept|, i requires 0 <= i < |kept| => DropCR(kept[i]))
  }

  /** Writing each line followed by a newline, as the tools' output loops do. */
  function WriteLines(lines: seq<string>): string
    decreases |lines|
  {
    if |lines| == 0 then "" else lines[0] + "\n" + WriteLines(lines[1..])
  }

  /** A line that reads back as itself: no newline inside, no carriage return at its end. */
  predicate Clean(line: string) {
    '\n' !in line && (|line| == 0 || line[|line| - 1] != '\r')
  }

  /** Written lines are the joined lines with one more, empty, piece after the last newline. */
  lemma {:induction false} WriteLinesJoin(lines: seq<string>)
    ensures WriteLines(lines) == Join(lines + [""], "\n")
    decreases |lines|
  {
    if |lines| > 0 {
      WriteLinesJoin(lines[1..]);
      assert (lines + [""])[1..] == lines[1..] + [""];
    }
  }

  /** Clean lines, written and scanned again, come back unchanged and in order. */
  lemma ScanWriteLines(lines: seq<string>)
    requires forall i :: 0 <= i < |lines| ==> Clean(lines[i])
    ensures ScanLines(WriteLines(lines)) == lines
  {
    var parts := lines + [""];
    WriteLinesJoin(lines);
    CleanParts(lines);
    SplitJoin(parts, '\n');
    ScanCleanPieces(lines);
  }

  lemma CleanParts(lines: seq<string>)
    requires forall i :: 0 <= i < |lines| ==> Clean(lines[i])
    ensures forall i :: 0 <= i < |lines + [""]| ==> '\n' !in (lines + [""])[i]
  {
    forall i | 0 <= i < |lines + [""]|
      ensures '\n' !in (lines + [""])[i]
    {
      if i < |lines| {
        assert (lines + [""])[i] == lines[i];
      }
    }
  }

  lemma ScanCleanPieces(lines: seq<string>)
    requires forall i :: 0 <= i < |lines| ==> Clean(lines[i])
    requires forall i :: 0 <= i < |lines + [""]| ==> '\n' !in (lines + [""])[i]
    ensures ScanPieces(lines + [""]) == lines
  {
    var parts := lines + [""];
    assert parts[..|parts| - 1] == lines;
    var r := ScanPieces(parts);
    assert |r| == |lines|;
    forall i | 0 <= i < |lines|
      ensures r[i] == lines[i]
    {
      assert r[i] == DropCR(lines[i]);
    }
  }
}

=== FILE: migration_files.dfy ===
/**
 How the migration counter reads one file of persons: each person's dated
 places are sorted, and every two consecutive ones inside the years it
 trusts are counted as a move. The counters of all files are then merged.
 */
module MigrationFiles {
  import opened Wrappers
  import opened Counters
  import opened FsData
  import opened MigrationPlaces
  import opened Migrations

  /** The years the counter trusts: 1500 to 2015. */
  predicate Trusted(year: int) {
    1500 <= year <= 2015
  }

  /** `NewLocation`: the place and year of a fact that has both. */
  function FactLocation(f: FsFact): Option<Location> {
    if f.place.Some? && f.year.Some? then Some(Location(f.place.value, f.year.value)) else None
  }

  /** `NewLocation` applied to each fact, in order: `None` for a fact without place or year. */
  function FactLocations(facts: seq<FsFact>): (opts: seq<Option<Location>>)
    ensures |opts| == |facts|
  {
    seq(|facts|, i requires 0 <= i < |facts| => FactLocation(facts[i]))
  }

  /** The dated places of a person, in the order of its facts. */
  function PersonLocations(facts: seq<FsFact>): (locs: seq<Location>)
    ensures |locs| <= |facts|
    ensures forall k :: 0 <= k < |locs| ==> exists i :: 0 <= i < |facts| && FactLocation(facts[i]) == Some(locs[k])
    ensures forall i :: 0 <= i < |facts| && facts[i].place.Some? && facts[i].year.Some? ==>
      Location(facts[i].place.value, facts[i].year.value) in locs
  {
    var opts := FactLocations(facts);
    var locs := Somes(opts);
    forall k | 0 <= k < |locs|
      ensures exists i :: 0 <= i < |facts| && FactLocation(facts[i]) == Some(locs[k])
    {
      var i :| 0 <= i < |opts| && opts[i] == Some(locs[k]);
    }
    forall i | 0 <= i < |facts| && facts[i].place.Some? && facts[i].year.Some?
      ensures Location(facts[i].place.value, facts[i].year.value) in locs
    {
      assert opts[i] == Some(Location(facts[i].place.value, facts[i].year.value));
    }
    locs
  }

  /**
   The `k`-th location is that of the `k`-th dated fact: `idx` lists the
   positions of the dated facts in order and misses none, so there are as
   many locations as dated facts, which is what decides a singleton.
   */
  lemma PersonLocationsIndices(facts: seq<FsFact>) returns (idx: seq<nat>)
    ensures |idx| == |PersonLocations(facts)|
    ensures forall k :: 0 <= k < |idx| ==>
      idx[k] < |facts| && FactLocation(facts[idx[k]]) == Some(PersonLocations(facts)[k])
    ensures forall k, l :: 0 <= k < l < |idx| ==> idx[k] < idx[l]
    ensures forall i :: 0 <= i < |facts| && FactLocation(facts[i]).Some? ==> i in idx
  {
    idx := SomesIndices(FactLocations(facts));
  }

  /** The locations of two runs of facts one after the other. */
  lemma PersonLocationsAppend(a: seq<FsFact>, b: seq<FsFact>)
    ensures PersonLocations(a + b) == PersonLocations(a) + PersonLocations(b)
  {
    assert FactLocations(a + b) == FactLocations(a) + FactLocations(b);
    SomesAppend(FactLocations(a), FactLocations(b));
  }

  /** Taking the last fact from one side and an equal fact from the other keeps two runs of facts reorderings of each other. */
  lemma RemoveMatching(f: seq<FsFact>, g: seq<FsFact>, j: nat)
    requires multiset(f) == multiset(g) && 0 < |f| && j < |g| && g[j] == f[|f| - 1]
    ensures multiset(f[..|f| - 1]) == multiset(g[..j] + g[j + 1..])
  {
    var x := g[j];
    assert f == f[..|f| - 1] + [x];
    assert g == g[..j] + [x] + g[j + 1..];
    assert multiset(f[..|f| - 1]) == multiset(f) - multiset{x};
    assert multiset(g[..j] + g[j + 1..]) == multiset(g) - multiset{x};
  }

  /** Reordering the facts reorders the locations: the same locations, as often each. */
  lemma {:induction false} PersonLocationsPermuted(f: seq<FsFact>, g: seq<FsFact>)
    requires multiset(f) == multiset(g)
    ensures multiset(PersonLocations(f)) == multiset(PersonLocations(g))
    decreases |f|
  {
    if |f| == 0 {
      assert |g| == |multiset(g)| == 0;
      assert g == f;
    } else {
      var x := f[|f| - 1];
      var init := f[..|f| - 1];
      assert f == init + [x];
      assert x in multiset(g);
      var j :| 0 <= j < |g| && g[j] == x;
      var rest := g[..j] + g[j + 1..];
      assert g == g[..j] + [x] + g[j + 1..];
      RemoveMatching(f, g, j);
      PersonLocationsPermuted(init, rest);
      PersonLocationsAppend(init, [x]);
      PersonLocationsAppend(g[..j] + [x], g[j + 1..]);
      PersonLocationsAppend(g[..j], [x]);
      PersonLocationsAppend(g[..j], g[j + 1..]);
    }
  }

  /**
   The loop over a person's sorted locations: `prev` is the location before,
   and each location makes a move from `prev` when both years are trusted.
   */
  function Scan(prev: Location, locs: seq<Location>): seq<(Location, Location)>
    decreases |locs|
  {
    if |locs| == 0 then []
    else
      (if Trusted(prev.year) && Trusted(locs[0].year) then [(prev, locs[0])] else [])
      + Scan(locs[0], locs[1..])
  }

  /** Go's zero `Location{}`, the `prev` the loop starts from. */
  const Start := Location("", 0)

  /** The consecutive pairs of `locs` whose years are both trusted, in order. */
  function TrustedPairs(locs: seq<Location>): (pairs: seq<(Location, Location)>)
    ensures |pairs| <= if |locs| == 0 then 0 else |locs| - 1
    decreases |locs|
  {
    if |locs| < 2 then []
    else
      (if Trusted(locs[0].year) && Trusted(locs[1].year) then [(locs[0], locs[1])] else [])
      + TrustedPairs(locs[1..])
  }

  /**
   Starting from the zero location, whose year 0 is never trusted, the loop
   counts exactly the trusted consecutive pairs: the first location is never
   paired with the zero one.
   */
  lemma {:induction false} ScanFromStart(locs: seq<Location>)
    ensures Scan(Start, locs) == TrustedPairs(locs)
  {
    if |locs| > 0 {
      ScanIsTrustedPairs(locs);
    }
  }

  lemma {:induction false} ScanIsTrustedPairs(locs: seq<Location>)
    requires |locs| > 0
    ensures Scan(locs[0], locs[1..]) == TrustedPairs(locs)
    decreases |locs|
  {
    if |locs| >= 2 {
      var rest := locs[1..];
      ScanIsTrustedPairs(rest);
      assert rest[1..] == locs[2..];
    }
  }

  /** A pair is counted exactly when it is two consecutive locations with trusted years. */
  lemma {:induction false} TrustedPairsMeans(locs: seq<Location>, a: Location, b: Location)
    ensures (a, b) in TrustedPairs(locs) <==>
      exists i :: 0 <= i < |locs| - 1 && locs[i] == a && locs[i + 1] == b && Trusted(a.year) && Trusted(b.year)
  {
    if (a, b) in TrustedPairs(locs) {
      var i := TrustedPairsSound(locs, a, b);
    }
    if exists i :: 0 <= i < |locs| - 1 && locs[i] == a && locs[i + 1] == b && Trusted(a.year) && Trusted(b.year) {
      var i :| 0 <= i < |locs| - 1 && locs[i] == a && locs[i + 1] == b && Trusted(a.year) && Trusted(b.year);
      TrustedPairsComplete(locs, i);
    }
  }

  lemma {:induction false} TrustedPairsSound(locs: seq<Location>, a: Location, b: Location) returns (i: nat)
    requires (a, b) in TrustedPairs(locs)
    ensures i < |locs| - 1 && locs[i] == a && locs[i + 1] == b && Trusted(a.year) && Trusted(b.year)
    decreases |locs|
  {
    var first := if Trusted(locs[0].year) && Trusted(locs[1].year) then [(locs[0], locs[1])] else [];
    if (a, b) in first {
      i := 0;
    } else {
      var k := TrustedPairsSound(locs[1..], a, b);
      i := k + 1;
    }
  }

  lemma {:induction false} TrustedPairsComplete(locs: seq<Location>, i: nat)
    requires i < |locs| - 1 && Trusted(locs[i].year) && Trusted(locs[i + 1].year)
    ensures (locs[i], locs[i + 1]) in TrustedPairs(locs)
    decreases |locs|
  {
    if i > 0 {
      TrustedPairsComplete(locs[1..], i - 1);
      assert locs[1..][i - 1] == locs[i] && locs[1..][i] == locs[i + 1];
    }
  }

  /** Counting a sequence of moves with `add`, in order. */
  function AddAll(m: Migrations, pairs: seq<(Location, Location)>): Migrations
    decreases |pairs|
  {
    if |pairs| == 0 then m else AddAll(Add(m, pairs[0].0, pairs[0].1), pairs[1..])
  }

  /**
   One person of `processFile`: with at most one dated place the person is
   a singleton; otherwise the places are sorted and the moves counted.
   */
  function ProcessPerson(m: Migrations, p: FsPerson): Migrations {
    var locs := PersonLocations(p.facts);
    if |locs| <= 1 then m.(singletons := m.singletons + 1)
    else AddAll(m, Scan(Start, SortLocations(locs)))
  }

  /** `processFile` on the decoded persons of a file. */
  function ProcessPersons(persons: seq<FsPerson>): Migrations
    decreases |persons|
  {
    if |persons| == 0 then Empty
    else ProcessPerson(ProcessPersons(persons[..|persons| - 1]), persons[|persons| - 1])
  }

  /** `add` never touches the singletons. */
  lemma {:induction false} AddAllSingletons(m: Migrations, pairs: seq<(Location, Location)>)
    ensures AddAll(m, pairs).singletons == m.singletons
    decreases |pairs|
  {
    if |pairs| > 0 {
      var m' := Add(m, pairs[0].0, pairs[0].1);
      ApplyCount(m, AddEntries(AsWritten, pairs[0].0, pairs[0].1), Emigration, Start, Total);
      AddAllSingletons(m', pairs[1..]);
    }
  }

  /** The number of persons with at most one dated place. */
  function SingletonCount(persons: seq<FsPerson>): nat
    decreases |persons|
  {
    if |persons| == 0 then 0
    else
      SingletonCount(persons[..|persons| - 1])
      + if |PersonLocations(persons[|persons| - 1].facts)| <= 1 then 1 else 0
  }

  /** The singletons of a file are the persons with at most one dated place. */
  lemma {:induction false} ProcessPersonsSingletons(persons: seq<FsPerson>)
    ensures ProcessPersons(persons).singletons == SingletonCount(persons)
    decreases |persons|
  {
    if |persons| > 0 {
      var init := persons[..|persons| - 1];
      var p := persons[|persons| - 1];
      ProcessPersonsSingletons(init);
      var locs := PersonLocations(p.facts);
      if |locs| > 1 {
        AddAllSingletons(ProcessPersons(init), Scan(Start, SortLocations(locs)));
      }
    }
  }

  /**
   The order of a person's facts does not matter: two persons with the same
   dated places, in any order, are counted alike, because sorting leaves one
   order only.
   */
  lemma ProcessPersonOrder(m: Migrations, p: FsPerson, q: FsPerson)
    requires multiset(PersonLocations(p.facts)) == multiset(PersonLocations(q.facts))
    ensures ProcessPerson(m, p) == ProcessPerson(m, q)
  {
    var lp := PersonLocations(p.facts);
    var lq := PersonLocations(q.facts);
    assert |lp| == |multiset(lp)| == |lq|;
    SortedUnique(SortLocations(lp), SortLocations(lq));
  }

  /** The order of a person's facts does not matter: reordered facts are counted alike. */
  lemma ProcessPersonFactOrder(m: Migrations, p: FsPerson, q: FsPerson)
    requires multiset(p.facts) == multiset(q.facts)
    ensures ProcessPerson(m, p) == ProcessPerson(m, q)
  {
    PersonLocationsPermuted(p.facts, q.facts);
    ProcessPersonOrder(m, p, q);
  }

  /** The number of levels of the places left, over a sequence of moves. */
  function LevelsLeft(pairs: seq<(Location, Location)>): nat
    decreases |pairs|
  {
    if |pairs| == 0 then 0 else |StdPlace(pairs[0].0.place)| + LevelsLeft(pairs[1..])
  }

  /** Every place of a sequence of moves is free of a `TOTAL` level. */
  predicate NoTotalPlaces(pairs: seq<(Location, Location)>) {
    forall i :: 0 <= i < |pairs| ==>
      NoTotalLevel(StdPlace(pairs[i].0.place)) && NoTotalLevel(StdPlace(pairs[i].1.place))
  }

  /** Counting moves raises the emigration total by the levels of every place left. */
  lemma {:induction false} AddAllTotals(m: Migrations, pairs: seq<(Location, Location)>)
    requires NoTotalPlaces(pairs)
    ensures Sum(TotalsOf(AddAll(m, pairs).emigrations)) == Sum(TotalsOf(m.emigrations)) + LevelsLeft(pairs)
    decreases |pairs|
  {
    if |pairs| > 0 {
      var m' := Add(m, pairs[0].0, pairs[0].1);
      AddTotals(m, pairs[0].0, pairs[0].1);
      assert NoTotalPlaces(pairs[1..]) by {
        forall i | 0 <= i < |pairs| - 1
          ensures NoTotalLevel(StdPlace(pairs[1..][i].0.place)) && NoTotalLevel(StdPlace(pairs[1..][i].1.place))
        {
          assert pairs[1..][i] == pairs[i + 1];
        }
      }
      AddAllTotals(m', pairs[1..]);
    }
  }

  // ---------------------------------------------------------------- merging files

  /**
   `r` is `acc` after the counts of `row` for the values in `done` were added
   to the row of `key`: those counts grew, that row gained those values, and
   nothing else changed.
   */
  ghost predicate RowMerged(r: MigrationMap, acc: MigrationMap, key: Location, row: map<string, int>, done: set<string>) {
    && (forall j, v :: Count(r, j, v) == Count(acc, j, v) + if j == key && v in done then Get(row, v) else 0)
    && Row(r, key).Keys == Row(acc, key).Keys + done
    && (forall j :: j != key ==> Row(r, j) == Row(acc, j))
    && r.Keys == acc.Keys + if done == {} then {} else {key}
  }

  lemma RowMergedStart(acc: MigrationMap, key: Location, row: map<string, int>)
    ensures RowMerged(acc, acc, key, row, {})
  {
  }

  lemma RowMergedStep(r: MigrationMap, acc: MigrationMap, key: Location, row: map<string, int>, done: set<string>, v: string)
    requires RowMerged(r, acc, key, row, done) && v in row && v !in done
    ensures RowMerged(MapAdd(r, key, v, row[v]), acc, key, row, done + {v})
  {
    var r' := MapAdd(r, key, v, row[v]);
    forall j, w
      ensures Count(r', j, w) == Count(acc, j, w) + if j == key && w in done + {v} then Get(row, w) else 0
    {
      if j == key && w == v {
        assert Count(r', j, w) == Count(r, j, w) + row[v];
      } else {
        assert Count(r', j, w) == Count(r, j, w);
      }
    }
  }

  /**
   The inner merge loop `for to, count := range toMap { acc.add(from, to, count) }`:
   the row of `key` gains every count of `row`, and no other count changes.
   */
  method AddRow(acc: MigrationMap, key: Location, row: map<string, int>) returns (r: MigrationMap)
    ensures RowMerged(r, acc, key, row, row.Keys)
  {
    r := acc;
    var done: set<string> := {};
    RowMergedStart(acc, key, row);
    while row.Keys - done != {}
      invariant done <= row.Keys
      invariant RowMerged(r, acc, key, row, done)
      decreases row.Keys - done
    {
      var v :| v in row.Keys - done;
      RowMergedStep(r, acc, key, row, done, v);
      r := MapAdd(r, key, v, row[v]);
      done := done + {v};
    }
  }

  /** The rows of a table that hold a count. */
  function FilledRows(m: MigrationMap): set<Location> {
    set k | k in m && m[k] != map[]
  }

  /**
   `r` is `acc` after the rows of `m` with keys in `done` were merged into it:
   their counts were added, their values joined the rows of `acc`, and a row
   was created only for a row of `m` that holds a count.
   */
  ghost predicate TableMerged(r: MigrationMap, acc: MigrationMap, m: MigrationMap, done: set<Location>) {
    && (forall k, v :: Count(r, k, v) == Count(acc, k, v) + if k in done then Count(m, k, v) else 0)
    && (forall k :: Row(r, k).Keys == Row(acc, k).Keys + if k in done then Row(m, k).Keys else {})
    && r.Keys == acc.Keys + (FilledRows(m) * done)
  }

  lemma TableMergedStep(r: MigrationMap, r': MigrationMap, acc: MigrationMap, m: MigrationMap, done: set<Location>, k: Location)
    requires TableMerged(r, acc, m, done) && k in m && k !in done
    requires RowMerged(r', r, k, m[k], m[k].Keys)
    ensures TableMerged(r', acc, m, done + {k})
  {
    MergedCounts(r, r', acc, m, done, k);
    MergedRowKeys(r, r', acc, m, done, k);
    MergedKeys(r, r', acc, m, done, k);
  }

  lemma MergedCounts(r: MigrationMap, r': MigrationMap, acc: MigrationMap, m: MigrationMap, done: set<Location>, k: Location)
    requires forall j, v :: Count(r, j, v) == Count(acc, j, v) + if j in done then Count(m, j, v) else 0
    requires k in m && k !in done
    requires forall j, v :: Count(r', j, v) == Count(r, j, v) + if j == k && v in m[k].Keys then Get(m[k], v) else 0
    ensures forall j, v :: Count(r', j, v) == Count(acc, j, v) + if j in done + {k} then Count(m, j, v) else 0
  {
    forall j, v
      ensures Count(r', j, v) == Count(acc, j, v) + if j in done + {k} then Count(m, j, v) else 0
    {
      if j == k {
        assert Count(r', j, v) == Count(r, j, v) + Get(m[k], v);
      }
    }
  }

  lemma MergedRowKeys(r: MigrationMap, r': MigrationMap, acc: MigrationMap, m: MigrationMap, done: set<Location>, k: Location)
    requires forall j :: Row(r, j).Keys == Row(acc, j).Keys + if j in done then Row(m, j).Keys else {}
    requires k in m && k !in done
    requires Row(r', k).Keys == Row(r, k).Keys + m[k].Keys
    requires forall j :: j != k ==> Row(r', j) == Row(r, j)
    ensures forall j :: Row(r', j).Keys == Row(acc, j).Keys + if j in done + {k} then Row(m, j).Keys else {}
  {
    forall j
      ensures Row(r', j).Keys == Row(acc, j).Keys + if j in done + {k} then Row(m, j).Keys else {}
    {
      if j != k {
        assert Row(r', j) == Row(r, j);
      }
    }
  }

  lemma MergedKeys(r: MigrationMap, r': MigrationMap, acc: MigrationMap, m: MigrationMap, done: set<Location>, k: Location)
    requires r.Keys == acc.Keys + (FilledRows(m) * done)
    requires k in m && k !in done
    requires r'.Keys == r.Keys + if m[k].Keys == {} then {} else {k}
    ensures r'.Keys == acc.Keys + (FilledRows(m) * (done + {k}))
  {
    assert m[k] == map[] <==> m[k].Keys == {};
    assert FilledRows(m) * (done + {k}) == (FilledRows(m) * done) + if m[k] == map[] then {} else {k};
  }

  /**
   The outer merge loop of `main` over one table: afterwards every count is
   the sum of both, every row holds the values of both rows, and rows are
   created only for rows that hold a count.
   */
  method MergeTable(acc: MigrationMap, m: MigrationMap) returns (r: MigrationMap)
    ensures TableMerged(r, acc, m, m.Keys)
  {
    r := acc;
    var done: set<Location> := {};
    while m.Keys - done != {}
      invariant done <= m.Keys
      invariant TableMerged(r, acc, m, done)
      decreases m.Keys - done
    {
      var k :| k in m.Keys - done;
      var r' := AddRow(r, k, m[k]);
      TableMergedStep(r, r', acc, m, done, k);
      r := r';
      done := done + {k};
    }
  }

  /** The totals of a merged table are the pointwise sum of both tables' totals, and so add up. */
  lemma MergedTotals(r: MigrationMap, acc: MigrationMap, m: MigrationMap)
    requires TableMerged(r, acc, m, m.Keys)
    ensures TotalsOf(r) == Plus(TotalsOf(acc), TotalsOf(m))
    ensures Sum(TotalsOf(r)) == Sum(TotalsOf(acc)) + Sum(TotalsOf(m))
  {
    MergedTotalKeys(r, acc, m);
    MergedTotalValues(r, acc, m);
    SumPlus(TotalsOf(acc), TotalsOf(m));
  }

  lemma MergedTotalKeys(r: MigrationMap, acc: MigrationMap, m: MigrationMap)
    requires forall k :: Row(r, k).Keys == Row(acc, k).Keys + Row(m, k).Keys
    ensures TotalsOf(r).Keys == TotalsOf(acc).Keys + TotalsOf(m).Keys
  {
    forall k
      ensures k in TotalsOf(r) <==> k in TotalsOf(acc) || k in TotalsOf(m)
    {
      assert Total in Row(r, k).Keys <==> Total in Row(acc, k).Keys || Total in Row(m, k).Keys;
    }
  }

  lemma MergedTotalValues(r: MigrationMap, acc: MigrationMap, m: MigrationMap)
    requires forall k, v :: Count(r, k, v) == Count(acc, k, v) + Count(m, k, v)
    requires TotalsOf(r).Keys == TotalsOf(acc).Keys + TotalsOf(m).Keys
    ensures TotalsOf(r) == Plus(TotalsOf(acc), TotalsOf(m))
  {
    var t := TotalsOf(r);
    var p := Plus(TotalsOf(acc), TotalsOf(m));
    forall k | k in t
      ensures t[k] == p[k]
    {
      assert t[k] == Get(t, k) && p[k] == Get(p, k);
    }
  }

  /** The results of one file merged into the running result of `main`. */
  method MergeMigrations(acc: Migrations, m: Migrations) returns (r: Migrations)
    ensures r.singletons == acc.singletons + m.singletons
    ensures TableMerged(r.emigrations, acc.emigrations, m.emigrations, m.emigrations.Keys)
    ensures TableMerged(r.immigrations, acc.immigrations, m.immigrations, m.immigrations.Keys)
  {
    var em := MergeTable(acc.emigrations, m.emigrations);
    var im := MergeTable(acc.immigrations, m.immigrations);
    r := Migrations(acc.singletons + m.singletons, im, em);
  }

  /** The singletons of several files together. */
  function AllSingletons(results: seq<Migrations>): int
    decreases |results|
  {
    if |results| == 0 then 0 else AllSingletons(results[..|results| - 1]) + results[|results| - 1].singletons
  }

  /** The count at one cell of one table, over several files together. */
  function AllCount(results: seq<Migrations>, dir: Direction, key: Location, value: string): int
    decreases |results|
  {
    if |results| == 0 then 0
    else AllCount(results[..|results| - 1], dir, key, value) + Count(Table(results[|results| - 1], dir), key, value)
  }

  /** The sum of the totals of one table, over several files together. */
  ghost function AllTotals(results: seq<Migrations>, dir: Direction): int
    decreases |results|
  {
    if |results| == 0 then 0
    else AllTotals(results[..|results| - 1], dir) + Sum(TotalsOf(Table(results[|results| - 1], dir)))
  }

  /** Every count of `r` is the sum of that count over `results`. */
  ghost predicate CountsOf(r: Migrations, results: seq<Migrations>) {
    forall dir, key, value :: Count(Table(r, dir), key, value) == AllCount(results, dir, key, value)
  }

  lemma CountsStep(r: Migrations, next: Migrations, results: seq<Migrations>, m: Migrations)
    requires CountsOf(r, results)
    requires TableMerged(next.emigrations, r.emigrations, m.emigrations, m.emigrations.Keys)
    requires TableMerged(next.immigrations, r.immigrations, m.immigrations, m.immigrations.Keys)
    ensures CountsOf(next, results + [m])
  {
    var rs := results + [m];
    assert rs[..|rs| - 1] == results;
    forall dir, key, value
      ensures Count(Table(next, dir), key, value) == AllCount(rs, dir, key, value)
    {
      MergedCell(next, r, m, dir, key, value);
    }
  }

  lemma MergedCell(next: Migrations, r: Migrations, m: Migrations, dir: Direction, key: Location, value: string)
    requires TableMerged(next.emigrations, r.emigrations, m.emigrations, m.emigrations.Keys)
    requires TableMerged(next.immigrations, r.immigrations, m.immigrations, m.immigrations.Keys)
    ensures Count(Table(next, dir), key, value) == Count(Table(r, dir), key, value) + Count(Table(m, dir), key, value)
  {
    if dir == Emigration {
      assert Count(next.emigrations, key, value) == Count(r.emigrations, key, value) + Count(m.emigrations, key, value);
    } else {
      assert Count(next.immigrations, key, value) == Count(r.immigrations, key, value) + Count(m.immigrations, key, value);
    }
  }

  /**
   The merge loop of `main` over the results of all files: singletons, every
   count and the totals `countTotals` reports are the sums over the files.
   */
  method MergeAll(results: seq<Migrations>) returns (r: Migrations)
    ensures r.singletons == AllSingletons(results)
    ensures CountsOf(r, results)
    ensures Sum(TotalsOf(r.emigrations)) == AllTotals(results, Emigration)
    ensures Sum(TotalsOf(r.immigrations)) == AllTotals(results, Immigration)
  {
    r := Empty;
    var i := 0;
    assert TotalsOf(map[]) == map[];
    while i < |results|
      invariant 0 <= i <= |results|
      invariant r.singletons == AllSingletons(results[..i])
      invariant CountsOf(r, results[..i])
      invariant Sum(TotalsOf(r.emigrations)) == AllTotals(results[..i], Emigration)
      invariant Sum(TotalsOf(r.immigrations)) == AllTotals(results[..i], Immigration)
    {
      var next := MergeMigrations(r, results[i]);
      MergedTotals(next.emigrations, r.emigrations, results[i].emigrations);
      MergedTotals(next.immigrations, r.immigrations, results[i].immigrations);
      CountsStep(r, next, results[..i], results[i]);
      assert results[..i + 1] == results[..i] + [results[i]];
      r := next;
      i := i + 1;
    }
    assert results[..i] == results;
  }
}

=== FILE: migration_places.dfy ===
/**
 How the migration counter reads places. A place is a comma-separated list of
 components from the finest (town) to the coarsest (country). Components are
 compared loosely, a place is cut down to the levels that are counted, and a
 person's dated places are sorted by place and then year.
 */
module MigrationPlaces {
  import opened Strings

  const UnitedStates := "United States"

  // ---------------------------------------------------------------- compare

  /** The form that `compare` reduces a component to: trimmed, then lower-cased. */
  function Folded(s: string): string {
    ToLower(TrimSpace(s))
  }

  /**
   `compare`: two components match when they agree once trimmed and
   lower-cased. A blank component matches anything.
   */
  predicate Compare(a: string, b: string) {
    var a1 := Folded(a);
    var b1 := Folded(b);
    a1 == "" || b1 == "" || a1 == b1
  }

  /** Folding forgets letter case. */
  lemma FoldedLower(a: string)
    ensures Folded(ToLower(a)) == Folded(a)
  {
    TrimSpaceLower(a);
    ToLowerIdempotent(TrimSpace(a));
  }

  /** Matching ignores letter case on either side. */
  lemma CompareIgnoresCase(a: string, b: string)
    ensures Compare(ToLower(a), b) == Compare(a, b)
    ensures Compare(a, ToLower(b)) == Compare(a, b)
  {
    FoldedLower(a);
    FoldedLower(b);
  }

  /**
   Matching ignores white space around either component: trimming both
   first changes nothing, and neither does a space in front of one.
   */
  lemma CompareIgnoresSurroundingSpace(a: string, b: string)
    ensures Compare(a, b) == Compare(TrimSpace(a), TrimSpace(b))
    ensures Compare(" " + a, b) == Compare(a, b)
  {
    TrimSpaceIdempotent(a);
    TrimSpaceIdempotent(b);
    TrimSpaceLeadingSpace(a);
  }

  /** A blank component matches everything, on either side. */
  lemma BlankMatchesAll(a: string)
    ensures Compare(a, "") && Compare("", a)
  {
    assert TrimSpace("") == "";
  }

  /**
   Matching is not transitive: a blank component matches two components
   that do not match each other.
   */
  lemma CompareNotTransitive(a: string, b: string)
    requires Folded(a) != "" && Folded(b) != "" && Folded(a) != Folded(b)
    ensures Compare(a, "") && Compare("", b) && !Compare(a, b)
  {
    BlankMatchesAll(a);
    BlankMatchesAll(b);
  }

  // ---------------------------------------------------------------- migrated

  /** The `k`-th component counted from the end: 1 is the country, 2 the state, 3 the county. */
  function FromEnd(parts: seq<string>, k: nat): string
    requires 1 <= k <= |parts|
  {
    parts[|parts| - k]
  }

  /**
   `migrated`: whether moving from `from` to `to` counts as a migration.
   Identical places never do; otherwise the decision is taken on the
   components.
   */
  function Migrated(from: string, to: string): (moved: bool)
    ensures moved ==> from != to && ',' in from && ',' in to
  {
    from != to && MigratedParts(Split(from, ','), Split(to, ','))
  }

  /**
   The component rule of `migrated`: the country and the state are compared,
   and the county as well when the first place lies in the United States.
   Places of a single component never count.
   */
  predicate MigratedParts(f: seq<string>, t: seq<string>) {
    if |f| <= 1 || |t| <= 1 then false
    else if !Compare(FromEnd(f, 1), FromEnd(t, 1)) then true
    else if |f| < 2 || |t| < 2 then false
    else if !Compare(FromEnd(f, 2), FromEnd(t, 2)) then true
    else if Compare(FromEnd(f, 1), UnitedStates) then
      if |f| < 3 || |t| < 3 then false
      else !Compare(FromEnd(f, 3), FromEnd(t, 3))
    else false
  }

  /**
   The rule spelled out: a migration needs two different places of at least
   two components each, whose countries or states do not match, or, when the
   first place's country matches the United States and both have a county,
   whose counties do not match.
   */
  lemma MigratedMeans(from: string, to: string)
    ensures var f := Split(from, ',');
      var t := Split(to, ',');
      Migrated(from, to) <==>
        && from != to && |f| >= 2 && |t| >= 2
        && (|| !Compare(FromEnd(f, 1), FromEnd(t, 1))
            || !Compare(FromEnd(f, 2), FromEnd(t, 2))
            || (&& Compare(FromEnd(f, 1), UnitedStates)
                && |f| >= 3 && |t| >= 3
                && !Compare(FromEnd(f, 3), FromEnd(t, 3))))
  {
  }

  /** Outside the United States the rule does not depend on the direction of the move. */
  lemma MigratedSymmetric(from: string, to: string)
    requires !Compare(FromEnd(Split(from, ','), 1), UnitedStates)
    requires !Compare(FromEnd(Split(to, ','), 1), UnitedStates)
    ensures Migrated(from, to) == Migrated(to, from)
  {
  }

  /** A component without a comma, a comma, then the rest: the component is the first piece. */
  lemma SplitCons(x: string, rest: string)
    requires ',' !in x
    ensures Split(x + "," + rest, ',') == [x] + Split(rest, ',')
  {
    var s := x + "," + rest;
    assert s[..|x|] == x && s[|x|] == ',';
    assert IndexOfChar(s, ',') == |x|;
    assert s[|x| + 1..] == rest;
  }

  lemma SplitTwo(x: string, y: string)
    requires ',' !in x && ',' !in y
    ensures Split(x + "," + y, ',') == [x, y]
  {
    SplitCons(x, y);
    assert Split(y, ',') == [y];
  }

  lemma SplitThree(x: string, y: string, z: string)
    requires ',' !in x && ',' !in y && ',' !in z
    ensures Split(x + "," + y + "," + z, ',') == [x, y, z]
  {
    var yz := y + "," + z;
    Regroup3(x, y, z);
    SplitCons(x, yz);
    SplitTwo(y, z);
    assert [x] + [y, z] == [x, y, z];
  }

  lemma Regroup3(x: string, y: string, z: string)
    ensures x + "," + y + "," + z == x + "," + (y + "," + z)
  {
  }

  lemma CompareReflexive(a: string)
    ensures Compare(a, a)
  {
  }

  /** Moving to a country that does not match is a migration. */
  lemma CountryChange(x: string, c1: string, y: string, c2: string)
    requires ',' !in x && ',' !in c1 && ',' !in y && ',' !in c2
    requires !Compare(c1, c2)
    ensures Migrated(x + "," + c1, y + "," + c2)
  {
    SplitTwo(x, c1);
    SplitTwo(y, c2);
  }

  lemma StateChange(s1: string, s2: string, c: string)
    requires ',' !in s1 && ',' !in s2 && ',' !in c
    requires !Compare(s1, s2)
    ensures Migrated(s1 + "," + c, s2 + "," + c)
  {
    SplitTwo(s1, c);
    SplitTwo(s2, c);
  }

  lemma CountyChangeInUS(k1: string, k2: string, s: string, c: string)
    requires ',' !in k1 && ',' !in k2 && ',' !in s && ',' !in c
    requires Compare(c, UnitedStates) && !Compare(k1, k2)
    ensures Migrated(k1 + "," + s + "," + c, k2 + "," + s + "," + c)
  {
    SplitThree(k1, s, c);
    SplitThree(k2, s, c);
  }

  lemma CountyChangeElsewhere(k1: string, k2: string, s: string, c: string)
    requires ',' !in k1 && ',' !in k2 && ',' !in s && ',' !in c
    requires !Compare(c, UnitedStates)
    ensures !Migrated(k1 + "," + s + "," + c, k2 + "," + s + "," + c)
  {
    SplitThree(k1, s, c);
    SplitThree(k2, s, c);
  }

  /** Places of a single component are never a migration, as the tool's own tests expect. */
  lemma MigratedSingleComponentExamples()
    ensures !Migrated("abc", "a,b,c") && !Migrated("", "a") && !Migrated("a", "")
  {
    assert "abc"[0] != ',' && "abc"[1] != ',' && "abc"[2] != ',';
    assert "a"[0] != ',';
  }

  /** A component of one visible character padded with blanks folds to that character, lower-cased. */
  lemma FoldedPadded(s: string, i: nat)
    requires i < |s| && !IsSpace(s[i])
    requires forall k :: 0 <= k < |s| && k != i ==> s[k] == ' '
    ensures Folded(s) == [LowerChar(s[i])]
  {
    TrimSpaceAt(s, i, i + 1);
  }

  /** The country name folds to thirteen characters, with or without a blank in front. */
  lemma FoldedUnitedStates()
    ensures Folded(" " + UnitedStates) == Folded(UnitedStates)
    ensures |Folded(UnitedStates)| == 13
  {
    TrimSpaceLeadingSpace(UnitedStates);
    TrimSpaceAt(UnitedStates, 0, 13);
  }

  /*
   The rows of the tool's own table of `migrated` cases, one lemma per row.
   A row is stated for any two places whose components are those of the
   row's strings, each single letter standing for any component that folds
   as the row's letter does: the same letter folds alike wherever and in
   whatever case and spacing it is written, different letters fold apart,
   and the country written " United States" matches the United States.
   The row's own components meet these conditions: by `FoldedPadded` a
   letter with blanks around it folds to the letter lower-cased, and by
   `FoldedUnitedStates` " United States" folds to the thirteen characters
   of the country's name, which no single letter matches.
   */

  /** `""`, `"def"`, `"a, b"` and `"a, b, United States"`, each to itself: the same place is never a move. */
  lemma MigratedIdenticalExamples()
    ensures !Migrated("", "") && !Migrated("def", "def") && !Migrated("a, b", "a, b")
    ensures !Migrated("a, b, United States", "a, b, United States")
  {
  }

  /** `"a ,  b "` to `"a, b"`: blanks around a component do not matter. */
  lemma MigratedSpacingExample(from: string, to: string, a: string, b: string, a': string, b': string)
    requires Split(from, ',') == [a, b]
    requires Split(to, ',') == [a', b']
    requires Folded(b) == Folded(b')
    requires Folded(a) == Folded(a')
    requires !Compare(b, UnitedStates)
    ensures !Migrated(from, to)
  {
  }

  /** `"A, B"` to `"a, b"`: letter case does not matter. */
  lemma MigratedCaseExample(from: string, to: string, a: string, b: string, a': string, b': string)
    requires Split(from, ',') == [a, b]
    requires Split(to, ',') == [a', b']
    requires Folded(b) == Folded(b')
    requires Folded(a) == Folded(a')
    requires !Compare(b, UnitedStates)
    ensures !Migrated(from, to)
  {
  }

  /** `",, a, b"` to `", b"`: a blank state matches any state. */
  lemma MigratedBlankStateExample(from: string, to: string, a': string, b': string)
    requires Split(from, ',') == ["", "", a', b']
    requires Split(to, ',') == ["", b']
    requires !Compare(b', UnitedStates)
    ensures !Migrated(from, to)
  {
  }

  /** `"a, b"` to `"c, a, b"`: an added town is not a move. */
  lemma MigratedAddedTownExample(from: string, to: string, a: string, b': string, c: string, a': string)
    requires Split(from, ',') == [a, b']
    requires Split(to, ',') == [c, a', b']
    requires Folded(a) == Folded(a')
    requires !Compare(b', UnitedStates)
    ensures !Migrated(from, to)
  {
  }

  /** `"a, b, c, d"` to `"e, a, b, c, d"`: an added town is not a move, however many levels. */
  lemma MigratedAddedTownDeepExample(from: string, to: string, a: string, b': string, c': string, d': string, e: string, a': string)
    requires Split(from, ',') == [a, b', c', d']
    requires Split(to, ',') == [e, a', b', c', d']
    requires !Compare(d', UnitedStates)
    ensures !Migrated(from, to)
  {
  }

  /** `"a, b, c"` to `"a, b, United States"`: moving into the United States changes the country. */
  lemma MigratedIntoUSExample(from: string, to: string, a: string, b': string, c': string, us: string)
    requires Split(from, ',') == [a, b', c']
    requires Split(to, ',') == [a, b', us]
    requires Folded(c') != "" && Folded(us) != "" && Folded(c') != Folded(us)
    ensures Migrated(from, to)
  {
  }

  /** `"a, b, United States"` to `"a, b, c"`: moving out of the United States changes the country. */
  lemma MigratedOutOfUSExample(from: string, to: string, a: string, b': string, c': string, us: string)
    requires Split(from, ',') == [a, b', us]
    requires Split(to, ',') == [a, b', c']
    requires Folded(us) != "" && Folded(c') != "" && Folded(us) != Folded(c')
    ensures Migrated(from, to)
  {
  }

  /** `"a, b, United States"` to `"c, a, b, United States"`: an added town in the United States is not a move. */
  lemma MigratedAddedTownUSExample(from: string, to: string, a: string, b': string, c: string, a': string, us: string)
    requires Split(from, ',') == [a, b', us]
    requires Split(to, ',') == [c, a', b', us]
    requires Compare(us, UnitedStates)
    requires Folded(a) == Folded(a')
    ensures !Migrated(from, to)
  {
  }

  /** `"a, b, c, United States"` to `"d, a, b, c, United States"`: an added town under a United States county is not a move. */
  lemma MigratedAddedTownUSDeepExample(from: string, to: string, a: string, b': string, c': string, d: string, a': string, us: string)
    requires Split(from, ',') == [a, b', c', us]
    requires Split(to, ',') == [d, a', b', c', us]
    requires Compare(us, UnitedStates)
    ensures !Migrated(from, to)
  {
  }

  /** `"a, b, c, United States"` to `"d, b, c, United States"`: another town in the same United States county is not a move. */
  lemma MigratedSameCountyUSExample(from: string, to: string, a: string, b': string, c': string, d: string, us: string)
    requires Split(from, ',') == [a, b', c', us]
    requires Split(to, ',') == [d, b', c', us]
    requires Compare(us, UnitedStates)
    ensures !Migrated(from, to)
  {
  }

  /** `"a, b"` to `"c, b"`: another state is a move. */
  lemma MigratedOtherStateExample(from: string, to: string, a: string, b': string, c: string)
    requires Split(from, ',') == [a, b']
    requires Split(to, ',') == [c, b']
    requires Folded(a) != "" && Folded(c) != "" && Folded(a) != Folded(c)
    ensures Migrated(from, to)
  {
  }

  /** `"a, b"` to `"a, c"`: another country is a move. */
  lemma MigratedOtherCountryExample(from: string, to: string, a: string, b': string, c': string)
    requires Split(from, ',') == [a, b']
    requires Split(to, ',') == [a, c']
    requires Folded(b') != "" && Folded(c') != "" && Folded(b') != Folded(c')
    ensures Migrated(from, to)
  {
  }

  /** `"a, b"` to `"d, c, b"`: another state with a town is a move. */
  lemma MigratedOtherStateWithTownExample(from: string, to: string, a: string, b': string, d: string, c': string)
    requires Split(from, ',') == [a, b']
    requires Split(to, ',') == [d, c', b']
    requires Folded(a) != "" && Folded(c') != "" && Folded(a) != Folded(c')
    ensures Migrated(from, to)
  {
  }

  /** `"a, b"` to `"d, a, c"`: another country with a town is a move. */
  lemma MigratedOtherCountryWithTownExample(from: string, to: string, a: string, b': string, d: string, a': string, c': string)
    requires Split(from, ',') == [a, b']
    requires Split(to, ',') == [d, a', c']
    requires Folded(b') != "" && Folded(c') != "" && Folded(b') != Folded(c')
    ensures Migrated(from, to)
  {
  }

  /** `"a, b, c, d"` to `"e, a, b, f, d"`: another state is a move, however many levels. */
  lemma MigratedOtherStateDeepExample(from: string, to: string, a: string, b': string, c': string, d': string, e: string, a': string, f': string)
    requires Split(from, ',') == [a, b', c', d']
    requires Split(to, ',') == [e, a', b', f', d']
    requires Folded(c') != "" && Folded(f') != "" && Folded(c') != Folded(f')
    ensures Migrated(from, to)
  {
  }

  /** `"a, b, c, d"` to `"e, a, b, c, f"`: another country is a move, however many levels. */
  lemma MigratedOtherCountryDeepExample(from: string, to: string, a: string, b': string, c': string, d': string, e: string, a': string, f': string)
    requires Split(from, ',') == [a, b', c', d']
    requires Split(to, ',') == [e, a', b', c', f']
    requires Folded(d') != "" && Folded(f') != "" && Folded(d') != Folded(f')
    ensures Migrated(from, to)
  {
  }

  /** `"a, b, United States"` to `"c, b, United States"`: another United States county is a move. */
  lemma MigratedOtherCountyUSExample(from: string, to: string, a: string, b': string, c: string, us: string)
    requires Split(from, ',') == [a, b', us]
    requires Split(to, ',') == [c, b', us]
    requires Compare(us, UnitedStates)
    requires Folded(a) != "" && Folded(c) != "" && Folded(a) != Folded(c)
    ensures Migrated(from, to)
  {
  }

  /** `"a, b, United States"` to `"a, c, United States"`: another United States state is a move. */
  lemma MigratedOtherStateUSExample(from: string, to: string, a: string, b': string, c': string, us: string)
    requires Split(from, ',') == [a, b', us]
    requires Split(to, ',') == [a, c', us]
    requires Folded(b') != "" && Folded(c') != "" && Folded(b') != Folded(c')
    ensures Migrated(from, to)
  {
  }

  /** `"a, b, United States"` to `"c, d, b, United States"`: another United States county with a town is a move. */
  lemma MigratedOtherCountyUSWithTownExample(from: string, to: string, a: string, b': string, c: string, d': string, us: string)
    requires Split(from, ',') == [a, b', us]
    requires Split(to, ',') == [c, d', b', us]
    requires Compare(us, UnitedStates)
    requires Folded(a) != "" && Folded(d') != "" && Folded(a) != Folded(d')
    ensures Migrated(from, to)
  {
  }

  /** `"a, b, United States"` to `"c, a, d, United States"`: another United States state with a town is a move. */
  lemma MigratedOtherStateUSWithTownExample(from: string, to: string, a: string, b': string, c: string, a': string, d': string, us: string)
    requires Split(from, ',') == [a, b', us]
    requires Split(to, ',') == [c, a', d', us]
    requires Folded(b') != "" && Folded(d') != "" && Folded(b') != Folded(d')
    ensures Migrated(from, to)
  {
  }

  /** `"a, b, c, United States"` to `"d, a, e, c, United States"`: another United States county is a move, however many levels. */
  lemma MigratedOtherCountyUSDeepExample(from: string, to: string, a: string, b': string, c': string, d: string, a': string, e': string, us: string)
    requires Split(from, ',') == [a, b', c', us]
    requires Split(to, ',') == [d, a', e', c', us]
    requires Compare(us, UnitedStates)
    requires Folded(b') != "" && Folded(e') != "" && Folded(b') != Folded(e')
    ensures Migrated(from, to)
  {
  }

  /** `"a, b, c, United States"` to `"d, a, b, e, United States"`: another United States state is a move, however many levels. */
  lemma MigratedOtherStateUSDeepExample(from: string, to: string, a: string, b': string, c': string, d: string, a': string, e': string, us: string)
    requires Split(from, ',') == [a, b', c', us]
    requires Split(to, ',') == [d, a', b', e', us]
    requires Folded(c') != "" && Folded(e') != "" && Folded(c') != Folded(e')
    ensures Migrated(from, to)
  {
  }

  // ---------------------------------------------------------------- stdPlace

  /** The most levels a place may keep, judged by its trimmed country. */
  function MaxLevels(country: string): nat {
    if country == UnitedStates then 3 else 2
  }

  /** How many trailing components are kept: three in the United States, two elsewhere, never more than there are. */
  function LevelCount(parts: seq<string>): (n: nat)
    requires |parts| >= 1
    ensures 1 <= n <= |parts| && n <= 3
  {
    var most := MaxLevels(TrimSpace(parts[|parts| - 1]));
    if most > |parts| then |parts| else most
  }

  /** The last `n` components, each trimmed. */
  function TrimmedTail(parts: seq<string>, n: nat): (tail: seq<string>)
    requires n <= |parts|
    ensures |tail| == n
  {
    seq(n, i requires 0 <= i < n => TrimSpace(parts[|parts| - n + i]))
  }

  /**
   `stdPlace`: the trimmed trailing components of a place that the counter
   works with, coarsest last. The empty place has none.
   */
  function StdPlace(place: string): (levels: seq<string>)
    ensures place == "" <==> levels == []
    ensures |levels| <= 3
  {
    if place == "" then []
    else
      var parts := Split(place, ',');
      TrimmedTail(parts, LevelCount(parts))
  }

  /** Level `i` is the trimmed component `i` places into the kept tail. */
  lemma StdPlaceLevel(place: string, i: int)
    requires 0 <= i < |StdPlace(place)|
    ensures var parts := Split(place, ',');
      && |StdPlace(place)| == LevelCount(parts)
      && StdPlace(place)[i] == TrimSpace(parts[|parts| - |StdPlace(place)| + i])
  {
    var parts := Split(place, ',');
    var n := LevelCount(parts);
    assert StdPlace(place) == TrimmedTail(parts, n);
    TailLevel(parts, n, i);
  }

  lemma TailLevel(parts: seq<string>, n: nat, i: int)
    requires n <= |parts| && 0 <= i < n
    ensures TrimmedTail(parts, n)[i] == TrimSpace(parts[|parts| - n + i])
  {
  }

  /** A three-component place in the United States keeps all three components, trimmed. */
  lemma StdPlaceThreeInUS(x: string, y: string, z: string)
    requires ',' !in x && ',' !in y && ',' !in z
    requires TrimSpace(z) == UnitedStates
    ensures StdPlace(x + "," + y + "," + z) == [TrimSpace(x), TrimSpace(y), TrimSpace(z)]
  {
    ThreeTail(x, y, z);
    var r := StdPlace(x + "," + y + "," + z);
    assert |r| == 3;
    TailLevel([x, y, z], 3, 0);
    TailLevel([x, y, z], 3, 1);
    TailLevel([x, y, z], 3, 2);
    Three(r, TrimSpace(x), TrimSpace(y), TrimSpace(z));
  }

  /** Elsewhere a three-component place keeps only its last two components, trimmed. */
  lemma StdPlaceThreeElsewhere(x: string, y: string, z: string)
    requires ',' !in x && ',' !in y && ',' !in z
    requires TrimSpace(z) != UnitedStates
    ensures StdPlace(x + "," + y + "," + z) == [TrimSpace(y), TrimSpace(z)]
  {
    ThreeTail(x, y, z);
    var r := StdPlace(x + "," + y + "," + z);
    assert |r| == 2;
    TailLevel([x, y, z], 2, 0);
    TailLevel([x, y, z], 2, 1);
    Two(r, TrimSpace(y), TrimSpace(z));
  }

  lemma Three<T>(r: seq<T>, a: T, b: T, c: T)
    requires |r| == 3 && r[0] == a && r[1] == b && r[2] == c
    ensures r == [a, b, c]
  {
  }

  lemma Two<T>(r: seq<T>, a: T, b: T)
    requires |r| == 2 && r[0] == a && r[1] == b
    ensures r == [a, b]
  {
  }

  /** A place of three comma-free components keeps the tail its country allows. */
  lemma ThreeTail(x: string, y: string, z: string)
    requires ',' !in x && ',' !in y && ',' !in z
    ensures StdPlace(x + "," + y + "," + z) == TrimmedTail([x, y, z], MaxLevels(TrimSpace(z)))
  {
    SplitThree(x, y, z);
    assert |x + "," + y + "," + z| > 0;
  }

  /** Every level is already trimmed and holds no comma. */
  lemma StdPlaceClean(place: string, i: int)
    requires 0 <= i < |StdPlace(place)|
    ensures ',' !in StdPlace(place)[i]
    ensures TrimSpace(StdPlace(place)[i]) == StdPlace(place)[i]
  {
    var parts := Split(place, ',');
    TailClean(parts, LevelCount(parts), i);
  }

  /** A trimmed tail of comma-free components is comma-free and trimmed. */
  lemma TailClean(parts: seq<string>, n: nat, i: int)
    requires n <= |parts| && 0 <= i < n
    requires forall j :: 0 <= j < |parts| ==> ',' !in parts[j]
    ensures ',' !in TrimmedTail(parts, n)[i]
    ensures TrimSpace(TrimmedTail(parts, n)[i]) == TrimmedTail(parts, n)[i]
  {
    var part := parts[|parts| - n + i];
    assert TrimmedTail(parts, n)[i] == TrimSpace(part);
    CleanPart(part);
  }

  /** Trimming a comma-free component leaves it comma-free, and trimming twice changes nothing. */
  lemma CleanPart(part: string)
    requires ',' !in part
    ensures ',' !in TrimSpace(part)
    ensures TrimSpace(TrimSpace(part)) == TrimSpace(part)
  {
    TrimSpaceWithin(part, ',');
    TrimSpaceIdempotent(part);
  }

  /** Every component but the first, with a space in front: what `", "` leaves after a split on `','`. */
  function Spaced(parts: seq<string>): (r: seq<string>)
    ensures |r| == |parts| && forall i :: 0 <= i < |parts| ==> r[i] == " " + parts[i]
  {
    seq(|parts|, i requires 0 <= i < |parts| => " " + parts[i])
  }

  lemma {:induction false} JoinSpaced(parts: seq<string>)
    requires |parts| >= 1
    ensures Join(Spaced(parts), ",") == " " + Join(parts, ", ")
  {
    if |parts| > 1 {
      assert Spaced(parts)[1..] == Spaced(parts[1..]);
      JoinSpaced(parts[1..]);
    }
  }

  lemma Regroup(a: string, t: string)
    ensures a + "," + (" " + t) == a + ", " + t
  {
  }

  /** Joining with `", "` is joining with `','` after putting a space before every later component. */
  lemma JoinCommaSpace(parts: seq<string>)
    requires |parts| >= 1
    ensures Join(parts, ", ") == Join([parts[0]] + Spaced(parts[1..]), ",")
  {
    if |parts| > 1 {
      var rest := Spaced(parts[1..]);
      var whole := [parts[0]] + rest;
      assert whole[1..] == rest;
      assert Join(whole, ",") == parts[0] + "," + Join(rest, ",");
      JoinSpaced(parts[1..]);
      Regroup(parts[0], Join(parts[1..], ", "));
    }
  }

  /** Splitting comma-free components joined with `", "` gives them back, each later one after a space. */
  lemma SplitJoinedLevels(levels: seq<string>)
    requires |levels| >= 1
    requires forall i :: 0 <= i < |levels| ==> ',' !in levels[i]
    ensures Split(Join(levels, ", "), ',') == [levels[0]] + Spaced(levels[1..])
  {
    var parts := [levels[0]] + Spaced(levels[1..]);
    JoinCommaSpace(levels);
    forall i | 0 <= i < |parts|
      ensures ',' !in parts[i]
    {
      if i > 0 {
        assert parts[i] == " " + levels[i];
      }
    }
    SplitJoin(parts, ',');
  }

  /**
   What `stdPlace` produces for a non-empty place: at least one level, not a
   lone blank one, every level comma-free and trimmed, and no more levels
   than the country allows.
   */
  predicate Standard(levels: seq<string>) {
    && levels != [] && levels != [""]
    && (forall i :: 0 <= i < |levels| ==> ',' !in levels[i] && TrimSpace(levels[i]) == levels[i])
    && |levels| <= MaxLevels(levels[|levels| - 1])
  }

  /** The levels of any place, unless there are none or just a blank one, are standard. */
  lemma StdPlaceStandard(place: string)
    requires StdPlace(place) != [] && StdPlace(place) != [""]
    ensures Standard(StdPlace(place))
  {
    var levels := StdPlace(place);
    var n := |levels|;
    forall i | 0 <= i < n
      ensures ',' !in levels[i] && TrimSpace(levels[i]) == levels[i]
    {
      StdPlaceClean(place, i);
    }
    TailBound(Split(place, ','));
  }

  /** The kept tail is no longer than its own last level allows. */
  lemma TailBound(parts: seq<string>)
    requires |parts| >= 1
    ensures var tail := TrimmedTail(parts, LevelCount(parts));
      |tail| <= MaxLevels(tail[|tail| - 1])
  {
    var n := LevelCount(parts);
    var tail := TrimmedTail(parts, n);
    assert tail[n - 1] == TrimSpace(parts[|parts| - 1]);
  }

  /** A place whose components all trim to `levels`, with as many components as levels, standardises to `levels`. */
  lemma StdPlaceOfParts(q: string, levels: seq<string>)
    requires q != ""
    requires |Split(q, ',')| == |levels| == LevelCount(Split(q, ','))
    requires forall i :: 0 <= i < |levels| ==> TrimSpace(Split(q, ',')[i]) == levels[i]
    ensures StdPlace(q) == levels
  {
    var r := StdPlace(q);
    forall i | 0 <= i < |levels|
      ensures r[i] == levels[i]
    {
      StdPlaceLevel(q, i);
    }
  }

  /** Splitting clean levels joined with `", "` gives components that trim back to the levels. */
  lemma JoinedParts(levels: seq<string>)
    requires |levels| >= 1
    requires forall i :: 0 <= i < |levels| ==> ',' !in levels[i] && TrimSpace(levels[i]) == levels[i]
    ensures |Split(Join(levels, ", "), ',')| == |levels|
    ensures forall i :: 0 <= i < |levels| ==> TrimSpace(Split(Join(levels, ", "), ',')[i]) == levels[i]
  {
    SplitJoinedLevels(levels);
    SpacedTrim(levels);
  }

  lemma SpacedTrim(levels: seq<string>)
    requires |levels| >= 1
    requires forall i :: 0 <= i < |levels| ==> TrimSpace(levels[i]) == levels[i]
    ensures forall i :: 0 <= i < |levels| ==> TrimSpace(([levels[0]] + Spaced(levels[1..]))[i]) == levels[i]
  {
    var parts := [levels[0]] + Spaced(levels[1..]);
    forall i | 0 < i < |levels|
      ensures TrimSpace(parts[i]) == levels[i]
    {
      assert parts[i] == " " + levels[i];
      TrimSpaceLeadingSpace(levels[i]);
    }
  }

  /** Standard levels joined with `", "` split back into as many components, all kept. */
  lemma JoinedLevelCount(levels: seq<string>)
    requires Standard(levels)
    ensures LevelCount(Split(Join(levels, ", "), ',')) == |levels|
  {
    JoinedLast(levels);
    AllKept(Split(Join(levels, ", "), ','), levels);
  }

  /** The last component of clean levels joined and split again trims to the last level. */
  lemma JoinedLast(levels: seq<string>)
    requires |levels| >= 1
    requires forall i :: 0 <= i < |levels| ==> ',' !in levels[i] && TrimSpace(levels[i]) == levels[i]
    ensures |Split(Join(levels, ", "), ',')| == |levels|
    ensures TrimSpace(Split(Join(levels, ", "), ',')[|levels| - 1]) == levels[|levels| - 1]
  {
    JoinedParts(levels);
  }

  /** Components that trim to levels their own country allows to keep in full are all kept. */
  lemma AllKept(parts: seq<string>, levels: seq<string>)
    requires |parts| == |levels| >= 1
    requires TrimSpace(parts[|levels| - 1]) == levels[|levels| - 1]
    requires |levels| <= MaxLevels(levels[|levels| - 1])
    ensures LevelCount(parts) == |levels|
  {
  }
  /** Standard levels joined with `", "` standardise back to themselves. */
  lemma StdPlaceOfJoin(levels: seq<string>)
    requires Standard(levels)
    ensures StdPlace(Join(levels, ", ")) == levels
  {
    JoinedParts(levels);
    JoinedLevelCount(levels);
    JoinedNonEmpty(levels);
    StdPlaceOfParts(Join(levels, ", "), levels);
  }

  /**
   The levels joined back with `", "` form a place that standardises to the
   same levels, unless the only level is blank (that place is empty).
   */
  lemma StdPlaceIdempotent(place: string)
    requires StdPlace(place) != [""]
    ensures StdPlace(Join(StdPlace(place), ", ")) == StdPlace(place)
  {
    if StdPlace(place) != [] {
      StdPlaceStandard(place);
      StdPlaceOfJoin(StdPlace(place));
    }
  }

  /** Joining is empty only for no components or a single empty one. */
  lemma JoinedNonEmpty(levels: seq<string>)
    requires levels != [] && levels != [""]
    ensures Join(levels, ", ") != ""
  {
    if |levels| > 1 {
      assert |Join(levels, ", ")| >= 2;
    }
  }

  // ---------------------------------------------------------------- order

  /** A place paired with the year it was recorded in. */
  datatype Location = Location(place: string, year: int)

  /** `Locations.Less`: by place, then by year. */
  predicate Less(a: Location, b: Location) {
    if a.place == b.place then a.year < b.year else LexLess(a.place, b.place)
  }

  lemma LessIrreflexive(a: Location)
    ensures !Less(a, a)
  {
    LexLessIrreflexive(a.place);
  }

  lemma LessTransitive(a: Location, b: Location, c: Location)
    requires Less(a, b) && Less(b, c)
    ensures Less(a, c)
  {
    if a.place != b.place && b.place != c.place {
      LexLessTransitive(a.place, b.place, c.place);
      if a.place == c.place {
        LexLessAsymmetric(a.place, b.place);
      }
    }
  }

  /** Any two different locations are ordered one way or the other. */
  lemma LessTotal(a: Location, b: Location)
    ensures a == b || Less(a, b) || Less(b, a)
  {
    LexLessTotal(a.place, b.place);
  }

  /** `a` does not come after `b`. */
  predicate NotAfter(a: Location, b: Location) {
    !Less(b, a)
  }

  predicate Sorted(s: seq<Location>) {
    forall i, j :: 0 <= i < j < |s| ==> NotAfter(s[i], s[j])
  }

  /** Two locations that are each not after the other are the same location. */
  lemma NotAfterAntisymmetric(a: Location, b: Location)
    requires NotAfter(a, b) && NotAfter(b, a)
    ensures a == b
  {
    LessTotal(a, b);
  }

  /** Places `x` in front of the first element it does not come after. */
  function Insert(x: Location, s: seq<Location>): (r: seq<Location>)
    requires Sorted(s)
    ensures Sorted(r)
    ensures multiset(r) == multiset(s) + multiset{x}
  {
    if |s| == 0 then [x]
    else if NotAfter(x, s[0]) then
      InsertFront(x, s);
      [x] + s
    else
      var rest := Insert(x, s[1..]);
      InsertLater(x, s, rest);
      [s[0]] + rest
  }

  lemma InsertFront(x: Location, s: seq<Location>)
    requires Sorted(s) && |s| > 0 && NotAfter(x, s[0])
    ensures Sorted([x] + s)
    ensures multiset([x] + s) == multiset(s) + multiset{x}
  {
    forall j | 0 < j < |s|
      ensures NotAfter(x, s[j])
    {
      if Less(s[j], x) {
        LessTotal(s[0], s[j]);
        if Less(s[0], s[j]) {
          LessTransitive(s[0], s[j], x);
        }
      }
    }
    forall i, j | 0 <= i < j < |[x] + s|
      ensures NotAfter(([x] + s)[i], ([x] + s)[j])
    {
      if i > 0 {
        assert ([x] + s)[i] == s[i - 1] && ([x] + s)[j] == s[j - 1];
      }
    }
  }

  lemma InsertLater(x: Location, s: seq<Location>, rest: seq<Location>)
    requires Sorted(s) && |s| > 0 && !NotAfter(x, s[0])
    requires Sorted(rest) && multiset(rest) == multiset(s[1..]) + multiset{x}
    ensures Sorted([s[0]] + rest)
    ensures multiset([s[0]] + rest) == multiset(s) + multiset{x}
  {
    assert s == [s[0]] + s[1..];
    assert NotAfter(s[0], x) by {
      if Less(x, s[0]) {
        LessTransitive(s[0], x, s[0]);
        LessIrreflexive(s[0]);
      }
    }
    forall j | 0 <= j < |rest|
      ensures NotAfter(s[0], rest[j])
    {
      assert rest[j] in multiset(rest);
    }
    forall i, j | 0 <= i < j < |[s[0]] + rest|
      ensures NotAfter(([s[0]] + rest)[i], ([s[0]] + rest)[j])
    {
      if i > 0 {
        assert ([s[0]] + rest)[i] == rest[i - 1] && ([s[0]] + rest)[j] == rest[j - 1];
      }
    }
  }

  /** `sort.Sort(locations)`: the same locations, in order. */
  function SortLocations(s: seq<Location>): (r: seq<Location>)
    ensures Sorted(r)
    ensures multiset(r) == multiset(s)
  {
    if |s| == 0 then []
    else
      assert s == s[..|s| - 1] + [s[|s| - 1]];
      Insert(s[|s| - 1], SortLocations(s[..|s| - 1]))
  }

  /** The head of a sorted sequence comes after none of its elements. */
  lemma SortedHead(a: seq<Location>, x: Location)
    requires Sorted(a) && x in multiset(a)
    ensures NotAfter(a[0], x)
  {
    var i :| 0 <= i < |a| && a[i] == x;
    LessIrreflexive(a[0]);
    if i > 0 {
      assert NotAfter(a[0], a[i]);
    }
  }

  lemma SortedTail(a: seq<Location>)
    requires Sorted(a) && |a| > 0
    ensures Sorted(a[1..])
  {
    forall i, j | 0 <= i < j < |a| - 1
      ensures NotAfter(a[1..][i], a[1..][j])
    {
      assert a[1..][i] == a[i + 1] && a[1..][j] == a[j + 1];
    }
  }

  lemma SameHeadTail(a: seq<Location>, b: seq<Location>)
    requires |a| > 0 && |b| > 0 && a[0] == b[0] && a[1..] == b[1..]
    ensures a == b
  {
    assert a == [a[0]] + a[1..] && b == [b[0]] + b[1..];
  }

  /** Dropping the head of a sequence drops one copy of it from its multiset. */
  lemma DropHead(a: seq<Location>)
    requires |a| > 0
    ensures multiset(a[1..]) == multiset(a) - multiset{a[0]}
  {
    assert a == [a[0]] + a[1..];
  }

  /**
   There is only one sorted arrangement of a multiset of locations, so an
   unstable sort gives the same result as any other.
   */
  lemma {:induction false} SortedUnique(a: seq<Location>, b: seq<Location>)
    requires Sorted(a) && Sorted(b) && multiset(a) == multiset(b)
    ensures a == b
  {
    if |a| > 0 {
      assert a[0] in multiset(a);
      assert |b| > 0;
      assert b[0] in multiset(b);
      SortedHead(a, b[0]);
      SortedHead(b, a[0]);
      NotAfterAntisymmetric(a[0], b[0]);
      DropHead(a);
      DropHead(b);
      SortedTail(a);
      SortedTail(b);
      SortedUnique(a[1..], b[1..]);
      SameHeadTail(a, b);
    }
  }
}

=== FILE: migrations.dfy ===
/**
 The migration counter's tables. Every recorded move from one dated place to
 another is counted at each pair of levels of the two places (county, state,
 country), once from the side of the place left (emigrations) and once from
 the side of the place reached (immigrations), next to per-location totals
 kept under the key `TOTAL`.
 */
module Migrations {
  import opened Strings
  import opened Counters
  import opened MigrationPlaces

  /** Years are counted by decade. */
  const YearGranularity := 10

  /** The value under which a location's total is counted. */
  const Total := "TOTAL"

  // ---------------------------------------------------------------- years

  /**
   Go's `year % YEAR_GRANULARITY`: the remainder has the sign of the year, so
   a year and its negation have opposite remainders.
   */
  function YearRem(year: int): (r: int)
    ensures year >= 0 ==> 0 <= r < YearGranularity
    ensures year < 0 ==> -YearGranularity < r <= 0
    ensures (year - r) % YearGranularity == 0
  {
    if year >= 0 then year % YearGranularity else -((-year) % YearGranularity)
  }

  /** The remainder of a negated year is the negated remainder. */
  lemma YearRemOdd(year: int)
    ensures YearRem(-year) == -YearRem(year)
  {
  }

  /**
   `year - year % YEAR_GRANULARITY`: the decade of a year, rounded toward
   zero, so that -15 falls in the decade -10.
   */
  function RoundYear(year: int): (r: int)
    ensures r % YearGranularity == 0
    ensures year >= 0 ==> 0 <= r <= year < r + YearGranularity
    ensures year < 0 ==> r - YearGranularity < year <= r <= 0
  {
    year - YearRem(year)
  }

  /** A decade is its own decade. */
  lemma RoundYearIdempotent(year: int)
    ensures RoundYear(RoundYear(year)) == RoundYear(year)
  {
    var r := RoundYear(year);
    assert YearRem(r) == 0;
  }

  // ---------------------------------------------------------------- tables

  /** `MigrationMap`: for each dated location, a count per other place. */
  type MigrationMap = map<Location, map<string, int>>

  /** The row of a location; a missing row reads as empty. */
  function Row(m: MigrationMap, key: Location): map<string, int> {
    if key in m then m[key] else map[]
  }

  /** `m[key][value]`, reading 0 when either is missing. */
  function Count(m: MigrationMap, key: Location, value: string): int {
    Get(Row(m, key), value)
  }

  /**
   `MigrationMap.add`: the row of `key` is created when missing, and the
   count of `value` in it grows by `count`. Nothing else changes.
   */
  function MapAdd(m: MigrationMap, key: Location, value: string, count: int): (r: MigrationMap)
    ensures r.Keys == m.Keys + {key}
    ensures Row(r, key).Keys == Row(m, key).Keys + {value}
    ensures Count(r, key, value) == Count(m, key, value) + count
    ensures forall k, v :: k != key || v != value ==> Count(r, k, v) == Count(m, k, v)
    ensures forall k :: k != key ==> Row(r, k) == Row(m, k)
  {
    m[key := Inc(Row(m, key), value, count)]
  }

  /** `Migrations`: persons with at most one dated place, and the two tables. */
  datatype Migrations = Migrations(singletons: int, immigrations: MigrationMap, emigrations: MigrationMap)

  const Empty := Migrations(0, map[], map[])

  datatype Direction = Emigration | Immigration

  /** The table one direction is counted in. */
  function Table(m: Migrations, dir: Direction): MigrationMap {
    match dir
    case Emigration => m.emigrations
    case Immigration => m.immigrations
  }

  /** One `add(key, value, 1)` on the table of `dir`. */
  datatype Entry = Entry(dir: Direction, key: Location, value: string)

  /** Counting one entry: its table gains one at (key, value); the other table and the singletons stay. */
  function Record(m: Migrations, e: Entry): (r: Migrations)
    ensures r.singletons == m.singletons
    ensures Table(r, e.dir) == MapAdd(Table(m, e.dir), e.key, e.value, 1)
    ensures forall d :: d != e.dir ==> Table(r, d) == Table(m, d)
  {
    match e.dir
    case Emigration => m.(emigrations := MapAdd(m.emigrations, e.key, e.value, 1))
    case Immigration => m.(immigrations := MapAdd(m.immigrations, e.key, e.value, 1))
  }

  /** Counting one entry adds one to its own count and to no other. */
  lemma RecordCount(m: Migrations, e: Entry, dir: Direction, key: Location, value: string)
    ensures Count(Table(Record(m, e), dir), key, value)
      == Count(Table(m, dir), key, value) + if e == Entry(dir, key, value) then 1 else 0
  {
    if dir != e.dir {
      assert Table(Record(m, e), dir) == Table(m, dir);
    }
  }

  /** Counting a sequence of entries in order. */
  function Apply(m: Migrations, es: seq<Entry>): Migrations
    decreases |es|
  {
    if |es| == 0 then m else Record(Apply(m, es[..|es| - 1]), es[|es| - 1])
  }

  /**
   After counting a sequence of entries, each count has grown by the number of
   times its entry occurs in the sequence, and the singletons are unchanged.
   */
  lemma {:induction false} ApplyCount(m: Migrations, es: seq<Entry>, dir: Direction, key: Location, value: string)
    ensures Apply(m, es).singletons == m.singletons
    ensures Count(Table(Apply(m, es), dir), key, value)
      == Count(Table(m, dir), key, value) + multiset(es)[Entry(dir, key, value)]
    decreases |es|
  {
    if |es| > 0 {
      var init := es[..|es| - 1];
      var e := es[|es| - 1];
      ApplyCount(m, init, dir, key, value);
      RecordCount(Apply(m, init), e, dir, key, value);
      MultisetSnoc(es);
    }
  }

  lemma MultisetSnoc<T>(s: seq<T>)
    requires |s| > 0
    ensures multiset(s) == multiset(s[..|s| - 1]) + multiset{s[|s| - 1]}
  {
    assert s == s[..|s| - 1] + [s[|s| - 1]];
  }

  /** Counting two sequences one after the other is counting their concatenation. */
  lemma {:induction false} ApplyAppend(m: Migrations, a: seq<Entry>, b: seq<Entry>)
    ensures Apply(m, a + b) == Apply(Apply(m, a), b)
    decreases |b|
  {
    if |b| == 0 {
      assert a + b == a;
    } else {
      var init := b[..|b| - 1];
      assert (a + b)[..|a + b| - 1] == a + init;
      ApplyAppend(m, a, init);
    }
  }

  // ---------------------------------------------------------------- levels

  /** The place of level `i`: the levels from `i` on, joined with `", "`. */
  function LevelPlace(levels: seq<string>, i: nat): string
    requires i < |levels|
  {
    Join(levels[i..], ", ")
  }

  /** `p` is the tail of `s`: a region that contains `s`, or `s` itself. */
  predicate EndsWith<T(==)>(s: seq<T>, p: seq<T>) {
    |p| <= |s| && s[|s| - |p|..] == p
  }

  /**
   The pair of levels the counter skips, as written: equal places, or a
   finer place whose text ends with the text of the coarser one. The text
   test also fires when the coarser place is only the tail of the last word,
   as "Virginia" is of "West Virginia".
   */
  predicate SkippedAsWritten(from: seq<string>, fl: nat, to: seq<string>, tl: nat)
    requires fl < |from| && tl < |to|
  {
    var f := LevelPlace(from, fl);
    var t := LevelPlace(to, tl);
    || f == t
    || (|from| - fl > |to| - tl && HasSuffix(f, t))
    || (|from| - fl < |to| - tl && HasSuffix(t, f))
  }

  /**
   The pair of levels the counter skips, as the comment above the test
   describes it ("P <=> P, Y,Z <=> Z, and Y,Z <=> X,Y,Z"): equal places, or
   one place whose levels end with all the levels of the other, so that one
   contains the other.
   */
  predicate Skipped(from: seq<string>, fl: nat, to: seq<string>, tl: nat)
    requires fl < |from| && tl < |to|
  {
    || LevelPlace(from, fl) == LevelPlace(to, tl)
    || (|from| - fl > |to| - tl && EndsWith(from[fl..], to[tl..]))
    || (|from| - fl < |to| - tl && EndsWith(to[tl..], from[fl..]))
  }

  /** Levels that end with other levels join to text that ends with theirs. */
  lemma JoinEndsWith(f: seq<string>, t: seq<string>)
    requires 1 <= |t| < |f| && EndsWith(f, t)
    ensures HasSuffix(Join(f, ", "), Join(t, ", "))
  {
    var k := |f| - |t|;
    assert f == f[..k] + t;
    JoinAppend(f[..k], t, ", ");
  }

  /** Every pair skipped by levels is also skipped by text: the text test only adds skips. */
  lemma SkippedAsWrittenWider(from: seq<string>, fl: nat, to: seq<string>, tl: nat)
    requires fl < |from| && tl < |to|
    requires Skipped(from, fl, to, tl)
    ensures SkippedAsWritten(from, fl, to, tl)
  {
    if |from| - fl > |to| - tl && EndsWith(from[fl..], to[tl..]) {
      JoinEndsWith(from[fl..], to[tl..]);
    } else if |from| - fl < |to| - tl && EndsWith(to[tl..], from[fl..]) {
      JoinEndsWith(to[tl..], from[fl..]);
    }
  }

  /**
   The text test skips a move from a county of "West Virginia" to
   "Virginia": the place left, `x, y z`, ends with the text `z` of the place
   reached although its state `y z` is not `z`. By levels the pair is counted.
   */
  lemma SuffixSkipExample(x: string, y: string, z: string)
    requires y != ""
    ensures SkippedAsWritten([x, y + z], 0, [z], 0)
    ensures !Skipped([x, y + z], 0, [z], 0)
  {
    var from := [x, y + z];
    var f := LevelPlace(from, 0);
    assert from[0..] == from;
    JoinCons(x, [y + z], ", ");
    assert f == x + ", " + y + z;
    assert [z][0..] == [z];
    assert LevelPlace([z], 0) == z;
    assert f[|f| - |z|..] == z;
    assert from[1..] != [z] by {
      assert |from[1][..]| > |z|;
    }
  }

  /** Which of the two tests decides the level pairs that are skipped. */
  datatype SkipRule = AsWritten | Intended

  predicate Skips(rule: SkipRule, from: seq<string>, fl: nat, to: seq<string>, tl: nat)
    requires fl < |from| && tl < |to|
  {
    match rule
    case AsWritten => SkippedAsWritten(from, fl, to, tl)
    case Intended => Skipped(from, fl, to, tl)
  }

  // ---------------------------------------------------------------- add

  /**
   The entries counted for level `fl` of the place left and level `tl` of
   the place reached: the move both ways unless the pair is skipped, then,
   on the finest level left only, the reached location's total.
   */
  function PairEntries(rule: SkipRule, from: seq<string>, fl: nat, to: seq<string>, tl: nat, fy: int, ty: int): seq<Entry>
    requires fl < |from| && tl < |to|
  {
    var left := Location(LevelPlace(from, fl), fy);
    var reached := Location(LevelPlace(to, tl), ty);
    (if Skips(rule, from, fl, to, tl) then []
     else [Entry(Emigration, left, reached.place), Entry(Immigration, reached, left.place)])
    + (if fl == 0 then [Entry(Immigration, reached, Total)] else [])
  }

  /** The inner loop of `add`: levels `tl` and on of the place reached. */
  function InnerEntries(rule: SkipRule, from: seq<string>, fl: nat, to: seq<string>, tl: nat, fy: int, ty: int): seq<Entry>
    requires fl < |from| && tl <= |to|
    decreases |to| - tl
  {
    if tl == |to| then []
    else PairEntries(rule, from, fl, to, tl, fy, ty) + InnerEntries(rule, from, fl, to, tl + 1, fy, ty)
  }

  /** The outer loop of `add`: levels `fl` and on of the place left, each closed by its own total. */
  function OuterEntries(rule: SkipRule, from: seq<string>, fl: nat, to: seq<string>, fy: int, ty: int): seq<Entry>
    requires fl <= |from|
    decreases |from| - fl
  {
    if fl == |from| then []
    else
      InnerEntries(rule, from, fl, to, 0, fy, ty)
      + [Entry(Emigration, Location(LevelPlace(from, fl), fy), Total)]
      + OuterEntries(rule, from, fl + 1, to, fy, ty)
  }

  /** Everything `Migrations.add(from, to)` counts, in the order it counts it. */
  function AddEntries(rule: SkipRule, from: Location, to: Location): seq<Entry> {
    OuterEntries(rule, StdPlace(from.place), 0, StdPlace(to.place), RoundYear(from.year), RoundYear(to.year))
  }

  /** `Migrations.add`, with its text test for the pairs it skips. */
  function Add(m: Migrations, from: Location, to: Location): Migrations {
    Apply(m, AddEntries(AsWritten, from, to))
  }

  /** `Migrations.add` with the skip test its comment describes. */
  function AddIntended(m: Migrations, from: Location, to: Location): Migrations {
    Apply(m, AddEntries(Intended, from, to))
  }

  // ---------------------------------------------------------------- entries

  /** No level of a place reads `TOTAL`, the key the totals are counted under. */
  predicate NoTotalLevel(levels: seq<string>) {
    Total !in LevelPlaces(levels)
  }

  /** The place of every level, finest first. */
  function LevelPlaces(levels: seq<string>): (places: seq<string>)
    ensures |places| == |levels|
  {
    seq(|levels|, i requires 0 <= i < |levels| => LevelPlace(levels, i))
  }

  lemma NoTotalAt(levels: seq<string>, i: nat)
    requires NoTotalLevel(levels) && i < |levels|
    ensures LevelPlace(levels, i) != Total
  {
    assert LevelPlaces(levels)[i] == LevelPlace(levels, i);
  }

  /** The entries of `dir` that count a move rather than a total, in order. */
  function Moves(es: seq<Entry>, dir: Direction): (r: seq<Entry>)
    ensures |r| <= |es|
    decreases |es|
  {
    if |es| == 0 then []
    else
      var e := es[|es| - 1];
      Moves(es[..|es| - 1], dir) + if e.dir == dir && e.value != Total then [e] else []
  }

  /** The moves of `dir` are entries of `dir`, taken from `es`, that do not count a total. */
  lemma {:induction false} MovesOnly(es: seq<Entry>, dir: Direction)
    ensures forall i :: 0 <= i < |Moves(es, dir)| ==>
      Moves(es, dir)[i] in es && Moves(es, dir)[i].dir == dir && Moves(es, dir)[i].value != Total
    decreases |es|
  {
    if |es| > 0 {
      var init := es[..|es| - 1];
      MovesOnly(init, dir);
      assert forall e :: e in init ==> e in es;
    }
  }

  /** How many entries of `dir` count a total. */
  function TotalEntries(es: seq<Entry>, dir: Direction): (n: nat)
    ensures n <= |es|
    decreases |es|
  {
    if |es| == 0 then 0
    else
      var e := es[|es| - 1];
      TotalEntries(es[..|es| - 1], dir) + if e.dir == dir && e.value == Total then 1 else 0
  }

  lemma {:induction false} MovesAppend(a: seq<Entry>, b: seq<Entry>, dir: Direction)
    ensures Moves(a + b, dir) == Moves(a, dir) + Moves(b, dir)
    ensures TotalEntries(a + b, dir) == TotalEntries(a, dir) + TotalEntries(b, dir)
    decreases |b|
  {
    if |b| == 0 {
      assert a + b == a;
      assert Moves(a, dir) + Moves(b, dir) == Moves(a, dir);
    } else {
      var init := b[..|b| - 1];
      var e := b[|b| - 1];
      assert (a + b)[..|a + b| - 1] == a + init;
      assert (a + b)[|a + b| - 1] == e;
      MovesAppend(a, init, dir);
      var last := if e.dir == dir && e.value != Total then [e] else [];
      assert Moves(b, dir) == Moves(init, dir) + last;
      SeqAssoc(Moves(a, dir), Moves(init, dir), last);
    }
  }

  lemma SeqAssoc<T>(x: seq<T>, y: seq<T>, z: seq<T>)
    ensures x + y + z == x + (y + z)
  {
  }

  /** Moves and totals of a single entry. */
  lemma MovesOne(e: Entry, dir: Direction)
    ensures Moves([e], dir) == if e.dir == dir && e.value != Total then [e] else []
    ensures TotalEntries([e], dir) == if e.dir == dir && e.value == Total then 1 else 0
  {
    assert [e][..0] == [];
  }

  lemma MovesTwo(e1: Entry, e2: Entry, dir: Direction)
    ensures Moves([e1, e2], dir) == Moves([e1], dir) + Moves([e2], dir)
    ensures TotalEntries([e1, e2], dir) == TotalEntries([e1], dir) + TotalEntries([e2], dir)
  {
    MovesAppend([e1], [e2], dir);
    assert [e1] + [e2] == [e1, e2];
  }

  /** Every move of `dir` counts an entry of `dir` exactly as often as the entries do. */
  lemma {:induction false} MovesCount(es: seq<Entry>, dir: Direction, key: Location, value: string)
    requires value != Total
    ensures multiset(Moves(es, dir))[Entry(dir, key, value)] == multiset(es)[Entry(dir, key, value)]
    decreases |es|
  {
    if |es| > 0 {
      MovesCount(es[..|es| - 1], dir, key, value);
      MultisetSnoc(es);
    }
  }

  /** The immigration entry that mirrors an emigration move: counted at the place reached, naming the place left. */
  function Mirror(e: Entry, ty: int): Entry {
    Entry(Immigration, Location(e.value, ty), e.key.place)
  }

  function Mirrored(es: seq<Entry>, ty: int): (r: seq<Entry>)
    ensures |r| == |es| && forall i :: 0 <= i < |es| ==> r[i] == Mirror(es[i], ty)
  {
    seq(|es|, i requires 0 <= i < |es| => Mirror(es[i], ty))
  }

  lemma MirroredAppend(a: seq<Entry>, b: seq<Entry>, ty: int)
    ensures Mirrored(a + b, ty) == Mirrored(a, ty) + Mirrored(b, ty)
  {
  }

  /**
   Among emigration moves all dated `fy`, mirroring turns each move from
   `fp` to `tp` into one move to `tp` from `fp`, as often as it occurs.
   */
  lemma {:induction false} MirroredCount(es: seq<Entry>, fy: int, ty: int, fp: string, tp: string)
    requires forall i :: 0 <= i < |es| ==> es[i].dir == Emigration && es[i].key.year == fy
    ensures multiset(Mirrored(es, ty))[Entry(Immigration, Location(tp, ty), fp)]
      == multiset(es)[Entry(Emigration, Location(fp, fy), tp)]
    decreases |es|
  {
    if |es| > 0 {
      var init := es[..|es| - 1];
      MirroredCount(init, fy, ty, fp, tp);
      MultisetSnoc(es);
      var r := Mirrored(es, ty);
      assert r[..|r| - 1] == Mirrored(init, ty);
      MultisetSnoc(r);
    }
  }

  // ---------------------------------------------------------------- what add counts

  /** Moves and totals of one pair of levels, whose places are not `TOTAL`. */
  lemma PairFacts(rule: SkipRule, from: seq<string>, fl: nat, to: seq<string>, tl: nat, fy: int, ty: int)
    requires fl < |from| && tl < |to|
    requires LevelPlace(from, fl) != Total && LevelPlace(to, tl) != Total
    ensures var es := PairEntries(rule, from, fl, to, tl, fy, ty);
      var left := Location(LevelPlace(from, fl), fy);
      var reached := Location(LevelPlace(to, tl), ty);
      && Moves(es, Emigration) == (if Skips(rule, from, fl, to, tl) then [] else [Entry(Emigration, left, reached.place)])
      && Moves(es, Immigration) == (if Skips(rule, from, fl, to, tl) then [] else [Entry(Immigration, reached, left.place)])
      && TotalEntries(es, Emigration) == 0
      && TotalEntries(es, Immigration) == if fl == 0 then 1 else 0
  {
    var left := Location(LevelPlace(from, fl), fy);
    var reached := Location(LevelPlace(to, tl), ty);
    var moves := if Skips(rule, from, fl, to, tl) then [] else [Entry(Emigration, left, reached.place), Entry(Immigration, reached, left.place)];
    var total := if fl == 0 then [Entry(Immigration, reached, Total)] else [];
    forall dir | true
      ensures Moves(total, dir) == [] && TotalEntries(total, dir) == if fl == 0 && dir == Immigration then 1 else 0
    {
      if fl == 0 {
        MovesOne(Entry(Immigration, reached, Total), dir);
      }
    }
    forall dir | true
      ensures Moves(moves, dir) == (if Skips(rule, from, fl, to, tl) then [] else if dir == Emigration then [Entry(Emigration, left, reached.place)] else [Entry(Immigration, reached, left.place)])
      ensures TotalEntries(moves, dir) == 0
    {
      if !Skips(rule, from, fl, to, tl) {
        MovesTwo(Entry(Emigration, left, reached.place), Entry(Immigration, reached, left.place), dir);
        MovesOne(Entry(Emigration, left, reached.place), dir);
        MovesOne(Entry(Immigration, reached, left.place), dir);
      }
    }
    MovesAppend(moves, total, Emigration);
    MovesAppend(moves, total, Immigration);
  }

  /** The immigration moves of `es` are its emigration moves mirrored, one for one and in order. */
  predicate Mirrors(es: seq<Entry>, ty: int) {
    Mirrored(Moves(es, Emigration), ty) == Moves(es, Immigration)
  }

  lemma MirrorsAppend(a: seq<Entry>, b: seq<Entry>, ty: int)
    requires Mirrors(a, ty) && Mirrors(b, ty)
    ensures Mirrors(a + b, ty)
  {
    MovesAppend(a, b, Emigration);
    MovesAppend(a, b, Immigration);
    MirroredAppend(Moves(a, Emigration), Moves(b, Emigration), ty);
  }

  /**
   The inner loop from level `tl` on: its immigration moves mirror its
   emigration moves one for one, it counts no emigration total, and on the
   finest level left it counts one immigration total per level reached.
   */
  lemma {:induction false} InnerFacts(rule: SkipRule, from: seq<string>, fl: nat, to: seq<string>, tl: nat, fy: int, ty: int)
    requires fl < |from| && tl <= |to|
    requires NoTotalLevel(from) && NoTotalLevel(to)
    ensures Mirrors(InnerEntries(rule, from, fl, to, tl, fy, ty), ty)
    ensures TotalEntries(InnerEntries(rule, from, fl, to, tl, fy, ty), Emigration) == 0
    ensures TotalEntries(InnerEntries(rule, from, fl, to, tl, fy, ty), Immigration) == if fl == 0 then |to| - tl else 0
    decreases |to| - tl
  {
    if tl < |to| {
      var pair := PairEntries(rule, from, fl, to, tl, fy, ty);
      var rest := InnerEntries(rule, from, fl, to, tl + 1, fy, ty);
      NoTotalAt(from, fl);
      NoTotalAt(to, tl);
      PairFacts(rule, from, fl, to, tl, fy, ty);
      assert Mirrors(pair, ty);
      InnerFacts(rule, from, fl, to, tl + 1, fy, ty);
      MirrorsAppend(pair, rest, ty);
      MovesAppend(pair, rest, Emigration);
      MovesAppend(pair, rest, Immigration);
    }
  }

  /** The emigration total closing a level left is a total, not a move. */
  lemma ClosingTotal(key: Location, ty: int)
    ensures Mirrors([Entry(Emigration, key, Total)], ty)
    ensures TotalEntries([Entry(Emigration, key, Total)], Emigration) == 1
    ensures TotalEntries([Entry(Emigration, key, Total)], Immigration) == 0
  {
    MovesOne(Entry(Emigration, key, Total), Emigration);
    MovesOne(Entry(Emigration, key, Total), Immigration);
  }

  /** The outer loop from level `fl` on: its immigration moves mirror its emigration moves one for one. */
  lemma {:induction false} OuterMirrors(rule: SkipRule, from: seq<string>, fl: nat, to: seq<string>, fy: int, ty: int)
    requires fl <= |from|
    requires NoTotalLevel(from) && NoTotalLevel(to)
    ensures Mirrors(OuterEntries(rule, from, fl, to, fy, ty), ty)
    decreases |from| - fl
  {
    if fl < |from| {
      var inner := InnerEntries(rule, from, fl, to, 0, fy, ty);
      var total := [Entry(Emigration, Location(LevelPlace(from, fl), fy), Total)];
      var rest := OuterEntries(rule, from, fl + 1, to, fy, ty);
      InnerFacts(rule, from, fl, to, 0, fy, ty);
      OuterMirrors(rule, from, fl + 1, to, fy, ty);
      ClosingTotal(total[0].key, ty);
      MirrorsAppend(inner, total, ty);
      MirrorsAppend(inner + total, rest, ty);
    }
  }

  /**
   The outer loop from level `fl` on counts one emigration total per level
   left and, when it starts at the finest level, one immigration total per
   level reached.
   */
  lemma OuterTotals(rule: SkipRule, from: seq<string>, fl: nat, to: seq<string>, fy: int, ty: int)
    requires fl <= |from|
    requires NoTotalLevel(from) && NoTotalLevel(to)
    ensures TotalEntries(OuterEntries(rule, from, fl, to, fy, ty), Emigration) == |from| - fl
    ensures TotalEntries(OuterEntries(rule, from, fl, to, fy, ty), Immigration) == if fl == 0 && |from| > 0 then |to| else 0
  {
    OuterEmigrationTotals(rule, from, fl, to, fy, ty);
    OuterImmigrationTotals(rule, from, fl, to, fy, ty);
  }

  lemma {:induction false} OuterEmigrationTotals(rule: SkipRule, from: seq<string>, fl: nat, to: seq<string>, fy: int, ty: int)
    requires fl <= |from|
    requires NoTotalLevel(from) && NoTotalLevel(to)
    ensures TotalEntries(OuterEntries(rule, from, fl, to, fy, ty), Emigration) == |from| - fl
    decreases |from| - fl
  {
    if fl < |from| {
      var inner := InnerEntries(rule, from, fl, to, 0, fy, ty);
      var total := [Entry(Emigration, Location(LevelPlace(from, fl), fy), Total)];
      var rest := OuterEntries(rule, from, fl + 1, to, fy, ty);
      assert TotalEntries(OuterEntries(rule, from, fl, to, fy, ty), Emigration)
        == TotalEntries(inner, Emigration) + TotalEntries(total, Emigration) + TotalEntries(rest, Emigration) by {
        OuterEntriesStep(rule, from, fl, to, fy, ty);
        TotalsAppend3(inner, total, rest, Emigration);
      }
      assert TotalEntries(inner, Emigration) == 0 by {
        InnerFacts(rule, from, fl, to, 0, fy, ty);
      }
      assert TotalEntries(total, Emigration) == 1 by {
        ClosingTotalCount(total[0].key);
      }
      assert TotalEntries(rest, Emigration) == |from| - fl - 1 by {
        OuterEmigrationTotals(rule, from, fl + 1, to, fy, ty);
      }
    }
  }

  lemma {:induction false} OuterImmigrationTotals(rule: SkipRule, from: seq<string>, fl: nat, to: seq<string>, fy: int, ty: int)
    requires fl <= |from|
    requires NoTotalLevel(from) && NoTotalLevel(to)
    ensures TotalEntries(OuterEntries(rule, from, fl, to, fy, ty), Immigration) == if fl == 0 && |from| > 0 then |to| else 0
    decreases |from| - fl
  {
    if fl < |from| {
      var inner := InnerEntries(rule, from, fl, to, 0, fy, ty);
      var total := [Entry(Emigration, Location(LevelPlace(from, fl), fy), Total)];
      var rest := OuterEntries(rule, from, fl + 1, to, fy, ty);
      assert TotalEntries(OuterEntries(rule, from, fl, to, fy, ty), Immigration)
        == TotalEntries(inner, Immigration) + TotalEntries(total, Immigration) + TotalEntries(rest, Immigration) by {
        OuterEntriesStep(rule, from, fl, to, fy, ty);
        TotalsAppend3(inner, total, rest, Immigration);
      }
      assert TotalEntries(inner, Immigration) == if fl == 0 then |to| else 0 by {
        InnerFacts(rule, from, fl, to, 0, fy, ty);
      }
      assert TotalEntries(total, Immigration) == 0 by {
        ClosingTotalCount(total[0].key);
      }
      assert TotalEntries(rest, Immigration) == 0 by {
        OuterImmigrationTotals(rule, from, fl + 1, to, fy, ty);
      }
    }
  }

  lemma ClosingTotalCount(key: Location)
    ensures TotalEntries([Entry(Emigration, key, Total)], Emigration) == 1
    ensures TotalEntries([Entry(Emigration, key, Total)], Immigration) == 0
  {
    assert [Entry(Emigration, key, Total)][..0] == [];
  }

  lemma TotalsAppend3(a: seq<Entry>, b: seq<Entry>, c: seq<Entry>, dir: Direction)
    ensures TotalEntries(a + b + c, dir) == TotalEntries(a, dir) + TotalEntries(b, dir) + TotalEntries(c, dir)
  {
    MovesAppend(a, b, dir);
    MovesAppend(a + b, c, dir);
  }

  /**
   Every entry is keyed by the decade of its own side (the place left for
   emigrations, the place reached for immigrations), and no move names the
   place of its own key.
   */
  predicate Sound(es: seq<Entry>, fy: int, ty: int) {
    forall i :: 0 <= i < |es| ==>
      && es[i].key.year == (if es[i].dir == Emigration then fy else ty)
      && (es[i].value != Total ==> es[i].value != es[i].key.place)
  }

  lemma SoundAppend(a: seq<Entry>, b: seq<Entry>, fy: int, ty: int)
    requires Sound(a, fy, ty) && Sound(b, fy, ty)
    ensures Sound(a + b, fy, ty)
  {
    forall i | 0 <= i < |a + b|
      ensures (a + b)[i] == if i < |a| then a[i] else b[i - |a|]
    {
    }
  }

  lemma {:induction false} InnerSound(rule: SkipRule, from: seq<string>, fl: nat, to: seq<string>, tl: nat, fy: int, ty: int)
    requires fl < |from| && tl <= |to|
    ensures Sound(InnerEntries(rule, from, fl, to, tl, fy, ty), fy, ty)
    decreases |to| - tl
  {
    if tl < |to| {
      InnerSound(rule, from, fl, to, tl + 1, fy, ty);
      SoundAppend(PairEntries(rule, from, fl, to, tl, fy, ty), InnerEntries(rule, from, fl, to, tl + 1, fy, ty), fy, ty);
    }
  }

  lemma {:induction false} OuterSound(rule: SkipRule, from: seq<string>, fl: nat, to: seq<string>, fy: int, ty: int)
    requires fl <= |from|
    ensures Sound(OuterEntries(rule, from, fl, to, fy, ty), fy, ty)
    decreases |from| - fl
  {
    if fl < |from| {
      var inner := InnerEntries(rule, from, fl, to, 0, fy, ty);
      var total := [Entry(Emigration, Location(LevelPlace(from, fl), fy), Total)];
      InnerSound(rule, from, fl, to, 0, fy, ty);
      OuterSound(rule, from, fl + 1, to, fy, ty);
      SoundAppend(inner, total, fy, ty);
      SoundAppend(inner + total, OuterEntries(rule, from, fl + 1, to, fy, ty), fy, ty);
    }
  }

  /**
   `add` keys every emigration by the decade of the place left and every
   immigration by the decade of the place reached, and never counts a move
   from a place to itself.
   */
  lemma AddSound(from: Location, to: Location)
    ensures Sound(AddEntries(AsWritten, from, to), RoundYear(from.year), RoundYear(to.year))
  {
    OuterSound(AsWritten, StdPlace(from.place), 0, StdPlace(to.place), RoundYear(from.year), RoundYear(to.year));
  }

  /** The emigration moves of sound entries are all dated by the decade left. */
  lemma SoundMoves(es: seq<Entry>, fy: int, ty: int)
    requires Sound(es, fy, ty)
    ensures forall i :: 0 <= i < |Moves(es, Emigration)| ==>
      Moves(es, Emigration)[i].dir == Emigration && Moves(es, Emigration)[i].key.year == fy
  {
    MovesOnly(es, Emigration);
  }

  /**
   `add` counts every move both ways: whatever the counters held before, the
   count of emigrations from `fp` to `tp` grows exactly as much as the count
   of immigrations to `tp` from `fp`, each keyed by its own decade. Places
   whose levels read `TOTAL` are left aside, as their moves and totals mix.
   */
  lemma AddMirror(m: Migrations, from: Location, to: Location, fp: string, tp: string)
    requires NoTotalLevel(StdPlace(from.place)) && NoTotalLevel(StdPlace(to.place))
    requires fp != Total && tp != Total
    ensures var r := Add(m, from, to);
      var left := Location(fp, RoundYear(from.year));
      var reached := Location(tp, RoundYear(to.year));
      Count(r.emigrations, left, tp) - Count(m.emigrations, left, tp)
        == Count(r.immigrations, reached, fp) - Count(m.immigrations, reached, fp)
  {
    var fy := RoundYear(from.year);
    var ty := RoundYear(to.year);
    var es := AddEntries(AsWritten, from, to);
    var left := Location(fp, fy);
    var reached := Location(tp, ty);
    ApplyCount(m, es, Emigration, left, tp);
    ApplyCount(m, es, Immigration, reached, fp);
    MovesCount(es, Emigration, left, tp);
    MovesCount(es, Immigration, reached, fp);
    OuterMirrors(AsWritten, StdPlace(from.place), 0, StdPlace(to.place), fy, ty);
    AddSound(from, to);
    SoundMoves(es, fy, ty);
    MirroredCount(Moves(es, Emigration), fy, ty, fp, tp);
  }

  /** Any two levels of the same place are skipped: one of them contains the other. */
  lemma SameLevelsSkipped(levels: seq<string>, fl: nat, tl: nat)
    requires fl < |levels| && tl < |levels|
    ensures Skipped(levels, fl, levels, tl)
  {
    if fl < tl {
      assert levels[fl..][tl - fl..] == levels[tl..];
    } else if tl < fl {
      assert levels[tl..][fl - tl..] == levels[fl..];
    }
  }

  /** Two levels of one place are skipped under either test, so their pair counts only a total. */
  lemma PairNoMoves(rule: SkipRule, levels: seq<string>, fl: nat, tl: nat, fy: int, ty: int, dir: Direction)
    requires fl < |levels| && tl < |levels|
    ensures Moves(PairEntries(rule, levels, fl, levels, tl, fy, ty), dir) == []
  {
    var pair := PairEntries(rule, levels, fl, levels, tl, fy, ty);
    SameLevelsSkipped(levels, fl, tl);
    if rule == AsWritten {
      SkippedAsWrittenWider(levels, fl, levels, tl);
    }
    assert Skips(rule, levels, fl, levels, tl);
    if fl == 0 {
      MovesOne(pair[0], dir);
      assert pair == [pair[0]];
    }
  }

  lemma {:induction false} InnerNoMoves(rule: SkipRule, levels: seq<string>, fl: nat, tl: nat, fy: int, ty: int, dir: Direction)
    requires fl < |levels| && tl <= |levels|
    ensures Moves(InnerEntries(rule, levels, fl, levels, tl, fy, ty), dir) == []
    decreases |levels| - tl
  {
    if tl < |levels| {
      var pair := PairEntries(rule, levels, fl, levels, tl, fy, ty);
      var rest := InnerEntries(rule, levels, fl, levels, tl + 1, fy, ty);
      PairNoMoves(rule, levels, fl, tl, fy, ty, dir);
      InnerNoMoves(rule, levels, fl, tl + 1, fy, ty, dir);
      MovesAppend(pair, rest, dir);
    }
  }

  lemma {:induction false} OuterNoMoves(rule: SkipRule, levels: seq<string>, fl: nat, fy: int, ty: int, dir: Direction)
    requires fl <= |levels|
    ensures Moves(OuterEntries(rule, levels, fl, levels, fy, ty), dir) == []
    decreases |levels| - fl
  {
    if fl < |levels| {
      var inner := InnerEntries(rule, levels, fl, levels, 0, fy, ty);
      var total := [Entry(Emigration, Location(LevelPlace(levels, fl), fy), Total)];
      InnerNoMoves(rule, levels, fl, 0, fy, ty, dir);
      OuterNoMoves(rule, levels, fl + 1, fy, ty, dir);
      MovesAroundTotal(inner, total[0], OuterEntries(rule, levels, fl + 1, levels, fy, ty), dir);
    }
  }

  /**
   A move that stays in the same place (as `stdPlace` reads it) changes no
   count but the totals, whatever the years.
   */
  lemma AddSamePlace(m: Migrations, from: Location, to: Location, dir: Direction, key: Location, value: string)
    requires StdPlace(from.place) == StdPlace(to.place)
    requires value != Total
    ensures Count(Table(Add(m, from, to), dir), key, value) == Count(Table(m, dir), key, value)
  {
    var es := AddEntries(AsWritten, from, to);
    OuterNoMoves(AsWritten, StdPlace(from.place), 0, RoundYear(from.year), RoundYear(to.year), dir);
    MovesCount(es, dir, key, value);
    ApplyCount(m, es, dir, key, value);
  }

  // ---------------------------------------------------------------- which moves add counts

  /** The emigration move counted for level `i` of the place left and level `j` of the place reached. */
  function MoveOf(from: seq<string>, i: nat, to: seq<string>, j: nat, fy: int): Entry
    requires i < |from| && j < |to|
  {
    Entry(Emigration, Location(LevelPlace(from, i), fy), LevelPlace(to, j))
  }

  /** Level `fl` of the place left and some level from `tl` on of the place reached count `e`. */
  predicate InnerCounts(rule: SkipRule, from: seq<string>, fl: nat, to: seq<string>, tl: nat, fy: int, e: Entry)
    requires fl < |from|
  {
    exists j :: tl <= j < |to| && !Skips(rule, from, fl, to, j) && MoveOf(from, fl, to, j, fy) == e
  }

  /** Some level from `fl` on of the place left and some level of the place reached count `e`. */
  predicate OuterCounts(rule: SkipRule, from: seq<string>, fl: nat, to: seq<string>, fy: int, e: Entry) {
    exists i, j :: fl <= i < |from| && 0 <= j < |to| && !Skips(rule, from, i, to, j) && MoveOf(from, i, to, j, fy) == e
  }

  /** A total between two runs of entries adds no move. */
  lemma MovesAroundTotal(a: seq<Entry>, t: Entry, b: seq<Entry>, dir: Direction)
    requires t.value == Total
    ensures Moves(a + [t] + b, dir) == Moves(a, dir) + Moves(b, dir)
  {
    MovesOne(t, dir);
    MovesAppend(a, [t], dir);
    MovesAppend(a + [t], b, dir);
  }

  /** A move counted from level `tl` on is counted at level `tl` or from level `tl + 1` on. */
  lemma InnerCountsStep(rule: SkipRule, from: seq<string>, fl: nat, to: seq<string>, tl: nat, fy: int, e: Entry)
    requires fl < |from| && tl < |to|
    ensures InnerCounts(rule, from, fl, to, tl, fy, e)
      <==> (!Skips(rule, from, fl, to, tl) && MoveOf(from, fl, to, tl, fy) == e) || InnerCounts(rule, from, fl, to, tl + 1, fy, e)
  {
    if InnerCounts(rule, from, fl, to, tl, fy, e) {
      var j :| tl <= j < |to| && !Skips(rule, from, fl, to, j) && MoveOf(from, fl, to, j, fy) == e;
      if j > tl {
        assert InnerCounts(rule, from, fl, to, tl + 1, fy, e);
      }
    }
  }

  /** One step of the outer loop: the pairs of level `fl`, its emigration total, then the levels after it. */
  lemma OuterEntriesStep(rule: SkipRule, from: seq<string>, fl: nat, to: seq<string>, fy: int, ty: int)
    requires fl < |from|
    ensures OuterEntries(rule, from, fl, to, fy, ty)
      == InnerEntries(rule, from, fl, to, 0, fy, ty) + [Entry(Emigration, Location(LevelPlace(from, fl), fy), Total)]
         + OuterEntries(rule, from, fl + 1, to, fy, ty)
  {
  }

  /** A move counted from level `fl` on is counted at level `fl` or from level `fl + 1` on. */
  lemma OuterCountsStep(rule: SkipRule, from: seq<string>, fl: nat, to: seq<string>, fy: int, e: Entry)
    requires fl < |from|
    ensures OuterCounts(rule, from, fl, to, fy, e)
      <==> InnerCounts(rule, from, fl, to, 0, fy, e) || OuterCounts(rule, from, fl + 1, to, fy, e)
  {
    if OuterCounts(rule, from, fl, to, fy, e) {
      var i, j :| fl <= i < |from| && 0 <= j < |to| && !Skips(rule, from, i, to, j) && MoveOf(from, i, to, j, fy) == e;
      if i == fl {
        assert InnerCounts(rule, from, fl, to, 0, fy, e);
      } else {
        assert OuterCounts(rule, from, fl + 1, to, fy, e);
      }
    }
    if InnerCounts(rule, from, fl, to, 0, fy, e) {
      var j :| 0 <= j < |to| && !Skips(rule, from, fl, to, j) && MoveOf(from, fl, to, j, fy) == e;
      assert OuterCounts(rule, from, fl, to, fy, e);
    }
  }

  /** Level `fp` of the place left and level `tp` of the place reached form a pair that `rule` does not skip. */
  predicate CountsMove(rule: SkipRule, from: seq<string>, to: seq<string>, fp: string, tp: string) {
    exists i, j :: 0 <= i < |from| && 0 <= j < |to| && !Skips(rule, from, i, to, j) && LevelPlace(from, i) == fp && LevelPlace(to, j) == tp
  }

  /** The move from `fp` to `tp` is counted at some pair of levels exactly when the two are such a pair. */
  lemma OuterCountsMove(rule: SkipRule, from: seq<string>, to: seq<string>, fy: int, fp: string, tp: string)
    ensures OuterCounts(rule, from, 0, to, fy, Entry(Emigration, Location(fp, fy), tp)) <==> CountsMove(rule, from, to, fp, tp)
  {
    var e := Entry(Emigration, Location(fp, fy), tp);
    if OuterCounts(rule, from, 0, to, fy, e) {
      var i, j :| 0 <= i < |from| && 0 <= j < |to| && !Skips(rule, from, i, to, j) && MoveOf(from, i, to, j, fy) == e;
      assert CountsMove(rule, from, to, fp, tp);
    }
    if CountsMove(rule, from, to, fp, tp) {
      var i, j :| 0 <= i < |from| && 0 <= j < |to| && !Skips(rule, from, i, to, j)
        && LevelPlace(from, i) == fp && LevelPlace(to, j) == tp;
      assert MoveOf(from, i, to, j, fy) == e;
    }
  }

  /** Each level's place is its own name, a comma and a space, then the next level's place. */
  lemma LevelPlaceShorter(levels: seq<string>, i: nat)
    requires i + 1 < |levels|
    ensures |LevelPlace(levels, i + 1)| + 2 <= |LevelPlace(levels, i)|
  {
    assert levels[i..] == [levels[i]] + levels[i + 1..];
    JoinCons(levels[i], levels[i + 1..], ", ");
  }

  /** A finer level's place is strictly longer than every coarser level's place. */
  lemma {:induction false} LevelPlaceLonger(levels: seq<string>, i: nat, j: nat)
    requires i < j < |levels|
    ensures |LevelPlace(levels, j)| < |LevelPlace(levels, i)|
    decreases j - i
  {
    LevelPlaceShorter(levels, i);
    if i + 1 < j {
      LevelPlaceLonger(levels, i + 1, j);
    }
  }

  /** Different levels of a place have different places, so a place names one level. */
  lemma LevelPlaceInjective(levels: seq<string>, i: nat, j: nat)
    requires i < |levels| && j < |levels|
    requires LevelPlace(levels, i) == LevelPlace(levels, j)
    ensures i == j
  {
    if i < j {
      LevelPlaceLonger(levels, i, j);
    } else if j < i {
      LevelPlaceLonger(levels, j, i);
    }
  }

  /** One pair of levels counts an emigration move once when it is not skipped, and otherwise not at all. */
  lemma PairMultiplicity(rule: SkipRule, from: seq<string>, fl: nat, to: seq<string>, tl: nat, fy: int, ty: int, e: Entry)
    requires fl < |from| && tl < |to|
    requires e.dir == Emigration && e.value != Total
    ensures multiset(PairEntries(rule, from, fl, to, tl, fy, ty))[e]
      == if !Skips(rule, from, fl, to, tl) && MoveOf(from, fl, to, tl, fy) == e then 1 else 0
  {
  }

  /** The inner loop counts an emigration move once when some level from `tl` on counts it, and otherwise not at all. */
  lemma {:induction false} InnerMultiplicity(rule: SkipRule, from: seq<string>, fl: nat, to: seq<string>, tl: nat, fy: int, ty: int, e: Entry)
    requires fl < |from| && tl <= |to|
    requires e.dir == Emigration && e.value != Total
    ensures multiset(InnerEntries(rule, from, fl, to, tl, fy, ty))[e]
      == if InnerCounts(rule, from, fl, to, tl, fy, e) then 1 else 0
    decreases |to| - tl
  {
    if tl < |to| {
      PairMultiplicity(rule, from, fl, to, tl, fy, ty, e);
      InnerMultiplicity(rule, from, fl, to, tl + 1, fy, ty, e);
      InnerCountsStep(rule, from, fl, to, tl, fy, e);
      if MoveOf(from, fl, to, tl, fy) == e && InnerCounts(rule, from, fl, to, tl + 1, fy, e) {
        var j :| tl + 1 <= j < |to| && !Skips(rule, from, fl, to, j) && MoveOf(from, fl, to, j, fy) == e;
        LevelPlaceInjective(to, tl, j);
        assert false;
      }
    }
  }

  /** One step of the outer loop adds the inner loop's count of an emigration move; its total adds none. */
  lemma OuterMultiplicityStep(rule: SkipRule, from: seq<string>, fl: nat, to: seq<string>, fy: int, ty: int, e: Entry)
    requires fl < |from|
    requires e.value != Total
    ensures multiset(OuterEntries(rule, from, fl, to, fy, ty))[e]
      == multiset(InnerEntries(rule, from, fl, to, 0, fy, ty))[e] + multiset(OuterEntries(rule, from, fl + 1, to, fy, ty))[e]
  {
    var total := [Entry(Emigration, Location(LevelPlace(from, fl), fy), Total)];
    OuterEntriesStep(rule, from, fl, to, fy, ty);
    assert multiset(total)[e] == 0;
  }

  /** A move counted at level `fl` of the place left is not counted again at a coarser level. */
  lemma OuterCountsOnce(rule: SkipRule, from: seq<string>, fl: nat, to: seq<string>, fy: int, e: Entry)
    requires fl < |from|
    requires InnerCounts(rule, from, fl, to, 0, fy, e)
    ensures !OuterCounts(rule, from, fl + 1, to, fy, e)
  {
    var j :| 0 <= j < |to| && !Skips(rule, from, fl, to, j) && MoveOf(from, fl, to, j, fy) == e;
    if OuterCounts(rule, from, fl + 1, to, fy, e) {
      var i, j' :| fl + 1 <= i < |from| && 0 <= j' < |to| && !Skips(rule, from, i, to, j') && MoveOf(from, i, to, j', fy) == e;
      LevelPlaceInjective(from, fl, i);
      assert false;
    }
  }

  /** The outer loop counts an emigration move once when some pair of levels from `fl` on counts it, and otherwise not at all. */
  lemma {:induction false} OuterMultiplicity(rule: SkipRule, from: seq<string>, fl: nat, to: seq<string>, fy: int, ty: int, e: Entry)
    requires fl <= |from|
    requires e.dir == Emigration && e.value != Total
    ensures multiset(OuterEntries(rule, from, fl, to, fy, ty))[e]
      == if OuterCounts(rule, from, fl, to, fy, e) then 1 else 0
    decreases |from| - fl
  {
    if fl < |from| {
      OuterMultiplicityStep(rule, from, fl, to, fy, ty, e);
      InnerMultiplicity(rule, from, fl, to, 0, fy, ty, e);
      OuterMultiplicity(rule, from, fl + 1, to, fy, ty, e);
      OuterCountsStep(rule, from, fl, to, fy, e);
      if InnerCounts(rule, from, fl, to, 0, fy, e) {
        OuterCountsOnce(rule, from, fl, to, fy, e);
      }
    }
  }

  /**
   Counting the moves of `add` under either skip test: a place names one
   level, so at most one pair of levels counts a given move, and the count
   rises by one or not at all.
   */
  lemma AddByCountsMove(rule: SkipRule, m: Migrations, from: Location, to: Location, fp: string, tp: string)
    requires tp != Total
    ensures var left := Location(fp, RoundYear(from.year));
      Count(Apply(m, AddEntries(rule, from, to)).emigrations, left, tp)
      == Count(m.emigrations, left, tp) + if CountsMove(rule, StdPlace(from.place), StdPlace(to.place), fp, tp) then 1 else 0
  {
    var levelsLeft := StdPlace(from.place);
    var levelsReached := StdPlace(to.place);
    var fy := RoundYear(from.year);
    var left := Location(fp, fy);
    var e := Entry(Emigration, left, tp);
    var es := AddEntries(rule, from, to);
    ApplyCount(m, es, Emigration, left, tp);
    OuterMultiplicity(rule, levelsLeft, 0, levelsReached, fy, RoundYear(to.year), e);
    OuterCountsMove(rule, levelsLeft, levelsReached, fy, fp, tp);
  }

  /**
   `add(from, to)` raises the emigrations from `fp` to `tp` by one exactly
   when `fp` is a level of the place left and `tp` a level of the place
   reached, the two texts differ, and the text of the finer of the two does
   not end with the text of the coarser; otherwise the count stays.
   */
  lemma AddCountsMove(m: Migrations, from: Location, to: Location, fp: string, tp: string)
    requires tp != Total
    ensures var left := Location(fp, RoundYear(from.year));
      Count(Add(m, from, to).emigrations, left, tp)
      == Count(m.emigrations, left, tp) + if CountsMove(AsWritten, StdPlace(from.place), StdPlace(to.place), fp, tp) then 1 else 0
  {
    AddByCountsMove(AsWritten, m, from, to, fp, tp);
  }

  /**
   The intended `add` raises the emigrations from `fp` to `tp` by one exactly
   when the two are levels of the places left and reached of which neither
   contains the other; otherwise the count stays.
   */
  lemma AddIntendedCountsMove(m: Migrations, from: Location, to: Location, fp: string, tp: string)
    requires tp != Total
    ensures var left := Location(fp, RoundYear(from.year));
      Count(AddIntended(m, from, to).emigrations, left, tp)
      == Count(m.emigrations, left, tp) + if CountsMove(Intended, StdPlace(from.place), StdPlace(to.place), fp, tp) then 1 else 0
  {
    AddByCountsMove(Intended, m, from, to, fp, tp);
  }

  /** Every move `add` counts as written is counted by the intended `add` too. */
  lemma AddIntendedCountsMore(m: Migrations, from: Location, to: Location, fp: string, tp: string)
    requires tp != Total
    ensures var left := Location(fp, RoundYear(from.year));
      Count(Add(m, from, to).emigrations, left, tp) > Count(m.emigrations, left, tp)
      ==> Count(AddIntended(m, from, to).emigrations, left, tp) > Count(m.emigrations, left, tp)
  {
    var levelsLeft := StdPlace(from.place);
    var levelsReached := StdPlace(to.place);
    AddByCountsMove(AsWritten, m, from, to, fp, tp);
    AddByCountsMove(Intended, m, from, to, fp, tp);
    if CountsMove(AsWritten, levelsLeft, levelsReached, fp, tp) {
      var i, j :| 0 <= i < |levelsLeft| && 0 <= j < |levelsReached| && !Skips(AsWritten, levelsLeft, i, levelsReached, j)
        && LevelPlace(levelsLeft, i) == fp && LevelPlace(levelsReached, j) == tp;
      if Skipped(levelsLeft, i, levelsReached, j) {
        SkippedAsWrittenWider(levelsLeft, i, levelsReached, j);
      }
      assert !Skips(Intended, levelsLeft, i, levelsReached, j);
    }
  }

  /**
   A move from a county of "West Virginia" to "Virginia", at the county
   level of the place left: `add` as written does not count it, the
   intended `add` does.
   */
  lemma SuffixSkipMoves(x: string, y: string, z: string)
    requires y != ""
    ensures !CountsMove(AsWritten, [x, y + z], [z], x + ", " + y + z, z)
    ensures CountsMove(Intended, [x, y + z], [z], x + ", " + y + z, z)
  {
    var from := [x, y + z];
    var fp := x + ", " + y + z;
    SuffixSkipExample(x, y, z);
    assert from[0..] == from;
    JoinCons(x, [y + z], ", ");
    assert LevelPlace(from, 0) == fp;
    assert [z][0..] == [z];
    assert LevelPlace([z], 0) == z;
    assert from[1..] == [y + z];
    assert |LevelPlace(from, 1)| < |fp|;
    assert !Skips(Intended, from, 0, [z], 0);
  }

  // ---------------------------------------------------------------- totals

  /** The `TOTAL` count of every location whose row has one. */
  function TotalsOf(m: MigrationMap): (t: map<Location, int>)
    ensures forall k :: Get(t, k) == Count(m, k, Total)
  {
    map k | k in m && Total in m[k] :: m[k][Total]
  }

  /** Adding to a table adds to the sum of its totals exactly when the value added to is `TOTAL`. */
  lemma TotalsMapAdd(m: MigrationMap, key: Location, value: string, count: int)
    ensures Sum(TotalsOf(MapAdd(m, key, value, count))) == Sum(TotalsOf(m)) + if value == Total then count else 0
  {
    if value == Total {
      TotalsOfTotal(m, key, count);
      SumInc(TotalsOf(m), key, count);
    } else {
      TotalsOfOther(m, key, value, count);
    }
  }

  lemma TotalsOfTotal(m: MigrationMap, key: Location, count: int)
    ensures TotalsOf(MapAdd(m, key, Total, count)) == Inc(TotalsOf(m), key, count)
  {
    var a := TotalsOf(MapAdd(m, key, Total, count));
    var b := Inc(TotalsOf(m), key, count);
    assert a.Keys == b.Keys;
    forall k | k in a
      ensures a[k] == b[k]
    {
      assert a[k] == Get(a, k);
    }
  }

  lemma TotalsOfOther(m: MigrationMap, key: Location, value: string, count: int)
    requires value != Total
    ensures TotalsOf(MapAdd(m, key, value, count)) == TotalsOf(m)
  {
    var a := TotalsOf(MapAdd(m, key, value, count));
    var b := TotalsOf(m);
    assert a.Keys == b.Keys;
    forall k | k in a
      ensures a[k] == b[k]
    {
      assert a[k] == Get(a, k);
    }
  }

  /** Counting entries adds one to the sum of a table's totals for each of its total entries. */
  lemma {:induction false} ApplyTotals(m: Migrations, es: seq<Entry>, dir: Direction)
    ensures Sum(TotalsOf(Table(Apply(m, es), dir))) == Sum(TotalsOf(Table(m, dir))) + TotalEntries(es, dir)
    decreases |es|
  {
    if |es| > 0 {
      var init := es[..|es| - 1];
      var e := es[|es| - 1];
      ApplyTotals(m, init, dir);
      var before := Apply(m, init);
      if e.dir == dir {
        TotalsMapAdd(Table(before, dir), e.key, e.value, 1);
      }
    }
  }

  /**
   The totals `countTotals` reports grow, with each `add`, by one emigration
   per level of the place left, and by one immigration per level of the place
   reached when the place left has any level at all.
   */
  lemma AddTotals(m: Migrations, from: Location, to: Location)
    requires NoTotalLevel(StdPlace(from.place)) && NoTotalLevel(StdPlace(to.place))
    ensures Sum(TotalsOf(Add(m, from, to).emigrations)) == Sum(TotalsOf(m.emigrations)) + |StdPlace(from.place)|
    ensures Sum(TotalsOf(Add(m, from, to).immigrations))
      == Sum(TotalsOf(m.immigrations)) + if from.place == "" then 0 else |StdPlace(to.place)|
  {
    var es := AddEntries(AsWritten, from, to);
    OuterTotals(AsWritten, StdPlace(from.place), 0, StdPlace(to.place), RoundYear(from.year), RoundYear(to.year));
    ApplyTotals(m, es, Emigration);
    ApplyTotals(m, es, Immigration);
  }

  // ---------------------------------------------------------------- totals per row

  /** `p` is the place of level `fl` or of a coarser level. */
  predicate LevelFrom(levels: seq<string>, fl: nat, p: string)
    decreases |levels| - fl
  {
    fl < |levels| && (LevelPlace(levels, fl) == p || LevelFrom(levels, fl + 1, p))
  }

  /** A place from level `fl` on is the place of some level `i >= fl`. */
  lemma {:induction false} LevelFromIndex(levels: seq<string>, fl: nat, p: string) returns (i: nat)
    requires LevelFrom(levels, fl, p)
    ensures fl <= i < |levels| && LevelPlace(levels, i) == p
    decreases |levels| - fl
  {
    if LevelPlace(levels, fl) == p {
      i := fl;
    } else {
      i := LevelFromIndex(levels, fl + 1, p);
    }
  }

  /** The place of level `i` is a place from every level `fl <= i` on. */
  lemma {:induction false} LevelFromOf(levels: seq<string>, fl: nat, i: nat)
    requires fl <= i < |levels|
    ensures LevelFrom(levels, fl, LevelPlace(levels, i))
    decreases i - fl
  {
    if fl < i {
      LevelFromOf(levels, fl + 1, i);
    }
  }

  /** The place of level `fl` is not also the place of a coarser level. */
  lemma LevelFromOnce(levels: seq<string>, fl: nat)
    requires fl < |levels|
    ensures !LevelFrom(levels, fl + 1, LevelPlace(levels, fl))
  {
    if LevelFrom(levels, fl + 1, LevelPlace(levels, fl)) {
      var i := LevelFromIndex(levels, fl + 1, LevelPlace(levels, fl));
      LevelPlaceInjective(levels, fl, i);
    }
  }

  /** From the finest level on, the places are exactly the level places. */
  lemma LevelFromPlaces(levels: seq<string>, p: string)
    ensures LevelFrom(levels, 0, p) <==> p in LevelPlaces(levels)
  {
    if p in LevelPlaces(levels) {
      var i :| 0 <= i < |levels| && LevelPlaces(levels)[i] == p;
      LevelFromOf(levels, 0, i);
    }
    if LevelFrom(levels, 0, p) {
      var i := LevelFromIndex(levels, 0, p);
      assert LevelPlaces(levels)[i] == p;
    }
  }

  /** One pair of levels counts no emigration total, and the reached total once, at the finest level left. */
  lemma PairTotalMultiplicity(rule: SkipRule, from: seq<string>, fl: nat, to: seq<string>, tl: nat, fy: int, ty: int, k: Location)
    requires fl < |from| && tl < |to|
    requires LevelPlace(from, fl) != Total && LevelPlace(to, tl) != Total
    ensures multiset(PairEntries(rule, from, fl, to, tl, fy, ty))[Entry(Emigration, k, Total)] == 0
    ensures multiset(PairEntries(rule, from, fl, to, tl, fy, ty))[Entry(Immigration, k, Total)]
      == if fl == 0 && k == Location(LevelPlace(to, tl), ty) then 1 else 0
  {
  }

  /** The inner loop counts no emigration total, and each reached level's total once when it runs at the finest level left. */
  lemma {:induction false} InnerTotalMultiplicity(rule: SkipRule, from: seq<string>, fl: nat, to: seq<string>, tl: nat, fy: int, ty: int, k: Location)
    requires fl < |from| && tl <= |to|
    requires LevelPlace(from, fl) != Total && NoTotalLevel(to)
    ensures multiset(InnerEntries(rule, from, fl, to, tl, fy, ty))[Entry(Emigration, k, Total)] == 0
    ensures multiset(InnerEntries(rule, from, fl, to, tl, fy, ty))[Entry(Immigration, k, Total)]
      == if fl == 0 && k.year == ty && LevelFrom(to, tl, k.place) then 1 else 0
    decreases |to| - tl
  {
    if tl < |to| {
      NoTotalAt(to, tl);
      PairTotalMultiplicity(rule, from, fl, to, tl, fy, ty, k);
      InnerTotalMultiplicity(rule, from, fl, to, tl + 1, fy, ty, k);
      LevelFromOnce(to, tl);
    }
  }

  /** One step of the outer loop counts an entry as often as its inner loop, its closing total and the rest together. */
  lemma OuterEntriesMultiplicity(rule: SkipRule, from: seq<string>, fl: nat, to: seq<string>, fy: int, ty: int, e: Entry)
    requires fl < |from|
    ensures multiset(OuterEntries(rule, from, fl, to, fy, ty))[e]
      == multiset(InnerEntries(rule, from, fl, to, 0, fy, ty))[e]
         + (if e == Entry(Emigration, Location(LevelPlace(from, fl), fy), Total) then 1 else 0)
         + multiset(OuterEntries(rule, from, fl + 1, to, fy, ty))[e]
  {
    OuterEntriesStep(rule, from, fl, to, fy, ty);
  }

  /** One step of the outer loop counts the emigration total of level `fl` once and adds the coarser levels' totals. */
  lemma OuterEmigrationTotalStep(rule: SkipRule, from: seq<string>, fl: nat, to: seq<string>, fy: int, ty: int, k: Location)
    requires fl < |from|
    requires !LevelFrom(from, 0, Total) && !LevelFrom(to, 0, Total)
    requires multiset(OuterEntries(rule, from, fl + 1, to, fy, ty))[Entry(Emigration, k, Total)]
      == if k.year == fy && LevelFrom(from, fl + 1, k.place) then 1 else 0
    ensures multiset(OuterEntries(rule, from, fl, to, fy, ty))[Entry(Emigration, k, Total)]
      == if k.year == fy && LevelFrom(from, fl, k.place) then 1 else 0
  {
    LevelFromPlaces(from, Total);
    LevelFromPlaces(to, Total);
    OuterEntriesMultiplicity(rule, from, fl, to, fy, ty, Entry(Emigration, k, Total));
    NoTotalAt(from, fl);
    InnerTotalMultiplicity(rule, from, fl, to, 0, fy, ty, k);
    LevelFromOnce(from, fl);
  }

  /** The outer loop from level `fl` on counts the emigration total of each of those levels once, at the year left. */
  lemma {:induction false} OuterEmigrationTotalAt(rule: SkipRule, from: seq<string>, fl: nat, to: seq<string>, fy: int, ty: int, k: Location)
    requires fl <= |from|
    requires !LevelFrom(from, 0, Total) && !LevelFrom(to, 0, Total)
    ensures multiset(OuterEntries(rule, from, fl, to, fy, ty))[Entry(Emigration, k, Total)]
      == if k.year == fy && LevelFrom(from, fl, k.place) then 1 else 0
    decreases |from| - fl
  {
    if fl < |from| {
      OuterEmigrationTotalAt(rule, from, fl + 1, to, fy, ty, k);
      OuterEmigrationTotalStep(rule, from, fl, to, fy, ty, k);
    } else {
      OuterEntriesEnd(rule, from, fl, to, fy, ty);
    }
  }

  /** Past the coarsest level the outer loop adds nothing. */
  lemma OuterEntriesEnd(rule: SkipRule, from: seq<string>, fl: nat, to: seq<string>, fy: int, ty: int)
    requires fl == |from|
    ensures OuterEntries(rule, from, fl, to, fy, ty) == []
  {
  }

  /** Past the finest level left, the outer loop counts no immigration total. */
  lemma OuterImmigrationStep(rule: SkipRule, from: seq<string>, fl: nat, to: seq<string>, fy: int, ty: int, e: Entry)
    requires fl < |from| && e.dir == Immigration
    ensures multiset(OuterEntries(rule, from, fl, to, fy, ty))[e]
      == multiset(InnerEntries(rule, from, fl, to, 0, fy, ty))[e] + multiset(OuterEntries(rule, from, fl + 1, to, fy, ty))[e]
  {
    OuterEntriesMultiplicity(rule, from, fl, to, fy, ty, e);
  }

  /** One step of the inner loop counts an entry as often as its pair and the rest together. */
  lemma InnerEntriesMultiplicity(rule: SkipRule, from: seq<string>, fl: nat, to: seq<string>, tl: nat, fy: int, ty: int, e: Entry)
    requires fl < |from| && tl < |to|
    ensures multiset(InnerEntries(rule, from, fl, to, tl, fy, ty))[e]
      == multiset(PairEntries(rule, from, fl, to, tl, fy, ty))[e] + multiset(InnerEntries(rule, from, fl, to, tl + 1, fy, ty))[e]
  {
  }

  /** Past the finest level left, a pair counts no immigration whose value is not the place left. */
  lemma PairNoImmigration(rule: SkipRule, from: seq<string>, fl: nat, to: seq<string>, tl: nat, fy: int, ty: int, e: Entry)
    requires 1 <= fl < |from| && tl < |to|
    requires e.dir == Immigration && LevelPlace(from, fl) != e.value
    ensures multiset(PairEntries(rule, from, fl, to, tl, fy, ty))[e] == 0
  {
  }

  /** Past the finest level left, the inner loop counts no immigration whose value is not the place left. */
  lemma {:induction false} InnerNoImmigrationTotal(rule: SkipRule, from: seq<string>, fl: nat, to: seq<string>, tl: nat, fy: int, ty: int, e: Entry)
    requires 1 <= fl < |from| && tl <= |to|
    requires e.dir == Immigration && LevelPlace(from, fl) != e.value
    ensures multiset(InnerEntries(rule, from, fl, to, tl, fy, ty))[e] == 0
    decreases |to| - tl
  {
    if tl < |to| {
      InnerEntriesMultiplicity(rule, from, fl, to, tl, fy, ty, e);
      PairNoImmigration(rule, from, fl, to, tl, fy, ty, e);
      InnerNoImmigrationTotal(rule, from, fl, to, tl + 1, fy, ty, e);
    }
  }

  /** One step past the finest level left adds no immigration whose value is no place left. */
  lemma OuterNoImmigrationStep(rule: SkipRule, from: seq<string>, fl: nat, to: seq<string>, fy: int, ty: int, e: Entry)
    requires 1 <= fl < |from|
    requires e.dir == Immigration
    requires !LevelFrom(from, fl, e.value)
    requires multiset(OuterEntries(rule, from, fl + 1, to, fy, ty))[e] == 0
    ensures multiset(OuterEntries(rule, from, fl, to, fy, ty))[e] == 0
  {
    OuterImmigrationStep(rule, from, fl, to, fy, ty, e);
    InnerNoImmigrationTotal(rule, from, fl, to, 0, fy, ty, e);
  }

  /** Past the finest level left, the outer loop counts no immigration whose value is no place left. */
  lemma {:induction false} OuterNoImmigrationTotal(rule: SkipRule, from: seq<string>, fl: nat, to: seq<string>, fy: int, ty: int, e: Entry)
    requires 1 <= fl <= |from|
    requires e.dir == Immigration
    requires !LevelFrom(from, fl, e.value)
    ensures multiset(OuterEntries(rule, from, fl, to, fy, ty))[e] == 0
    decreases |from| - fl
  {
    if fl < |from| {
      OuterNoImmigrationTotal(rule, from, fl + 1, to, fy, ty, e);
      OuterNoImmigrationStep(rule, from, fl, to, fy, ty, e);
    } else {
      OuterEntriesEnd(rule, from, fl, to, fy, ty);
    }
  }

  /** The outer loop counts the immigration total of each level reached once, at the year reached, when there is a level left. */
  lemma OuterImmigrationTotalAt(rule: SkipRule, from: seq<string>, to: seq<string>, fy: int, ty: int, k: Location)
    requires NoTotalLevel(from) && NoTotalLevel(to)
    ensures multiset(OuterEntries(rule, from, 0, to, fy, ty))[Entry(Immigration, k, Total)]
      == if |from| > 0 && k.year == ty && LevelFrom(to, 0, k.place) then 1 else 0
  {
    if |from| > 0 {
      NoTotalAt(from, 0);
      OuterEntriesMultiplicity(rule, from, 0, to, fy, ty, Entry(Immigration, k, Total));
      InnerTotalMultiplicity(rule, from, 0, to, 0, fy, ty, k);
      LevelFromPlaces(from, Total);
      OuterNoImmigrationTotal(rule, from, 1, to, fy, ty, Entry(Immigration, k, Total));
    }
  }

  /**
   `add(from, to)` raises the `TOTAL` emigration count of each level of the
   place left by one, at the decade left, and the `TOTAL` immigration count
   of each level of the place reached by one, at the decade reached, when
   the place left is not empty; every other `TOTAL` count stays.
   */
  lemma AddTotalsAt(m: Migrations, from: Location, to: Location, k: Location)
    requires NoTotalLevel(StdPlace(from.place)) && NoTotalLevel(StdPlace(to.place))
    ensures Count(Add(m, from, to).emigrations, k, Total)
      == Count(m.emigrations, k, Total)
         + if k.year == RoundYear(from.year) && k.place in LevelPlaces(StdPlace(from.place)) then 1 else 0
    ensures Count(Add(m, from, to).immigrations, k, Total)
      == Count(m.immigrations, k, Total)
         + if from.place != "" && k.year == RoundYear(to.year) && k.place in LevelPlaces(StdPlace(to.place)) then 1 else 0
  {
    var levelsLeft := StdPlace(from.place);
    var levelsReached := StdPlace(to.place);
    var es := AddEntries(AsWritten, from, to);
    ApplyCount(m, es, Emigration, k, Total);
    ApplyCount(m, es, Immigration, k, Total);
    LevelFromPlaces(levelsLeft, Total);
    LevelFromPlaces(levelsReached, Total);
    OuterEmigrationTotalAt(AsWritten, levelsLeft, 0, levelsReached, RoundYear(from.year), RoundYear(to.year), k);
    OuterImmigrationTotalAt(AsWritten, levelsLeft, levelsReached, RoundYear(from.year), RoundYear(to.year), k);
    LevelFromPlaces(levelsLeft, k.place);
    LevelFromPlaces(levelsReached, k.place);
  }

  /** `countTotals`: the sum of the `TOTAL` counts of all rows. */
  method CountTotals(m: MigrationMap) returns (total: int)
    ensures total == Sum(TotalsOf(m))
  {
    total := 0;
    var rest := m.Keys;
    assert Restrict(m, rest) == m;
    while rest != {}
      invariant rest <= m.Keys
      invariant total + Sum(TotalsOf(Restrict(m, rest))) == Sum(TotalsOf(m))
      decreases |rest|
    {
      var k :| k in rest;
      TotalsRemove(m, rest, k);
      total := total + Count(m, k, Total);
      rest := rest - {k};
    }
    assert Restrict(m, {}) == map[];
    assert TotalsOf(map[]) == map[];
  }

  /** The rows of `m` whose keys are in `keys`. */
  function Restrict(m: MigrationMap, keys: set<Location>): (r: MigrationMap)
    ensures forall k :: Row(r, k) == if k in keys then Row(m, k) else map[]
  {
    map k | k in m && k in keys :: m[k]
  }

  /** Leaving one row out of a restriction leaves its total out of the sum. */
  lemma TotalsRemove(m: MigrationMap, keys: set<Location>, k: Location)
    requires k in keys && keys <= m.Keys
    ensures Sum(TotalsOf(Restrict(m, keys))) == Count(m, k, Total) + Sum(TotalsOf(Restrict(m, keys - {k})))
  {
    var t := TotalsOf(Restrict(m, keys));
    var u := TotalsOf(Restrict(m, keys - {k}));
    if Total in m[k] {
      SumRemove(t, k);
      assert t - {k} == u;
    } else {
      assert t == u;
    }
  }
}

=== FILE: normalize.dfy ===
/**
 The per-record helpers of the GEDCOM X to protocol-buffer converter: each
 turns part of a decoded XML person into the compact form of `FsData`.
 */
module Normalize {
  import opened Wrappers
  import opened Strings
  import Decimal
  import opened GedcomX
  import opened FsData

  const MaleUri := "http://gedcomx.org/Male"
  const FemaleUri := "http://gedcomx.org/Female"
  const GedcomxPrefix := "http://gedcomx.org/"
  const ParentChildUri := "http://gedcomx.org/ParentChild"
  const CoupleUri := "http://gedcomx.org/Couple"

  /** The fact type given to custom facts the table does not know. */
  const Other := "OTHER"

  // ---------------------------------------------------------------- gender

  function GetGender(p: Person): (g: Gender)
    ensures g == Male <==> p.genderType == MaleUri
    ensures g == Female <==> p.genderType == FemaleUri
    ensures g == Unknown <==> p.genderType != MaleUri && p.genderType != FemaleUri
  {
    if p.genderType == MaleUri then Male
    else if p.genderType == FemaleUri then Female
    else Unknown
  }

  // ---------------------------------------------------------- contributors

  function NameContributors(names: seq<string>): (cs: set<string>)
    ensures forall c :: c in cs <==> exists i :: 0 <= i < |names| && names[i] == c
  {
    if |names| == 0 then {} else NameContributors(names[..|names| - 1]) + {names[|names| - 1]}
  }

  function FactContributors(facts: seq<Fact>): (cs: set<string>)
    ensures forall c :: c in cs <==> exists i :: 0 <= i < |facts| && facts[i].contributor == c
  {
    if |facts| == 0 then {} else FactContributors(facts[..|facts| - 1]) + {facts[|facts| - 1].contributor}
  }

  /** `c` contributed a fact of one of the relationships. */
  ghost predicate ContributedTo(rels: seq<Relationship>, c: string) {
    exists i, j :: 0 <= i < |rels| && 0 <= j < |rels[i].facts| && rels[i].facts[j].contributor == c
  }

  function RelationshipContributors(rels: seq<Relationship>): (cs: set<string>)
    ensures forall c :: c in cs <==> ContributedTo(rels, c)
  {
    if |rels| == 0 then {}
    else
      var cs := RelationshipContributors(rels[..|rels| - 1]) + FactContributors(rels[|rels| - 1].facts);
      assert forall c :: c in cs <==> ContributedTo(rels, c) by {
        forall c
          ensures c in cs <==> ContributedTo(rels, c)
        {
          ContributedToSnoc(rels, c);
        }
      }
      cs
  }

  lemma ContributedToSnoc(rels: seq<Relationship>, c: string)
    requires |rels| > 0
    ensures ContributedTo(rels, c) <==>
      ContributedTo(rels[..|rels| - 1], c) || c in FactContributors(rels[|rels| - 1].facts)
  {
    var n := |rels| - 1;
    assert forall i :: 0 <= i < n ==> rels[..n][i] == rels[i];
    if ContributedTo(rels, c) {
      var i, j :| 0 <= i < |rels| && 0 <= j < |rels[i].facts| && rels[i].facts[j].contributor == c;
      if i < n {
        assert rels[..n][i].facts[j].contributor == c;
      }
    }
    if exists j :: 0 <= j < |rels[n].facts| && rels[n].facts[j].contributor == c {
      var j :| 0 <= j < |rels[n].facts| && rels[n].facts[j].contributor == c;
      assert rels[n].facts[j].contributor == c;
    }
  }

  /** `c` is the contributor of the gender, of a name, or of a person or relationship fact. */
  ghost predicate Mentions(p: Person, rels: seq<Relationship>, c: string) {
    || c == p.genderContributor
    || (exists i :: 0 <= i < |p.nameContributors| && p.nameContributors[i] == c)
    || (exists i :: 0 <= i < |p.facts| && p.facts[i].contributor == c)
    || ContributedTo(rels, c)
  }

  /**
   `getContributors`: the distinct non-empty contributor ids attributed
   anywhere in the record.
   */
  function GetContributors(p: Person, rels: seq<Relationship>): (cs: set<string>)
    ensures "" !in cs
    ensures forall c :: c in cs <==> c != "" && Mentions(p, rels, c)
  {
    var all := {p.genderContributor} + NameContributors(p.nameContributors)
      + FactContributors(p.facts) + RelationshipContributors(rels);
    all - {""}
  }

  // ------------------------------------------------------------ fact types

  /** `customTypeMap`: lower-cased custom fact types and their canonical names. */
  const CustomTypes: map<string, string> := map[
    "census" := "Residence",
    "residence" := "Residence",
    "will" := "Will",
    "baptism" := "Baptism",
    "confirmation" := "Confirmation",
    "christened" := "Christening",
    "probate" := "Probate",
    "marriage" := "Marriage",
    "marr" := "Marriage",
    "marriage-license" := "MarriageLicense",
    "military service" := "MilitaryService",
    "military" := "MilitaryService",
    "_milt" := "MilitaryService",
    "emigration" := "Emigration",
    "immigration" := "Immigration",
    "arrival" := "MoveTo",
    "move" := "MoveTo"
  ]

  /**
   The types `getFactType` can take: the source cuts the six bytes of
   `data:,` off any type outside the GEDCOM X namespace, and panics when
   there are fewer. The model counts characters, which agrees with bytes
   whenever the first six characters are ASCII, as in every `data:,` type.
   */
  predicate ValidFactType(t: string) {
    HasPrefix(t, GedcomxPrefix) || |t| >= 6
  }

  /** The key a custom fact type is looked up under. */
  function CustomKey(t: string): string
    requires |t| >= 6
  {
    ToLower(t[6..])
  }

  /**
   `getFactType`: a GEDCOM X type becomes the text after its last `/`; any
   other type is looked up, case-insensitively and without its first six
   characters (bytes, in the source), in `CustomTypes`, and is `OTHER` when not found.
   */
  function GetFactType(t: string): (r: string)
    requires ValidFactType(t)
    ensures HasPrefix(t, GedcomxPrefix) ==> HasSuffix(t, r) && '/' !in r && t[|t| - |r| - 1] == '/'
    ensures !HasPrefix(t, GedcomxPrefix) ==> r != ""
    ensures !HasPrefix(t, GedcomxPrefix) && CustomKey(t) in CustomTypes ==> r == CustomTypes[CustomKey(t)]
    ensures !HasPrefix(t, GedcomxPrefix) && CustomKey(t) !in CustomTypes ==> r == Other
  {
    if HasPrefix(t, GedcomxPrefix) then
      assert '/' in t by { assert t[|GedcomxPrefix| - 1] == '/'; }
      AfterLast(t, '/')
    else
      var typ := if CustomKey(t) in CustomTypes then CustomTypes[CustomKey(t)] else "";
      if typ == "" then Other else typ
  }

  /** The converter's own example of a GEDCOM X fact type. */
  lemma GedcomxFactTypeExample()
    ensures GetFactType("http://gedcomx.org/Birth") == "Birth"
  {
    var birth := "http://gedcomx.org/Birth";
    assert HasPrefix(birth, GedcomxPrefix);
    assert birth[19..] == "Birth";
    LastIndexOfCharAt(birth, '/', 18);
  }

  /** The converter's own example of a custom fact type missing from the table. */
  lemma UnknownCustomTypeExample()
    ensures GetFactType("data:,Other") == Other
  {
    var t := "data:,Other";
    assert !HasPrefix(t, GedcomxPrefix) by { assert t[0] != GedcomxPrefix[0]; }
    assert t[6..] == "Other";
    LowerOther();
    OtherEntry();
  }

  lemma LowerOther()
    ensures ToLower("Other") == "other"
  {
    assert LowerChar('O') == 'o' && LowerChar('t') == 't' && LowerChar('h') == 'h';
    assert LowerChar('e') == 'e' && LowerChar('r') == 'r';
    ToLowerPointwise("Other", "other");
  }

  lemma OtherEntry()
    ensures "other" !in CustomTypes
  {
  }

  /** The converter's own examples of custom fact types, matched without regard to case. */
  lemma CustomTypeExample()
    ensures GetFactType("data:,will") == "Will"
  {
    var t := "data:,will";
    assert !HasPrefix(t, GedcomxPrefix) by { assert t[0] != GedcomxPrefix[0]; }
    assert t[6..] == "will";
    LowerWill();
    WillEntry();
  }

  lemma LowerWill()
    ensures ToLower("will") == "will"
  {
    assert LowerChar('w') == 'w' && LowerChar('i') == 'i' && LowerChar('l') == 'l';
    ToLowerPointwise("will", "will");
  }

  lemma WillEntry()
    ensures "will" in CustomTypes && CustomTypes["will"] == "Will"
  {
  }

  /** The converter's own example of a custom fact type written in capitals. */
  lemma UpperCaseCustomTypeExample()
    ensures GetFactType("data:,RESIDENCE") == "Residence"
  {
    var t := "data:,RESIDENCE";
    assert !HasPrefix(t, GedcomxPrefix) by { assert t[0] != GedcomxPrefix[0]; }
    assert t[6..] == "RESIDENCE";
    LowerResidence();
    ResidenceEntry();
  }

  lemma LowerResidence()
    ensures ToLower("RESIDENCE") == "residence"
  {
    assert LowerChar('R') == 'r' && LowerChar('E') == 'e' && LowerChar('S') == 's' && LowerChar('I') == 'i';
    assert LowerChar('D') == 'd' && LowerChar('N') == 'n' && LowerChar('C') == 'c';
    ToLowerPointwise("RESIDENCE", "residence");
  }

  lemma ResidenceEntry()
    ensures "residence" in CustomTypes && CustomTypes["residence"] == "Residence"
  {
  }

  // ----------------------------------------------------------------- years

  /** Four ASCII digits start at index `i` of `s`. */
  predicate FourDigitsAt(s: string, i: int) {
    0 <= i && i + 4 <= |s|
    && Decimal.IsDigit(s[i]) && Decimal.IsDigit(s[i + 1])
    && Decimal.IsDigit(s[i + 2]) && Decimal.IsDigit(s[i + 3])
  }

  /** The leftmost window of four digits in `s` starts at `k`. */
  predicate LeftmostFourDigitsAt(s: string, k: int) {
    FourDigitsAt(s, k) && forall j :: 0 <= j < k ==> !FourDigitsAt(s, j)
  }

  function FirstFourDigits(s: string, from: nat): (r: Option<nat>)
    requires from <= |s|
    ensures r.Some? ==> from <= r.value && FourDigitsAt(s, r.value)
    ensures forall k :: from <= k && (r.None? || k < r.value) ==> !FourDigitsAt(s, k)
    decreases |s| - from
  {
    if from + 4 > |s| then None
    else if FourDigitsAt(s, from) then Some(from)
    else FirstFourDigits(s, from + 1)
  }

  /**
   `getYear`: the match of `\D*(\d{4})\D*` that the source takes is the
   leftmost window of four digits; its value is the year, and a date with no
   such window has year 0.
   */
  function GetYear(date: string): (y: int)
    ensures 0 <= y <= 9999
    ensures (forall k :: !FourDigitsAt(date, k)) ==> y == 0
    ensures forall k :: LeftmostFourDigitsAt(date, k) ==> y == Decimal.Value(date[k..k + 4])
  {
    match FirstFourDigits(date, 0)
    case None => 0
    case Some(i) =>
      var w := date[i..i + 4];
      assert Decimal.AllDigits(w) by {
        assert forall j :: 0 <= j < 4 ==> w[j] == date[i + j];
      }
      assert Decimal.Value(w) <= 9999 by {
        Decimal.ValueBound(w);
        assert Decimal.Pow10(4) == 10000;
      }
      Decimal.Value(w)
  }

  /** A date whose leftmost four-digit window is `digits`, at `k`, has that year. */
  lemma YearFromWindow(date: string, k: nat, digits: string)
    requires LeftmostFourDigitsAt(date, k) && date[k..k + 4] == digits
    ensures Decimal.AllDigits(digits)
    ensures GetYear(date) == Decimal.Value(digits)
  {
    assert forall j :: 0 <= j < 4 ==> digits[j] == date[k + j];
  }

  lemma Value1980()
    ensures Decimal.AllDigits("1980") && Decimal.Value("1980") == 1980
  {
    Decimal.ValueOfFour("1980");
  }

  lemma Value1888()
    ensures Decimal.AllDigits("1888") && Decimal.Value("1888") == 1888
  {
    Decimal.ValueOfFour("1888");
  }

  lemma Value2010()
    ensures Decimal.AllDigits("2010") && Decimal.Value("2010") == 2010
  {
    Decimal.ValueOfFour("2010");
  }

  /** The converter's own examples of a bare year, with white space around it. */
  lemma GetYearExamples()
    ensures GetYear("1980") == 1980
    ensures GetYear("\t1980") == 1980
    ensures GetYear("1980   ") == 1980
    ensures GetYear(" 1980   ") == 1980
  {
    Value1980();
    assert GetYear("1980") == 1980 by {
      assert FirstFourDigits("1980", 0) == Some(0);
      assert "1980"[0..4] == "1980";
    }
    assert GetYear("\t1980") == 1980 by {
      assert FirstFourDigits("\t1980", 0) == Some(1);
      assert "\t1980"[1..5] == "1980";
    }
    assert GetYear("1980   ") == 1980 by {
      assert FirstFourDigits("1980   ", 0) == Some(0);
      assert "1980   "[0..4] == "1980";
    }
    assert GetYear(" 1980   ") == 1980 by {
      assert FirstFourDigits(" 1980   ", 0) == Some(1);
      assert " 1980   "[1..5] == "1980";
    }
  }

  /** The converter's own examples of a year after some words. */
  lemma GetYearTextExamples()
    ensures GetYear("Abt 1980") == 1980
    ensures GetYear("25 April 1888") == 1888
  {
    AboutYear();
    DayMonthYear();
  }

  lemma AboutYear()
    ensures GetYear("Abt 1980") == 1980
  {
    Value1980();
    assert FirstFourDigits("Abt 1980", 0) == Some(4);
    assert "Abt 1980"[4..8] == "1980";
  }

  lemma DayMonthYear()
    ensures GetYear("25 April 1888") == 1888
  {
    Value1888();
    assert FirstFourDigits("25 April 1888", 0) == Some(9);
    assert "25 April 1888"[9..13] == "1888";
  }

  /** Digits broken up by other characters: only an unbroken run of four counts. */
  lemma GetYearBrokenRunExamples()
    ensures GetYear("3/24/2010") == 2010
    ensures GetYear("25Apr1888") == 1888
  {
    SlashedYear();
    RunTogetherYear();
  }

  lemma SlashedYear()
    ensures GetYear("3/24/2010") == 2010
  {
    Value2010();
    assert FirstFourDigits("3/24/2010", 0) == Some(5);
    assert "3/24/2010"[5..9] == "2010";
  }

  lemma RunTogetherYear()
    ensures GetYear("25Apr1888") == 1888
  {
    Value1888();
    assert FirstFourDigits("25Apr1888", 0) == Some(5);
    assert "25Apr1888"[5..9] == "1888";
  }

  /** The converter's own examples of dates without a year. */
  lemma GetYearZeroExamples()
    ensures GetYear("") == 0
    ensures GetYear("25Apr18") == 0
    ensures GetYear("June") == 0
  {
    var short := "25Apr18";
    assert !FourDigitsAt(short, 0) && !FourDigitsAt(short, 1);
    assert !FourDigitsAt(short, 2) && !FourDigitsAt(short, 3);
    assert forall k :: !FourDigitsAt(short, k);
    assert !FourDigitsAt("June", 0);
    assert forall k :: !FourDigitsAt("June", k);
  }

  // ---------------------------------------------------------------- places

  /** The key a place is looked up under: tabs become spaces. */
  function PlaceKey(place: string): (key: string)
    ensures |key| == |place| && '\t' !in key
    ensures forall i :: 0 <= i < |place| && place[i] != '\t' ==> key[i] == place[i]
  {
    ReplaceChar(place, '\t', ' ')
  }

  /**
   `getStdPlace`: the standard form of the place when the table has a
   non-empty one, otherwise the place itself with tabs made spaces.
   */
  function GetStdPlace(place: string, stdPlaces: map<string, string>): (r: string)
    ensures '\t' !in place ==> r == place || (place in stdPlaces && r == stdPlaces[place])
    ensures PlaceKey(place) in stdPlaces && stdPlaces[PlaceKey(place)] != "" ==> r == stdPlaces[PlaceKey(place)]
    ensures !(PlaceKey(place) in stdPlaces && stdPlaces[PlaceKey(place)] != "") ==> r == PlaceKey(place)
    ensures r == "" <==> place == "" && (PlaceKey("") !in stdPlaces || stdPlaces[PlaceKey("")] == "")
  {
    var key := PlaceKey(place);
    assert '\t' !in place ==> key == place;
    var std := if key in stdPlaces then stdPlaces[key] else "";
    if std != "" then std else key
  }

  /** A place and its key standardize alike: making tabs spaces twice changes nothing more. */
  lemma GetStdPlaceOfKey(place: string, stdPlaces: map<string, string>)
    ensures GetStdPlace(PlaceKey(place), stdPlaces) == GetStdPlace(place, stdPlaces)
  {
    assert PlaceKey(PlaceKey(place)) == PlaceKey(place);
  }

  /** With a table whose standard forms have no tab, no standardized place has one. */
  lemma GetStdPlaceTabFree(place: string, stdPlaces: map<string, string>)
    requires forall k :: k in stdPlaces ==> '\t' !in stdPlaces[k]
    ensures '\t' !in GetStdPlace(place, stdPlaces)
  {
  }

  // ----------------------------------------------------------------- facts

  /** A converted fact worth keeping: it has a known type, a year or a place. */
  predicate Informative(f: FsFact) {
    f.factType != Some(Other) || f.year.Some? || f.place.Some?
  }

  /**
   `ff` has type `t`, and has a year, a place and a value exactly when these
   are non-zero or non-empty.
   */
  predicate Carries(ff: FsFact, t: string, year: int, place: string, value: string) {
    && ff.factType == Some(t)
    && (ff.year.Some? <==> year != 0) && (ff.year.Some? ==> ff.year.value == year)
    && (ff.place.Some? <==> place != "") && (ff.place.Some? ==> ff.place.value == place)
    && (ff.value.Some? <==> value != "") && (ff.value.Some? ==> ff.value.value == value)
  }

  /**
   `getFact`: no fact at all for an `OTHER` fact without year and place;
   otherwise the canonical type, with the year, place and value present
   exactly when they are non-zero or non-empty.
   */
  function GetFact(f: Fact, stdPlaces: map<string, string>): (r: Option<FsFact>)
    requires ValidFactType(f.factType)
    ensures r.None? <==> (GetFactType(f.factType) == Other && GetYear(f.date) == 0
      && GetStdPlace(f.place, stdPlaces) == "")
    ensures r.Some? ==> Carries(r.value, GetFactType(f.factType), GetYear(f.date), GetStdPlace(f.place, stdPlaces), f.value)
    ensures r.Some? ==> Informative(r.value)
  {
    var t := GetFactType(f.factType);
    var year := GetYear(f.date);
    var place := GetStdPlace(f.place, stdPlaces);
    if t == Other && year == 0 && place == "" then None
    else
      Some(FsFact(
        Some(t),
        if year != 0 then Some(year) else None,
        if place != "" then Some(place) else None,
        if f.value != "" then Some(f.value) else None))
  }

  /** `f` is a fact the converter accepts and it converts to `ff`. */
  predicate ConvertsTo(f: Fact, stdPlaces: map<string, string>, ff: FsFact) {
    ValidFactType(f.factType) && GetFact(f, stdPlaces) == Some(ff)
  }

  predicate ValidFacts(facts: seq<Fact>) {
    forall i :: 0 <= i < |facts| ==> ValidFactType(facts[i].factType)
  }

  /** The result of `getFact` on each fact, `None` standing for nil. */
  function FactConversions(facts: seq<Fact>, stdPlaces: map<string, string>): (opts: seq<Option<FsFact>>)
    requires ValidFacts(facts)
    ensures |opts| == |facts|
    ensures forall i :: 0 <= i < |facts| ==> opts[i] == GetFact(facts[i], stdPlaces)
  {
    seq(|facts|, i requires 0 <= i < |facts| => GetFact(facts[i], stdPlaces))
  }

  /** The facts converted one by one, the omitted ones dropped, order kept. */
  function ConvertFacts(facts: seq<Fact>, stdPlaces: map<string, string>): (r: seq<FsFact>)
    requires ValidFacts(facts)
    ensures |r| <= |facts|
    ensures forall k :: 0 <= k < |r| ==> Some(r[k]) in FactConversions(facts, stdPlaces)
  {
    Somes(FactConversions(facts, stdPlaces))
  }

  /** A fact is kept exactly when some input fact converts to it. */
  lemma ConvertFactsMembers(facts: seq<Fact>, stdPlaces: map<string, string>, ff: FsFact)
    requires ValidFacts(facts)
    ensures ff in ConvertFacts(facts, stdPlaces) <==> exists i :: 0 <= i < |facts| && GetFact(facts[i], stdPlaces) == Some(ff)
  {
    var opts := FactConversions(facts, stdPlaces);
    if ff in ConvertFacts(facts, stdPlaces) {
      var i :| 0 <= i < |opts| && opts[i] == Some(ff);
    }
    if exists i :: 0 <= i < |facts| && GetFact(facts[i], stdPlaces) == Some(ff) {
      var i :| 0 <= i < |facts| && GetFact(facts[i], stdPlaces) == Some(ff);
      assert opts[i].Some?;
    }
  }

  /** Every fact kept says something: a known type, a year or a place. */
  lemma ConvertFactsInformative(facts: seq<Fact>, stdPlaces: map<string, string>, k: nat)
    requires ValidFacts(facts) && k < |ConvertFacts(facts, stdPlaces)|
    ensures Informative(ConvertFacts(facts, stdPlaces)[k])
  {
    var opts := FactConversions(facts, stdPlaces);
    var ff := ConvertFacts(facts, stdPlaces)[k];
    var i :| 0 <= i < |opts| && opts[i] == Some(ff);
    assert GetFact(facts[i], stdPlaces) == Some(ff);
  }

  /** The facts of every relationship, relationship by relationship. */
  function RelationshipFacts(rels: seq<Relationship>): (facts: seq<Fact>)
    ensures forall f :: f in facts <==> exists i :: 0 <= i < |rels| && f in rels[i].facts
  {
    if |rels| == 0 then [] else RelationshipFacts(rels[..|rels| - 1]) + rels[|rels| - 1].facts
  }

  predicate ValidRelationships(rels: seq<Relationship>) {
    forall i :: 0 <= i < |rels| ==> ValidFacts(rels[i].facts)
  }

  /** The facts a person record carries: its own, then those of its relationships. */
  function RecordFacts(p: Person, rels: seq<Relationship>): (facts: seq<Fact>)
    requires ValidFacts(p.facts) && ValidRelationships(rels)
    ensures ValidFacts(facts)
    ensures forall f :: f in facts <==> f in p.facts || exists i :: 0 <= i < |rels| && f in rels[i].facts
  {
    var relFacts := RelationshipFacts(rels);
    assert ValidFacts(relFacts) by {
      forall k | 0 <= k < |relFacts|
        ensures ValidFactType(relFacts[k].factType)
      {
        assert relFacts[k] in relFacts;
      }
    }
    p.facts + relFacts
  }

  /**
   `getFacts`: the kept conversions of the person's facts and of its
   relationships' facts.
   */
  function GetFacts(p: Person, rels: seq<Relationship>, stdPlaces: map<string, string>): (r: seq<FsFact>)
    requires ValidFacts(p.facts) && ValidRelationships(rels)
    ensures |r| <= |p.facts| + |RelationshipFacts(rels)|
  {
    ConvertFacts(RecordFacts(p, rels), stdPlaces)
  }

  /** Every fact among the person's converted facts comes from a fact the record carries. */
  lemma GetFactsSound(p: Person, rels: seq<Relationship>, stdPlaces: map<string, string>, ff: FsFact)
    requires ValidFacts(p.facts) && ValidRelationships(rels)
    requires ff in GetFacts(p, rels, stdPlaces)
    ensures exists f :: f in RecordFacts(p, rels) && ConvertsTo(f, stdPlaces, ff)
  {
    var facts := RecordFacts(p, rels);
    ConvertFactsMembers(facts, stdPlaces, ff);
    var i :| 0 <= i < |facts| && GetFact(facts[i], stdPlaces) == Some(ff);
    assert ConvertsTo(facts[i], stdPlaces, ff);
  }

  /** Every fact among the person's converted facts says something. */
  lemma GetFactsInformative(p: Person, rels: seq<Relationship>, stdPlaces: map<string, string>, k: nat)
    requires ValidFacts(p.facts) && ValidRelationships(rels)
    requires k < |GetFacts(p, rels, stdPlaces)|
    ensures Informative(GetFacts(p, rels, stdPlaces)[k])
  {
    ConvertFactsInformative(RecordFacts(p, rels), stdPlaces, k);
  }

  /** Every fact the record carries that converts to something is kept. */
  lemma GetFactsComplete(p: Person, rels: seq<Relationship>, stdPlaces: map<string, string>, f: Fact, ff: FsFact)
    requires ValidFacts(p.facts) && ValidRelationships(rels)
    requires f in RecordFacts(p, rels) && ConvertsTo(f, stdPlaces, ff)
    ensures ff in GetFacts(p, rels, stdPlaces)
  {
    var facts := RecordFacts(p, rels);
    var i :| 0 <= i < |facts| && facts[i] == f;
    assert GetFact(facts[i], stdPlaces) == Some(ff);
    ConvertFactsMembers(facts, stdPlaces, ff);
  }

  /**
   The source's two loops: the person's own facts are converted first, then
   the relationships' facts, each group in order.
   */
  lemma GetFactsInTwoLoops(p: Person, rels: seq<Relationship>, stdPlaces: map<string, string>)
    requires ValidFacts(p.facts) && ValidRelationships(rels)
    ensures ValidFacts(RelationshipFacts(rels))
    ensures GetFacts(p, rels, stdPlaces)
      == ConvertFacts(p.facts, stdPlaces) + ConvertFacts(RelationshipFacts(rels), stdPlaces)
  {
    var relFacts := RelationshipFacts(rels);
    RelationshipFactsValid(rels);
    assert RecordFacts(p, rels) == p.facts + relFacts;
    ConvertFactsAppend(p.facts, relFacts, stdPlaces);
  }

  lemma RelationshipFactsValid(rels: seq<Relationship>)
    requires ValidRelationships(rels)
    ensures ValidFacts(RelationshipFacts(rels))
  {
    var relFacts := RelationshipFacts(rels);
    forall k | 0 <= k < |relFacts|
      ensures ValidFactType(relFacts[k].factType)
    {
      assert relFacts[k] in relFacts;
    }
  }

  /** Converting two stretches of facts is converting each, one after the other. */
  lemma ConvertFactsAppend(a: seq<Fact>, b: seq<Fact>, stdPlaces: map<string, string>)
    requires ValidFacts(a) && ValidFacts(b)
    ensures ValidFacts(a + b)
    ensures ConvertFacts(a + b, stdPlaces) == ConvertFacts(a, stdPlaces) + ConvertFacts(b, stdPlaces)
  {
    ValidFactsAppend(a, b);
    FactConversionsAppend(a, b, stdPlaces);
    SomesAppend(FactConversions(a, stdPlaces), FactConversions(b, stdPlaces));
  }

  lemma ValidFactsAppend(a: seq<Fact>, b: seq<Fact>)
    requires ValidFacts(a) && ValidFacts(b)
    ensures ValidFacts(a + b)
  {
    forall k | 0 <= k < |a + b|
      ensures ValidFactType((a + b)[k].factType)
    {
      if k >= |a| {
        assert (a + b)[k] == b[k - |a|];
      }
    }
  }

  lemma FactConversionsAppend(a: seq<Fact>, b: seq<Fact>, stdPlaces: map<string, string>)
    requires ValidFacts(a) && ValidFacts(b) && ValidFacts(a + b)
    ensures FactConversions(a + b, stdPlaces) == FactConversions(a, stdPlaces) + FactConversions(b, stdPlaces)
  {
    var l := FactConversions(a + b, stdPlaces);
    var r := FactConversions(a, stdPlaces) + FactConversions(b, stdPlaces);
    forall k | 0 <= k < |l|
      ensures l[k] == r[k]
    {
      if k < |a| {
        assert (a + b)[k] == a[k];
      } else {
        assert (a + b)[k] == b[k - |a|];
      }
    }
  }

  // --------------------------------------------------------- relationships

  /** `getArkPid`: the text after the last `:` of a resource reference, or all of it. */
  function GetArkPid(ark: string): (id: string)
    ensures HasSuffix(ark, id) && ':' !in id
    ensures ':' !in ark ==> id == ark
    ensures ':' in ark ==> ark[|ark| - |id| - 1] == ':'
  {
    AfterLast(ark, ':')
  }

  /** A ParentChild relationship in which the record's person (a `#` reference) is the parent. */
  predicate IsChildLink(rel: Relationship) {
    rel.relType == ParentChildUri && HasPrefix(rel.person1, "#")
  }

  /** A ParentChild relationship in which the other person is the parent. */
  predicate IsParentLink(rel: Relationship) {
    rel.relType == ParentChildUri && !HasPrefix(rel.person1, "#")
  }

  /** A Couple relationship. */
  predicate IsCoupleLink(rel: Relationship) {
    rel.relType == CoupleUri
  }

  datatype Role = Parent | Child | Spouse

  /**
   The id a relationship names for `role`, or "" when it names none: the
   other person's ARK id, which for a couple is the side that is not a `#`
   reference.
   */
  function RoleId(rel: Relationship, role: Role): string {
    match role
    case Parent => if IsParentLink(rel) then GetArkPid(rel.person1) else ""
    case Child => if IsChildLink(rel) then GetArkPid(rel.person2) else ""
    case Spouse =>
      if !IsCoupleLink(rel) then ""
      else if HasPrefix(rel.person1, "#") then GetArkPid(rel.person2)
      else GetArkPid(rel.person1)
  }

  /** The strings of `xs` that are not empty, order kept. */
  function NonEmpty(xs: seq<string>): (r: seq<string>)
    ensures |r| <= |xs|
    ensures forall x :: x in r <==> x != "" && x in xs
  {
    if |xs| == 0 then []
    else
      var init := xs[..|xs| - 1];
      assert xs == init + [xs[|xs| - 1]];
      if xs[|xs| - 1] != "" then NonEmpty(init) + [xs[|xs| - 1]] else NonEmpty(init)
  }

  /** The id each relationship names for `role`, "" included. */
  function RoleIds(rels: seq<Relationship>, role: Role): (ids: seq<string>)
    ensures |ids| == |rels|
    ensures forall i :: 0 <= i < |rels| ==> ids[i] == RoleId(rels[i], role)
  {
    seq(|rels|, i requires 0 <= i < |rels| => RoleId(rels[i], role))
  }

  /**
   The non-empty ids the relationships name for `role`, in relationship
   order: an id is listed exactly when some relationship names it.
   */
  function IdsWithRole(rels: seq<Relationship>, role: Role): (ids: seq<string>)
    ensures |ids| <= |rels|
    ensures forall x :: x in ids <==> x != "" && exists i :: 0 <= i < |rels| && RoleId(rels[i], role) == x
  {
    var all := RoleIds(rels, role);
    assert forall x :: x in all <==> exists i :: 0 <= i < |rels| && RoleId(rels[i], role) == x by {
      forall x | x in all
        ensures exists i :: 0 <= i < |rels| && RoleId(rels[i], role) == x
      {
        var i :| 0 <= i < |all| && all[i] == x;
      }
    }
    NonEmpty(all)
  }

  /** One more relationship adds its id for `role`, if it names one, at the end. */
  lemma IdsWithRoleSnoc(rels: seq<Relationship>, role: Role)
    requires |rels| > 0
    ensures var id := RoleId(rels[|rels| - 1], role);
      IdsWithRole(rels, role) == IdsWithRole(rels[..|rels| - 1], role) + (if id != "" then [id] else [])
  {
    var init := rels[..|rels| - 1];
    var all := RoleIds(rels, role);
    assert all == RoleIds(init, role) + [RoleId(rels[|rels| - 1], role)];
    assert all[..|all| - 1] == RoleIds(init, role);
  }

  datatype Family = Family(parents: seq<string>, children: seq<string>, spouses: seq<string>)

  /**
   `getRelationships`: one pass over the relationships that appends each
   named id to the parents, children or spouses list.
   */
  function GetRelationships(rels: seq<Relationship>): (fam: Family)
    ensures fam.parents == IdsWithRole(rels, Parent)
    ensures fam.children == IdsWithRole(rels, Child)
    ensures fam.spouses == IdsWithRole(rels, Spouse)
    ensures |fam.parents| + |fam.children| + |fam.spouses| <= |rels|
  {
    if |rels| == 0 then Family([], [], [])
    else
      var init := rels[..|rels| - 1];
      var rel := rels[|rels| - 1];
      var fam := GetRelationships(init);
      IdsWithRoleSnoc(rels, Parent);
      IdsWithRoleSnoc(rels, Child);
      IdsWithRoleSnoc(rels, Spouse);
      if rel.relType == ParentChildUri then
        if HasPrefix(rel.person1, "#") then
          var id := GetArkPid(rel.person2);
          if id != "" then fam.(children := fam.children + [id]) else fam
        else
          var id := GetArkPid(rel.person1);
          if id != "" then fam.(parents := fam.parents + [id]) else fam
      else if rel.relType == CoupleUri then
        var id := if HasPrefix(rel.person1, "#") then GetArkPid(rel.person2) else GetArkPid(rel.person1);
        if id != "" then fam.(spouses := fam.spouses + [id]) else fam
      else
        fam
  }
}

=== FILE: strings.dfy ===
/**
 The parts of Go's `strings` package that the tools rely on, restated over
 `seq<char>`. Case mapping is ASCII only; white space is Go's `unicode.IsSpace`.
 */
module Strings {

  /** Go's `unicode.IsSpace`: the characters `strings.TrimSpace` removes. */
  predicate IsSpace(c: char) {
    || c == ' '
    || ('\t' <= c <= '\r')
    || c as int in {0x85, 0xA0, 0x1680, 0x2028, 0x2029, 0x202F, 0x205F, 0x3000}
    || (0x2000 <= c as int <= 0x200A)
  }

  /** ASCII lower-casing of one character. */
  function LowerChar(c: char): (r: char)
    ensures 'A' <= c <= 'Z' ==> 'a' <= r <= 'z' && r as int == c as int + 32
    ensures !('A' <= c <= 'Z') ==> r == c
  {
    if 'A' <= c <= 'Z' then (c as int + 32) as char else c
  }

  /** `strings.ToLower`, restricted to ASCII letters. */
  function ToLower(s: string): (r: string)
    ensures |r| == |s|
    ensures forall i :: 0 <= i < |s| ==> r[i] == LowerChar(s[i])
  {
    if |s| == 0 then "" else [LowerChar(s[0])] + ToLower(s[1..])
  }

  function TrimLeft(s: string): (r: string)
    ensures |r| <= |s| && r == s[|s| - |r|..]
    ensures r == "" || !IsSpace(r[0])
  {
    if |s| > 0 && IsSpace(s[0]) then TrimLeft(s[1..]) else s
  }

  /** All that `TrimLeft` drops is white space. */
  lemma {:induction false} TrimLeftDrops(s: string)
    ensures forall k :: 0 <= k < |s| - |TrimLeft(s)| ==> IsSpace(s[k])
  {
    if |s| > 0 && IsSpace(s[0]) {
      TrimLeftDrops(s[1..]);
    }
  }

  function TrimRight(s: string): (r: string)
    ensures |r| <= |s| && r == s[..|r|]
    ensures r == "" || !IsSpace(r[|r| - 1])
  {
    if |s| > 0 && IsSpace(s[|s| - 1]) then TrimRight(s[..|s| - 1]) else s
  }

  /** All that `TrimRight` drops is white space. */
  lemma {:induction false} TrimRightDrops(s: string)
    ensures forall k :: |TrimRight(s)| <= k < |s| ==> IsSpace(s[k])
  {
    if |s| > 0 && IsSpace(s[|s| - 1]) {
      TrimRightDrops(s[..|s| - 1]);
    }
  }

  /**
   `strings.TrimSpace`: the result is the slice of `s` left after removing
   every leading and every trailing white-space character.
   */
  function TrimSpace(s: string): (r: string)
    ensures |r| <= |s|
    ensures r == "" || (!IsSpace(r[0]) && !IsSpace(r[|r| - 1]))
  {
    TrimRight(TrimLeft(s))
  }

  /** What trimming keeps is one slice of `s`, and all it drops is white space. */
  lemma TrimSpaceSlice(s: string)
    ensures exists i :: TrimmedAt(s, TrimSpace(s), i)
  {
    var left := TrimLeft(s);
    var r := TrimRight(left);
    var i := |s| - |left|;
    assert left == s[i..];
    assert r == left[..|r|];
    assert r == s[i..i + |r|] by {
      assert left[..|r|] == s[i..i + |r|];
    }
    assert forall k :: 0 <= k < i ==> IsSpace(s[k]) by { TrimLeftDrops(s); }
    assert forall k :: i + |r| <= k < |s| ==> IsSpace(s[k]) by {
      TrimRightDrops(left);
      assert forall k :: |r| <= k < |left| ==> left[k] == s[i + k];
    }
    assert TrimSpace(s) == r;
    assert TrimmedAt(s, TrimSpace(s), i);
  }

  /** `r` is `s[i..i+|r|]` and everything of `s` outside that slice is white space. */
  predicate TrimmedAt(s: string, r: string, i: int) {
    && 0 <= i <= i + |r| <= |s|
    && r == s[i..i + |r|]
    && (forall k :: 0 <= k < i ==> IsSpace(s[k]))
    && (forall k :: i + |r| <= k < |s| ==> IsSpace(s[k]))
  }

  /** Trimming twice trims nothing more. */
  lemma TrimSpaceIdempotent(s: string)
    ensures TrimSpace(TrimSpace(s)) == TrimSpace(s)
  {
    var r := TrimSpace(s);
    if r != "" {
      assert TrimLeft(r) == r;
      assert TrimRight(r) == r;
    }
  }

  /** Trimming keeps a slice of `s`, so it brings in no character `s` lacks. */
  lemma TrimSpaceWithin(s: string, c: char)
    requires c !in s
    ensures c !in TrimSpace(s)
  {
    var left := TrimLeft(s);
    assert c !in left;
    assert c !in TrimRight(left);
  }

  /** One more leading space makes no difference to the trimmed text. */
  lemma TrimSpaceLeadingSpace(s: string)
    ensures TrimSpace(" " + s) == TrimSpace(s)
  {
    assert (" " + s)[1..] == s;
  }

  /** White space up to index `i`, then a character that is not: `TrimLeft` starts at `i`. */
  lemma {:induction false} TrimLeftAt(s: string, i: nat)
    requires i <= |s| && (i == |s| || !IsSpace(s[i]))
    requires forall k :: 0 <= k < i ==> IsSpace(s[k])
    ensures TrimLeft(s) == s[i..]
    decreases i
  {
    if i > 0 {
      assert s[1..][i - 1..] == s[i..];
      TrimLeftAt(s[1..], i - 1);
    }
  }

  /** A character that is not white space at index `j - 1`, then only white space: `TrimRight` ends at `j`. */
  lemma {:induction false} TrimRightAt(s: string, j: nat)
    requires j <= |s| && (j == 0 || !IsSpace(s[j - 1]))
    requires forall k :: j <= k < |s| ==> IsSpace(s[k])
    ensures TrimRight(s) == s[..j]
    decreases |s| - j
  {
    if j < |s| {
      assert s[..|s| - 1][..j] == s[..j];
      TrimRightAt(s[..|s| - 1], j);
    }
  }

  /** Text between white space, starting and ending with a character that is not white space, is what trimming keeps. */
  lemma TrimSpaceAt(s: string, i: nat, j: nat)
    requires i < j <= |s| && !IsSpace(s[i]) && !IsSpace(s[j - 1])
    requires forall k :: 0 <= k < i ==> IsSpace(s[k])
    requires forall k :: j <= k < |s| ==> IsSpace(s[k])
    ensures TrimSpace(s) == s[i..j]
  {
    assert TrimLeft(s) == s[i..] by { TrimLeftAt(s, i); }
    var rest := s[i..];
    assert TrimRight(rest) == rest[..j - i] by {
      assert forall k :: j - i <= k < |rest| ==> rest[k] == s[k + i];
      TrimRightAt(rest, j - i);
    }
    assert rest[..j - i] == s[i..j];
  }

  /** Lower-casing never turns a character into white space or out of it. */
  lemma SpaceLower(c: char)
    ensures IsSpace(LowerChar(c)) == IsSpace(c)
  {
  }

  lemma {:induction false} TrimLeftLower(s: string)
    ensures TrimLeft(ToLower(s)) == ToLower(TrimLeft(s))
  {
    if |s| > 0 && IsSpace(s[0]) {
      var t := ToLower(s);
      SpaceLower(s[0]);
      assert t[1..] == ToLower(s[1..]);
      TrimLeftLower(s[1..]);
    } else if |s| > 0 {
      TrimLeftLowerStop(s);
    }
  }

  lemma TrimLeftLowerStop(s: string)
    requires |s| > 0 && !IsSpace(s[0])
    ensures TrimLeft(ToLower(s)) == ToLower(s)
  {
    SpaceLower(s[0]);
  }

  lemma {:induction false} TrimRightLower(s: string)
    ensures TrimRight(ToLower(s)) == ToLower(TrimRight(s))
  {
    if |s| > 0 {
      var t := ToLower(s);
      SpaceLower(s[|s| - 1]);
      assert t[|s| - 1] == LowerChar(s[|s| - 1]);
      if IsSpace(s[|s| - 1]) {
        assert t[..|s| - 1] == ToLower(s[..|s| - 1]);
        TrimRightLower(s[..|s| - 1]);
      }
    }
  }

  /** Trimming and ASCII lower-casing commute. */
  lemma TrimSpaceLower(s: string)
    ensures TrimSpace(ToLower(s)) == ToLower(TrimSpace(s))
  {
    TrimLeftLower(s);
    TrimRightLower(TrimLeft(s));
  }

  lemma ToLowerIdempotent(s: string)
    ensures ToLower(ToLower(s)) == ToLower(s)
  {
  }

  /** A string that is `s` lower-cased character by character is `ToLower(s)`. */
  lemma ToLowerPointwise(s: string, t: string)
    requires |s| == |t| && forall i :: 0 <= i < |s| ==> t[i] == LowerChar(s[i])
    ensures ToLower(s) == t
  {
  }

  predicate HasPrefix(s: string, p: string) {
    |p| <= |s| && s[..|p|] == p
  }

  predicate HasSuffix(s: string, p: string) {
    |p| <= |s| && s[|s| - |p|..] == p
  }

  /** `pat` occurs in `s` starting at index `i`. */
  predicate OccursAt(s: string, pat: string, i: int) {
    0 <= i && i + |pat| <= |s| && s[i..i + |pat|] == pat
  }

  function IndexFrom(s: string, pat: string, i: nat): (r: int)
    requires i <= |s|
    ensures r == -1 || (i <= r && OccursAt(s, pat, r))
    ensures forall k :: i <= k && (r == -1 || k < r) ==> !OccursAt(s, pat, k)
    decreases |s| - i
  {
    if OccursAt(s, pat, i) then i
    else if i + |pat| >= |s| then -1
    else IndexFrom(s, pat, i + 1)
  }

  /** `strings.Index`: the first position where `pat` occurs in `s`, or -1. */
  function Index(s: string, pat: string): (r: int)
    ensures r == -1 <==> forall k :: !OccursAt(s, pat, k)
    ensures r != -1 ==> OccursAt(s, pat, r) && forall k :: 0 <= k < r ==> !OccursAt(s, pat, k)
  {
    IndexFrom(s, pat, 0)
  }

  /** First index of character `c` in `s`, or -1. */
  function IndexOfChar(s: string, c: char): (r: int)
    ensures -1 <= r < |s|
    ensures r == -1 <==> c !in s
    ensures r != -1 ==> s[r] == c && c !in s[..r]
  {
    if |s| == 0 then -1
    else if s[0] == c then 0
    else
      var k := IndexOfChar(s[1..], c);
      assert s[1..][..if k < 0 then 0 else k] == s[1..1 + if k < 0 then 0 else k];
      if k == -1 then -1 else k + 1
  }

  /** `strings.LastIndex` for a one-character pattern. */
  function LastIndexOfChar(s: string, c: char): (r: int)
    ensures -1 <= r < |s|
    ensures r == -1 <==> c !in s
    ensures r != -1 ==> s[r] == c && c !in s[r + 1..]
  {
    if |s| == 0 then -1
    else if s[|s| - 1] == c then |s| - 1
    else
      var k := LastIndexOfChar(s[..|s| - 1], c);
      assert k != -1 ==> s[k + 1..] == s[..|s| - 1][k + 1..] + [s[|s| - 1]];
      k
  }

  /** The last occurrence of `c` is the one with no `c` after it. */
  lemma LastIndexOfCharAt(s: string, c: char, i: int)
    requires 0 <= i < |s| && s[i] == c && c !in s[i + 1..]
    ensures LastIndexOfChar(s, c) == i
  {
    assert c in s;
  }

  /**
   `s[strings.LastIndex(s, c)+1:]`: the text after the last `c`, or all of `s`
   when it has none.
   */
  function AfterLast(s: string, c: char): (r: string)
    ensures |r| <= |s| && r == s[|s| - |r|..]
    ensures c !in r
    ensures c in s <==> |r| < |s|
    ensures |r| < |s| ==> s[|s| - |r| - 1] == c
  {
    s[LastIndexOfChar(s, c) + 1..]
  }

  /** `strings.Join`. */
  function Join(parts: seq<string>, sep: string): string {
    if |parts| == 0 then ""
    else if |parts| == 1 then parts[0]
    else parts[0] + sep + Join(parts[1..], sep)
  }

  /**
   `strings.Split` for a one-character separator: the pieces between the
   occurrences of `c`; there is always at least one piece.
   */
  function Split(s: string, c: char): (parts: seq<string>)
    ensures |parts| >= 1
    ensures forall i :: 0 <= i < |parts| ==> c !in parts[i]
    decreases |s|
  {
    var i := IndexOfChar(s, c);
    if i < 0 then [s] else [s[..i]] + Split(s[i + 1..], c)
  }

  /** Joining the pieces back with the separator restores the string. */
  lemma {:induction false} JoinSplit(s: string, c: char)
    ensures Join(Split(s, c), [c]) == s
    decreases |s|
  {
    var i := IndexOfChar(s, c);
    if i >= 0 {
      var rest := Split(s[i + 1..], c);
      JoinSplit(s[i + 1..], c);
      JoinCons(s[..i], rest, [c]);
      CutAt(s, i);
    }
  }

  /** Joining a piece in front of at least one more puts the separator between them. */
  lemma JoinCons(x: string, rest: seq<string>, sep: string)
    requires |rest| >= 1
    ensures Join([x] + rest, sep) == x + sep + Join(rest, sep)
  {
    assert ([x] + rest)[1..] == rest;
  }

  /** Joining two non-empty lists end to end puts the separator between their joins. */
  lemma {:induction false} JoinAppend(a: seq<string>, b: seq<string>, sep: string)
    requires |a| >= 1 && |b| >= 1
    ensures Join(a + b, sep) == Join(a, sep) + sep + Join(b, sep)
    decreases |a|
  {
    if |a| == 1 {
      JoinCons(a[0], b, sep);
      assert a + b == [a[0]] + b;
    } else {
      var rest := a[1..];
      JoinAppend(rest, b, sep);
      assert a + b == [a[0]] + (rest + b);
      JoinCons(a[0], rest + b, sep);
      JoinCons(a[0], rest, sep);
      assert a == [a[0]] + rest;
    }
  }

  /** A string is the text before position `i`, the character there, and the text after it. */
  lemma CutAt(s: string, i: int)
    requires 0 <= i < |s|
    ensures s == s[..i] + [s[i]] + s[i + 1..]
  {
  }

  /** A string holding the separator splits into at least two pieces, the first ending before it. */
  lemma SplitAtSeparator(s: string, c: char)
    requires c in s
    ensures |Split(s, c)| >= 2
    ensures Split(s, c)[0] == s[..IndexOfChar(s, c)]
  {
  }

  /** Splitting undoes joining, as long as no piece contains the separator. */
  lemma {:induction false} SplitJoin(parts: seq<string>, c: char)
    requires |parts| >= 1
    requires forall i :: 0 <= i < |parts| ==> c !in parts[i]
    ensures Split(Join(parts, [c]), c) == parts
  {
    if |parts| > 1 {
      var s := Join(parts, [c]);
      var tail := Join(parts[1..], [c]);
      assert s == parts[0] + [c] + tail;
      assert s[..|parts[0]|] == parts[0];
      assert s[|parts[0]|] == c;
      assert IndexOfChar(s, c) == |parts[0]|;
      assert s[|parts[0]| + 1..] == tail;
      SplitJoin(parts[1..], c);
    }
  }

  /** `strings.Replace(s, from, to, -1)` for one-character patterns. */
  function ReplaceChar(s: string, from: char, to: char): (r: string)
    ensures |r| == |s|
    ensures forall i :: 0 <= i < |s| ==> r[i] == (if s[i] == from then to else s[i])
  {
    if |s| == 0 then "" else [if s[0] == from then to else s[0]] + ReplaceChar(s[1..], from, to)
  }

  /** Go's `<` on strings: lexicographic by character code. */
  predicate LexLess(a: string, b: string) {
    if |a| == 0 then |b| > 0
    else if |b| == 0 then false
    else if a[0] != b[0] then a[0] < b[0]
    else LexLess(a[1..], b[1..])
  }

  lemma {:induction false} LexLessIrreflexive(a: string)
    ensures !LexLess(a, a)
  {
    if |a| > 0 {
      LexLessIrreflexive(a[1..]);
    }
  }

  lemma {:induction false} LexLessAsymmetric(a: string, b: string)
    ensures LexLess(a, b) ==> !LexLess(b, a)
  {
    if |a| > 0 && |b| > 0 && a[0] == b[0] {
      LexLessAsymmetric(a[1..], b[1..]);
    }
  }

  lemma {:induction false} LexLessTransitive(a: string, b: string, c: string)
    requires LexLess(a, b) && LexLess(b, c)
    ensures LexLess(a, c)
  {
    if |a| > 0 && |b| > 0 && |c| > 0 && a[0] == b[0] && b[0] == c[0] {
      LexLessTransitive(a[1..], b[1..], c[1..]);
    }
  }

  lemma {:induction false} LexLessTotal(a: string, b: string)
    ensures a == b || LexLess(a, b) || LexLess(b, a)
  {
    if |a| > 0 && |b| > 0 && a[0] == b[0] {
      LexLessTotal(a[1..], b[1..]);
      if a[1..] == b[1..] {
        assert a == [a[0]] + a[1..] && b == [b[0]] + b[1..];
      }
    }
  }
}

=== FILE: wrappers.dfy ===
/** Optional values: the model's stand-in for Go's nil pointers and absent map entries. */
module Wrappers {

  datatype Option<+T> = None | Some(value: T) {

    /** The value, or `default` when absent. */
    function GetOr(default: T): T {
      match this
      case Some(v) => v
      case None => default
    }
  }

  /** The present values of a sequence of options, in order: Go's "append unless nil". */
  function Somes<T>(xs: seq<Option<T>>): (r: seq<T>)
    ensures |r| <= |xs|
    ensures forall k :: 0 <= k < |r| ==> Some(r[k]) in xs
    ensures forall i :: 0 <= i < |xs| && xs[i].Some? ==> xs[i].value in r
  {
    if |xs| == 0 then []
    else
      var init := xs[..|xs| - 1];
      assert xs == init + [xs[|xs| - 1]];
      match xs[|xs| - 1]
      case None => Somes(init)
      case Some(x) => Somes(init) + [x]
  }

  /**
   Where the present values come from: the `k`-th of them is the value of the
   `k`-th present option, so `idx` lists the present positions in order and
   misses none.
   */
  lemma {:induction false} SomesIndices<T>(xs: seq<Option<T>>) returns (idx: seq<nat>)
    ensures |idx| == |Somes(xs)|
    ensures forall k :: 0 <= k < |idx| ==> idx[k] < |xs| && xs[idx[k]] == Some(Somes(xs)[k])
    ensures forall k, l :: 0 <= k < l < |idx| ==> idx[k] < idx[l]
    ensures forall i :: 0 <= i < |xs| && xs[i].Some? ==> i in idx
    decreases |xs|
  {
    if |xs| == 0 {
      idx := [];
    } else {
      var init := xs[..|xs| - 1];
      var before := SomesIndices(init);
      assert xs == init + [xs[|xs| - 1]];
      if xs[|xs| - 1].Some? {
        assert Somes(xs) == Somes(init) + [xs[|xs| - 1].value];
        idx := before + [|xs| - 1];
      } else {
        assert Somes(xs) == Somes(init);
        idx := before;
      }
    }
  }

  lemma {:induction false} SomesAppend<T>(xs: seq<Option<T>>, ys: seq<Option<T>>)
    ensures Somes(xs + ys) == Somes(xs) + Somes(ys)
    decreases |ys|
  {
    if |ys| > 0 {
      var init := ys[..|ys| - 1];
      assert xs + ys == (xs + init) + [ys[|ys| - 1]];
      assert (xs + ys)[..|xs + ys| - 1] == xs + init;
      SomesAppend(xs, init);
    } else {
      assert xs + ys == xs;
    }
  }
}
